=== FILE: README.md ===
# fleet-api scheduling, onboarding and account rules in Dafny

This project models the in-memory rules behind the HTTP handlers of
fleet-api, the back end of a scooter-rental fleet. Drivers book shifts on
garage bikes. Operators check shifts in and out, approve or reject them and
pay for them. Applicants go through a membership review. Administrators
manage users, privileges and settings.

The database is a `Store` holding one sequence per collection, in insertion
order. Each handler is a pure function from the store and the request to a
`Reply`:

- `Ok` with the new store (or the data read);
- `BadRequest` with the error list the handler writes;
- `Forbidden`, `NotFound` or `Conflict`;
- `ServerError` where the Go code panics.

Time is an integer count of seconds on a local-time axis whose zero is
0000-01-01 00:00, proleptic Gregorian. Days are that count divided by 86400.

Library calls become parameters of the functions that use them:

- `mail.ParseAddress` is `parse`;
- the scrypt password comparison is `matches`, and the hash written is `hashed`;
- the secure-cookie decoder is `decode`;
- the clock is `now`;
- freshly generated ids and tokens are `newId`, `newMid` and `token`.

Modules follow the source files:

- `Civil`: the calendar arithmetic and the `DD-MM-YYYY` date format.
- `Records`: the documents of `db`.
- `RequestContext`: the request context the middleware leaves behind.
- `Availability`: db/Shift.go.
- `ShiftApi`: api/shifts.go.
- `AdminCalendar`: api/adminCalendar.go.
- `AdminBikes`: api/adminBikes.go.
- `Payroll`: api/adminPayroll.go.
- `MembershipApi`: api/membership.go.
- `AdminMemberships`: api/adminMemberships.go.
- `Users`: db/User.go.
- `Auth`: api/auth.go.
- `AdminUsers`: api/adminUsers.go.
- `Profile`: api/user.go.
- `Settings`: api/adminSettings.go.
- `Config`: config/config.go.
- `Wrappers`, `Seqs` and `Text`: generic helpers.

## Model

| member | source | states |
|---|---|---|
| Civil.DayStart | db/Shift.go:60-61 | the start of an instant's day is a midnight at or before it, less than a day earlier |
| Civil.SameDayIffInWindow | db/Shift.go:60-71 | an instant lies in the window [start of day, start of next day) of another instant exactly when both fall on the same calendar day |
| Civil.MinuteOfHour | api/adminCalendar.go:148 | the minute read by `Minute()` is between 0 and 59 |
| Civil.NormalizeMonth | api/shifts.go:51-52 | an out-of-range month is carried into the year, as `time.Date` does, and the result denotes the same month |
| Civil.MonthWindow | api/shifts.go:51-52 | the window [1st of month, 1st of month+1) is the normalised month and lasts between 28 and 31 whole days, December included |
| Civil.YearLength | api/shifts.go:51-52 | a year has 366 days when it is a leap year and 365 otherwise |
| Civil.MonthLength | api/shifts.go:51-52 | the first of the next month is `DaysInMonth` days after the first of this one |
| Civil.ParseDate | api/shifts.go:106 | a date parses exactly when the text is the `DD-MM-YYYY` form of a real date of the years 0..9999, and the result is that date's midnight |
| Civil.ParseFormatRoundTrip | api/shifts.go:106 | parsing the `DD-MM-YYYY` text of any real date of years 0..9999 gives back midnight of that date |
| Civil.ParseRejectsWrongLength | api/shifts.go:106-107 | text that is not ten characters long never parses |
| Civil.DecimalPadded | api/shifts.go:106 | reading back a zero-padded decimal gives the number back |
| RequestContext.EffectiveUser | api/shifts.go:15-20 | a request is about the proxied `admin_user` when present, otherwise about the caller |
| Availability.Candidates | db/Shift.go:44-58 | the candidate bikes are exactly the garage's available, unarchived bikes within the cc limit, each as often as it is stored, sorted by bike number |
| Availability.WindowOfDate | db/Shift.go:60-61 | the end of a date's window is the start of the next day, exactly 24 hours after its start |
| Availability.BlocksIffConfirmedOn | db/Shift.go:63-80 | a shift matches the window query exactly when it is a live confirmed shift of that garage and bike on the same day |
| Availability.AvailableBikes | db/Shift.go:40-84 | every offered bike belongs to the garage, is available and unarchived and within a positive cc limit; the offer is sorted by number and is a subsequence of the candidates; a bike is offered iff it is a candidate with no live confirmed shift that day |
| Availability.NoLimitOffersMore | db/Shift.go:50-54 | every bike offered under a cc limit is also offered with no limit |
| Availability.ConfirmedShiftExcludesBike | db/Shift.go:65-80 | a live confirmed shift on the day removes its bike from the offer, whatever the cc limit |
| Availability.NonBlockingShiftIsIgnored | db/Shift.go:66-73 | adding a shift that is not confirmed, or is deleted, or is in another garage or on another day leaves the offer unchanged |
| Availability.UnconfirmedBikeIsOffered | db/Shift.go:66-80 | a candidate bike whose only shifts that day are created ones is offered |
| Availability.LearnerScenario | db/Shift.go:50-54 | with a 125cc limit, a 50cc bike is offered and a 150cc bike is not |
| ShiftApi.DateChecks | api/shifts.go:105-118 | an unparsable date, a day that ended before now and a start hour already past are each named by their own message, the two "past" checks only for non-admin callers and the second only when the first passes; with no error the start is the day plus the hour |
| ShiftApi.BookingErrors | api/shifts.go:91-118 | the garage error is reported exactly when the garage does not exist, together with every date error, and nothing else; the list is empty exactly when the garage exists and the date checks pass |
| ShiftApi.Book | api/shifts.go:128-166 | the booking is made exactly when the bike is among those offered for the garage at the start instant with no engine-size limit, else Conflict; success appends one created shift for the effective user at that instant, added by the caller now, and changes nothing else |
| ShiftApi.CreateShift | api/shifts.go:80-167 | the reply is a 400 exactly when some booking check fails, carrying every failed check; otherwise the garage exists, the date parses and the insert decides the reply |
| ShiftApi.DriverCannotBookThePast | api/shifts.go:105-118 | a non-admin caller booking a start instant before now gets a 400 naming the date |
| ShiftApi.AdminBooksPastDays | api/shifts.go:94-118 | an admin caller can book a bike on a past day |
| ShiftApi.DoubleBookingAtCreatedStage | api/shifts.go:129-142 | two bookings of the same bike for the same day and hour both succeed, because created shifts do not block |
| ShiftApi.OwnedShift | api/shifts.go:15-33 | the route's shift is loaded only when its id parses and it belongs to the effective user; otherwise the request fails |
| ShiftApi.CancelShift | api/shifts.go:206-231 | a 400 exactly when the shift is deleted, checked in or past; "Shift already deleted" iff it is deleted and the "in the past" message iff it is checked in or past, possibly both; without errors every copy of that shift is removed, every other shift stays as often as it was stored and in its order, and nothing else changes |
| ShiftApi.CancelUndoesBook | api/shifts.go:206-231 | cancelling a fresh booking before its start restores the store exactly as it was before the booking |
| ShiftApi.ShiftSearch | api/shifts.go:169-204 | non-admin searches for an unparsable or past date are refused; a malformed garage id panics; the reply is Ok exactly when the date is accepted and the garage exists, and then it is the garage's availability on that day under `CcLimit`: 125cc iff the driver's licence is `cbt`, no limit otherwise |
| ShiftApi.RowsFor | api/shifts.go:56-73 | a shift's rows pair it with exactly the bikes carrying its bike id |
| ShiftApi.JoinBikes | api/shifts.go:56-73 | the join pairs every listed shift with exactly the bikes carrying its bike id |
| ShiftApi.GetShifts | api/shifts.go:35-78 | a missing year or month is a 400; otherwise the rows are, with multiplicity, the join of the effective user's shifts in the month window with their bikes, sorted by date |
| ShiftApi.ShiftHistory | api/shifts.go:233-256 | the history is exactly the user's complete, live shifts (paid ones only when asked), each as often as it is stored, latest first |
| Payroll.PaidShiftInHistory | api/shifts.go:233-256 | a complete shift a payout pays without removing it is listed in its driver's paid-only history |
| AdminCalendar.TargetShift | api/adminCalendar.go:95-104 | the route's shift is found exactly when its id parses and names a stored shift |
| AdminCalendar.EntriesFor | api/adminCalendar.go:24-52 | a shift's calendar entries pair it with its user and exactly the bikes carrying its bike id |
| AdminCalendar.EntriesOf | api/adminCalendar.go:24-52 | every entry of a shift carries that shift, a stored bike with its bike id and a stored user with its user id |
| AdminCalendar.DayRows | api/adminCalendar.go:16-52 | the rows of a day are exactly the shifts dated in [day, day+24h) whose user exists, each with its bike and user |
| AdminCalendar.DayEntries | api/adminCalendar.go:24-52 | the day's entries are the day's rows, each as often as it occurs there, sorted by date |
| AdminCalendar.GroupByBike | api/adminCalendar.go:38-52 | groups are one per bike, each non-empty and holding exactly that bike's entries in order, and every entry has a group |
| AdminCalendar.DayGroups | api/adminCalendar.go:15-58 | grouping the day's entries gives one date-ordered group per bike, covering exactly the day's rows |
| AdminCalendar.Calendar | api/adminCalendar.go:15-58 | an unparsable day is a 400; otherwise one group per bike, each in date order, holding exactly the shifts of that day whose user exists |
| AdminCalendar.CheckIn | api/adminCalendar.go:87-119 | check-in sets the supplied time (or now when none), the operator and status running, whatever the current status, and changes nothing else |
| AdminCalendar.RoundUpQuarter | api/adminCalendar.go:148-151 | the rounded time is at or after the input, less than 15 minutes later, on a quarter-hour minute, and unchanged when already on one |
| AdminCalendar.RoundUpQuarterIdempotent | api/adminCalendar.go:148-151 | rounding a rounded time changes nothing |
| AdminCalendar.RoundUpQuarterExamples | api/adminCalendar.go:148-151 | 14:07:30 rounds to 14:15:30 and 14:15:00 stays |
| AdminCalendar.CheckOut | api/adminCalendar.go:121-167 | check-out of a shift never checked in fails with "Not checked in" and changes nothing; otherwise the check-out is the request time (or now) rounded up to the next quarter hour, within 15 minutes of it; the operator and status complete are set and nothing else changes |
| AdminCalendar.CheckInThenOut | api/adminCalendar.go:87-167 | after a check-in, a check-out succeeds and completes the shift |
| AdminCalendar.Reset | api/adminCalendar.go:169-186 | reset sets status created, clears both times and operators, and changes nothing else |
| AdminCalendar.ResetUndoesCheckIn | api/adminCalendar.go:169-186 | resetting a freshly created shift after a check-in restores the store exactly |
| AdminCalendar.Approve | api/adminCalendar.go:202-238 | approving sets status cancelled, deleted, the date and the operator on every other created shift on the same bike and day, changing nothing else on them, and confirms the target; all other shifts are untouched; rejecting does the same cancellation to the target only |
| AdminCalendar.ApproveLeavesNoRival | api/adminCalendar.go:209-232 | after an approval no live created shift remains on the bike that day besides the target |
| AdminCalendar.ApproveBlocksBike | api/adminCalendar.go:209-232 | after approving a live shift, its bike is no longer offered on that day |
| AdminCalendar.Reassign | api/adminCalendar.go:240-255 | reassigning sets the new bike, undeletes and confirms the shift, and changes nothing else |
| AdminCalendar.ReassignCanDoubleBook | api/adminCalendar.go:247-252 | a shift can be reassigned onto a bike that already has a confirmed shift that day |
| AdminCalendar.ReassignBlocksBike | api/adminCalendar.go:240-255 | after reassigning a shift, the new bike is not offered that day in the shift's garage, whatever the engine-size limit |
| AdminBikes.ListBikes | api/adminBikes.go:22-35 | the listing is the unarchived bikes (available ones only when asked), sorted by number, with the same multiplicities |
| AdminBikes.Overwrite | api/adminBikes.go:126-130 | an update keeps the existing id and keeps creator and archiver unless the body sets them |
| AdminBikes.SaveBike | api/adminBikes.go:93-133 | a missing garage gives "Garage does not exist" and no write; POST appends a bike with the fresh id and creator; PUT keeps the existing id |
| AdminBikes.SavedBikeIsListed | api/adminBikes.go:93-133 | a saved, unarchived bike is listed afterwards under its id with the body's fields, and also in the available-only listing when it is available |
| AdminBikes.ArchiveBike | api/adminBikes.go:135-170 | an empty reason and an archived bike are refused with no change; otherwise the bike is archived, made unavailable, and its reason and actor are recorded |
| AdminBikes.ArchivedBikeNeverOffered | api/adminBikes.go:158-165 | an archived bike is never offered by availability afterwards |
| AdminBikes.ArchiveTwiceRefused | api/adminBikes.go:151-156 | archiving an archived bike again fails with "Bike is already archived" |
| AdminBikes.SetOperatorNotes | api/adminBikes.go:220-245 | notes are upserted by shift id, with the shift's bike and the actor, so there is one record per shift |
| AdminBikes.NotesUpsertIsIdempotentInCount | api/adminBikes.go:231-240 | writing notes for a shift twice leaves one record for that shift |
| AdminBikes.AttachmentName | api/adminBikes.go:305-312 | the name is the text between the first `filename="` and the next one (or the end) with every quote removed, or "unknown" when the marker is absent |
| AdminBikes.AttachmentNameOfHeader | api/adminBikes.go:305-312 | a header ending in `filename="n"` yields `n` |
| Payroll.MembershipRows | api/adminPayroll.go:17-39 | a shift's rows pair it with its user and exactly that user's memberships |
| Payroll.ShiftRows | api/adminPayroll.go:17-39 | a shift's rows pair it with exactly its stored users and their memberships |
| Payroll.DueRows | api/adminPayroll.go:17-39 | the joined rows are exactly the unpaid complete shifts with their users and memberships |
| Payroll.PayrollList | api/adminPayroll.go:14-45 | the list holds exactly the unpaid complete shifts with user and membership, with the multiplicity of the join, sorted by date |
| Payroll.LastItemFor | api/adminPayroll.go:67-84 | the item that decides a shift is the last one naming it, and there is none exactly when none names it |
| Payroll.SettleKeepsId | api/adminPayroll.go:67-84 | settling never changes a shift's id |
| Payroll.SettleUnlisted | api/adminPayroll.go:67-84 | a shift no item names is untouched |
| Payroll.SettlePaid | api/adminPayroll.go:67-73 | a listed shift is paid, by the actor, at the time, for its last item's total |
| Payroll.SettleDeleted | api/adminPayroll.go:75-81 | a shift removed by any of its items is deleted with reason "Payroll", the date and the actor; its amount is 0 when its last item removes it |
| Payroll.SettleFrame | api/adminPayroll.go:67-84 | settling changes only the payment and deletion fields |
| Payroll.SettleSummary | api/adminPayroll.go:67-84 | every shift's settlement has the payout effect: untouched when unlisted, paid (and deleted when removed) when listed |
| Payroll.Payout | api/adminPayroll.go:47-116 | a missing payee fails; otherwise each stored shift gets the payout effect, in place, and nothing else changes |
| Payroll.RemovalSticks | api/adminPayroll.go:75-81 | a removal is not undone by a later item for the same shift |
| Payroll.PaidShiftsLeaveTheList | api/adminPayroll.go:17-73 | a shift named in a payout is no longer awaiting payment |
| MembershipApi.Fill | api/membership.go:78-121 | a new application carries the submitted details, its membership and user ids, and no workflow state |
| MembershipApi.Visible | api/membership.go:20-30 | the driver's view of a membership hides the private notes and keeps everything else |
| MembershipApi.OwnMembership | api/membership.go:20-46 | the driver reads their own membership without private notes, or an empty one |
| MembershipApi.RequireMembership | api/membership.go:32-37 | routes that need a membership are forbidden exactly when the user has none |
| MembershipApi.UpdateDetails | api/membership.go:48-124 | a submitted application cannot change ("Cannot change submitted application"); otherwise the details replace the stored ones, keeping the membership id, or a new application is appended |
| MembershipApi.UpdateKeepsIdsUnique | api/membership.go:78-121 | saving details keeps membership ids unique |
| MembershipApi.FieldError | api/membership.go:155-181 | each of the eleven messages is reported exactly when its check fails and every earlier check in switch order passes; none exactly when every field is complete |
| MembershipApi.RequiredCount | api/membership.go:190-212 | the documents needed are exactly the required tags for the licence |
| MembershipApi.LicenceTypeMessage | api/membership.go:190-212 | the message for an unknown licence is `Licence type '`, the licence type itself, then `' invalid` |
| MembershipApi.RuleErrors | api/membership.go:183-212 | the work declaration must be one of three values, the licence must be full or cbt, and the document count must match; each failure is reported |
| MembershipApi.SubmissionErrors | api/membership.go:155-212 | at most one field error, first, then the rule errors; none exactly when the application is submittable |
| MembershipApi.MarkSubmitted | api/membership.go:214-225 | submission sets the submitted flag and date; every other field is the loaded document's, whose private notes are empty |
| MembershipApi.Submit | api/membership.go:126-251 | an invalid user id fails; a missing membership is 404; a 400 carries exactly the submission errors and changes nothing; success marks only that membership submitted and every other user's membership stays as it was |
| MembershipApi.SubmitLocksApplication | api/membership.go:105-225 | after a submission, saving details is refused |
| MembershipApi.SaveThenSubmit | api/membership.go:78-225 | details that pass every check, once saved, can be submitted |
| MembershipApi.DocumentNames | api/membership.go:330-338 | one uploaded file per required tag is a document of the user |
| MembershipApi.RequiredUploadsSuffice | api/membership.go:190-212 | uploading each required document gives exactly the required count |
| MembershipApi.FirstTag | api/membership.go:267-291 | the tag a file name reports occurs in it and no tag earlier in switch order does; none when it contains no tag |
| MembershipApi.TagsDoNotNest | api/membership.go:267-291 | no licence tag contains another, so switch order never hides a tag |
| MembershipApi.FirstTagOfFileName | api/membership.go:267-338 | an uploaded file's name reports its own tag |
| MembershipApi.LicenceFileName | api/membership.go:330-338 | a file id exists exactly for the six licence document types |
| MembershipApi.LicenceFileNameReportsKind | api/membership.go:267-338 | a file id reports its own type and is a document of its user |
| MembershipApi.LicenceFileNamesDistinct | api/membership.go:330-338 | different users or types never share a file id |
| MembershipApi.LicencePicture | api/membership.go:296-317 | an unknown type is a 400, a missing file a 404; otherwise the file of the caller's id and that type |
| MembershipApi.UploadLicence | api/membership.go:319-368 | a request without a file part panics whatever its type; otherwise an unknown type is a 400, and a known one replaces the effective user's file of that type by one new file, changing nothing else |
| MembershipApi.DeleteLicence | api/membership.go:370-390 | an unknown type is a 400; otherwise every file of that id is removed and nothing else changes |
| MembershipApi.DeleteUndoesUpload | api/membership.go:319-390 | deleting after an upload is the same as deleting at once |
| MembershipApi.UploadIdempotent | api/membership.go:319-368 | uploading the same type twice is the same as once |
| MembershipApi.UploadThenPicture | api/membership.go:296-368 | after a driver uploads a document, it can be read back |
| MembershipApi.TaggedAmongAllIffReported | api/membership.go:267-291 | scanning the user's files sets a tag's flag exactly when some file reports that tag |
| MembershipApi.RaiseFlags | api/membership.go:267-291 | the flag map has exactly the given keys, each true iff some scanned item reports it |
| MembershipApi.LicenceInfo | api/membership.go:253-294 | the info has exactly the six licence keys, each true iff a stored file of the user reports it |
| MembershipApi.UploadIsReported | api/membership.go:253-368 | after a driver uploads a document, its type is reported present |
| AdminMemberships.StageOf | api/adminMemberships.go:23-57 | a membership is approved, a draft, or pending with or without an interview date |
| AdminMemberships.ListingIsStage | api/adminMemberships.go:44-57 | the contacted and uncontacted listings are exactly the two pending stages |
| AdminMemberships.NewApplicants | api/adminMemberships.go:23-41 | the "new" listing is exactly the users with no membership or an unsubmitted one, in user order |
| AdminMemberships.DraftIsNew | api/adminMemberships.go:23-41 | a user whose application is a draft is listed as new |
| AdminMemberships.PendingMemberships | api/adminMemberships.go:44-57 | the listing for a state holds exactly the pending memberships of that stage |
| AdminMemberships.JoinUsers | api/adminMemberships.go:59-80 | each listed membership is paired with its user, and the join fails when a user is missing |
| AdminMemberships.ListPending | api/adminMemberships.go:44-80 | a server error exactly when a pending membership of the stage has no user; otherwise row i is the i-th pending membership of the stage with its user |
| AdminMemberships.Stats | api/adminMemberships.go:83-112 | the two counts add up to the pending memberships |
| AdminMemberships.StatsSplitPending | api/adminMemberships.go:84-111 | uncontacted and contacted counts split the pending count |
| AdminMemberships.StatsMatchListings | api/adminMemberships.go:44-112 | each count equals the length of its listing |
| AdminMemberships.ListingsPartitionPending | api/adminMemberships.go:44-57 | a pending membership is in exactly one of the two listings |
| AdminMemberships.WorkflowAndEditableDetermine | api/adminMemberships.go:138-163 | the workflow fields and the editable fields together determine a membership |
| AdminMemberships.KeepWorkflow | api/adminMemberships.go:138-163 | an admin edit keeps the original's workflow fields and takes every other field from the body |
| AdminMemberships.AdminUpdate | api/adminMemberships.go:127-170 | the edit always succeeds; with no membership an empty one with the body's editable fields is appended; otherwise only that membership changes, keeping its workflow |
| AdminMemberships.AdminEditKeepsStage | api/adminMemberships.go:138-163 | an admin edit never moves a membership to another stage |
| AdminMemberships.SetInterviewDate | api/adminMemberships.go:209-254 | a date before now is a 400 with no change; otherwise only the interview date of that membership changes, other users' memberships stay, and the mail subject says rescheduled iff a date was set before |
| AdminMemberships.ReplaceMembershipInPlace | api/adminMemberships.go:138-163 | updating the user's membership by its id replaces it with the updated one |
| AdminMemberships.InterviewMakesContacted | api/adminMemberships.go:218-242 | setting an interview on a pending membership makes it contacted |
| AdminMemberships.SecondInterviewIsRescheduled | api/adminMemberships.go:218-242 | a second interview date is announced as rescheduled |
| AdminMemberships.SetRating | api/adminMemberships.go:256-277 | the user's membership becomes itself with the new rating, every other user's membership stays, and nothing else changes; a missing membership fails |
| AdminMemberships.RatingIsReadBack | api/adminMemberships.go:256-277 | the administrator's view of the user shows the new rating with every other field as before, and other users' views are unchanged |
| AdminMemberships.RatingUndo | api/adminMemberships.go:256-277 | setting the previous rating again restores the store exactly |
| AdminMemberships.MaxApprovedNumber | api/adminMemberships.go:294-305 | the highest number among approved memberships, or none when none is approved |
| AdminMemberships.NextNumber | api/adminMemberships.go:294-316 | the next number is 100000 when none is approved, otherwise one more than the highest approved number |
| AdminMemberships.Accept | api/adminMemberships.go:279-329 | accepting an approved membership is a 400; otherwise the membership differs from before only in being approved by the actor at now with the next number, and every other user's membership stays |
| AdminMemberships.AcceptKeepsNumbersDistinct | api/adminMemberships.go:294-316 | approved membership numbers stay distinct and at least 100000 |
| AdminMemberships.StampKeepsNumbers | api/adminMemberships.go:294-316 | numbering the one membership with a given id above every approved number keeps approved numbers distinct and at least 100000 |
| AdminMemberships.FirstAcceptGetsFirstNumber | api/adminMemberships.go:294-316 | the first approval gets number 100000 |
| AdminMemberships.Reject | api/adminMemberships.go:331-360 | only a pending membership can be rejected; rejecting removes that membership document; every other membership stays as often as it was stored and in its order, and nothing else changes |
| AdminMemberships.RejectAllowsReapplying | api/adminMemberships.go:341-349 | after a rejection the user has no membership and can save a new application |
| AdminMemberships.MoveBack | api/adminMemberships.go:362-383 | only an approved, submitted membership moves back; it becomes unapproved and loses its interview date, and other users' memberships stay |
| AdminMemberships.MoveBackReopens | api/adminMemberships.go:372-380 | a moved-back membership is pending uncontacted and can be accepted again |
| AdminMemberships.AdminView | api/adminMemberships.go:114-125 | the admin reads the user's stored membership, or an empty one |
| Users.PasswordSecureIff | db/User.go:151-153 | a password is secure iff its UTF-8 encoding has at least 8 bytes and it has an upper-case letter |
| Users.PasswordLengthInBytes | db/User.go:151-153 | the length is counted in bytes: a seven-character password with a two-byte letter is long enough |
| Text.Utf8Length | db/User.go:152 | Go's `len` of a string is between its character count and four times that, and equals the character count exactly for ASCII text |
| Users.UpdatePassword | db/User.go:155-172 | a weak password is refused with "Weak Password ..." and writes nothing; a missing user is "not found"; a secure password for a stored user always succeeds, and success changes only that user's hash |
| Users.GetNameIsFirstWord | db/User.go:174-176 | the first name has no space, is a prefix of the name, and is followed by a space when shorter |
| Users.GetNameOfFullName | db/User.go:174-176 | the first name of "first rest" is "first", and a one-word name is itself |
| Users.FindUserById | db/User.go:94-110 | an invalid id gives "Invalid ID"; a valid id with no user gives no user and no error; otherwise the stored user with that id |
| Auth.Guard | api/auth.go:64-111 | a guard forbids exactly the callers holding none of its roles and passes the rest unchanged |
| Auth.SuperAdminGuard | api/auth.go:64-75 | admits exactly holders of a superadmin privilege |
| Auth.AdminGuard | api/auth.go:77-91 | admits exactly holders of an admin or superadmin privilege |
| Auth.SupervisorGuard | api/auth.go:93-111 | admits exactly holders of a supervisor, mechanic, admin or superadmin privilege and sets `is_admin` |
| Auth.GuardsNest | api/auth.go:64-111 | whoever passes the superadmin guard passes the admin guard, and whoever passes that passes the supervisor guard |
| Auth.StaffAreNotAdmins | api/auth.go:77-111 | a supervisor or mechanic passes the supervisor guard, as an admin caller, but not the admin guard |
| Auth.SecureMiddleware | api/auth.go:24-62 | a request passes exactly when the token decodes, its user id is valid hex, and that user is not blocked; the caller is that user |
| Auth.SessionOfUser | api/auth.go:24-62 | a session for a user's hex id passes exactly when the user is not blocked |
| Auth.Login | api/auth.go:113-179 | empty email or password is a 400; blocked users never log in; the first active user with the lower-cased email decides: login succeeds exactly when that user's password matches, names that user, and only sets their last login |
| Auth.PasswordErrors | api/auth.go:203-211 | "shorter than 8" iff the encoding has fewer than 8 bytes, "lowercase" iff an insecure password has no upper-case letter; none exactly when the password is secure |
| Auth.SignupErrors | api/auth.go:193-220 | the list is empty exactly when email, name and phone are present, the password is secure and the address parses; an insecure password always reports one of the two password messages |
| Auth.SignupMessages | api/auth.go:193-220 | each signup check (email, name, phone, address, password under 8 bytes, lowercase password) reports its own message exactly when it fails |
| Auth.Signup | api/auth.go:181-290 | any error is a 400 with no insert; an address in use is "User Exists"; success appends the user and an empty membership carrying the phone number |
| Auth.SignupIsNotRepeatable | api/auth.go:222-230 | signing up twice with the same form gives "User Exists" |
| Auth.SignupThenLogin | api/auth.go:113-265 | a new account can log in with its password |
| Auth.SendReset | api/auth.go:401-441 | the first user with the lower-cased address decides: a token is issued exactly when that user is not protected, for that user, expiring 15 minutes after now; a missing address is refused |
| Auth.DoReset | api/auth.go:443-481 | a weak password is refused; an unknown or expired token is a 400; with a secure password the first live token decides: success exactly when its user id is valid and the user exists, and then that user's password is set and all of that user's tokens are removed |
| Auth.ResetTokenExpires | api/auth.go:426-468 | a token used 15 minutes or more after issue is refused |
| Auth.ResetWithinLifetime | api/auth.go:426-478 | a token used within its 15 minutes, with a secure password, succeeds |
| Auth.ResetIsSingleUse | api/auth.go:459-478 | a token that succeeded once never succeeds again |
| AdminUsers.SetPrivileges | api/adminUsers.go:112-147 | a protected user is refused with no change; otherwise the user's privileges become exactly the one granted (or none for another type) and other users' stay |
| AdminUsers.AtMostOnePrivilege | api/adminUsers.go:126-146 | after setting privileges a user holds at most one |
| AdminUsers.OwnPrivileges | api/adminUsers.go:126-146 | after a change the user holds exactly the requested privilege when its type is assignable, and none otherwise |
| AdminUsers.PrivilegesDecideGuards | api/adminUsers.go:126-146 | after setting a privilege type, the guards admit the user exactly as that type allows |
| AdminUsers.EmailErrors | api/adminUsers.go:199-222 | no error exactly when the address parses, changes and is free; a parse error comes first, followed by "Email address in use" iff the address is taken; for a parsed address "Email not changed" iff it is the user's own and "Email address in use" iff some user holds it |
| AdminUsers.SetEmail | api/adminUsers.go:189-231 | errors are joined with ", " into one 400 and nothing is written; otherwise only the target's lower-cased address changes |
| AdminUsers.UnchangedEmailReportsBoth | api/adminUsers.go:204-222 | resubmitting the user's own address reports "Email not changed, Email address in use" |
| AdminUsers.EmailTakenAfterChange | api/adminUsers.go:212-222 | once an address is given to one user, giving it to another is refused |
| AdminUsers.SetName | api/adminUsers.go:233-262 | an empty name is "Invalid" with no write; otherwise only the target's name changes |
| AdminUsers.RenameReadBack | api/adminUsers.go:233-262 | after renaming a user to "first rest", the first name shown for that user is "first" |
| AdminUsers.DeleteUser | api/adminUsers.go:264-281 | protected users and the caller themself are refused; otherwise the user and their membership are removed, every other user and every other user's membership stay |
| AdminUsers.BlockUser | api/adminUsers.go:283-312 | protected users and the caller themself are refused; otherwise only the target's blocked flag is set, to whether the method is POST |
| AdminUsers.BlockingDecidesSessions | api/adminUsers.go:292-296 | after blocking, the user's sessions are refused; after unblocking they pass |
| AdminUsers.Rows | api/adminUsers.go:17-54 | a user's listing rows pair them with exactly their approved memberships |
| AdminUsers.UserListing | api/adminUsers.go:17-76 | the listing holds exactly the users with an approved membership, with that membership |
| AdminUsers.AcceptListsDriver | api/adminUsers.go:50-53 | an accepted applicant appears in the user listing |
| Profile.PresenceErrors | api/user.go:178-183 | at most one of "Name cannot be empty" and "Email cannot be empty", the name checked first |
| Profile.EmailErrors | api/user.go:185-199 | an unparsable email is invalid; an address belonging to another user is in use; the caller's own address is allowed |
| Profile.PaypalErrors | api/user.go:201-208 | a non-empty PayPal email that does not parse is "Paypal Email address invalid" |
| Profile.AddressErrors | api/user.go:210-221 | with a membership, at most the first of address, city and postcode that is empty |
| Profile.ProfileErrors | api/user.go:178-221 | no error exactly when name and email are present, the email parses and is free, the PayPal email parses when given, and a member's address is complete |
| Profile.ApplyProfile | api/user.go:223-251 | the caller's name, email and PayPal email are set and every other user is kept; the loaded membership gets the submitted address fields and every other user's membership stays; nothing else changes |
| Profile.UpdateProfile | api/user.go:160-252 | any error is a 400 carrying every failed check and writing nothing; otherwise the email parses and the reply is the profile write |
| Profile.UpdateProfileAsWritten | api/user.go:185-208 | an unparsable non-empty email or PayPal email ends in a server error; every other input behaves as the corrected handler |
| Profile.UnparsableEmailPanics | api/user.go:185-199 | a concrete form whose email does not parse fails with a server error where a 400 "Email address invalid" is meant |
| Profile.ProfileUpdateIdempotent | api/user.go:160-252 | submitting the same profile twice leaves the store as the first submission did |
| Settings.VisibleSettings | api/adminSettings.go:11-26 | an admin sees every setting; anyone else sees exactly the `shift_description` and `days` settings, in stored order |
| Settings.SetSettings | api/adminSettings.go:28-41 | the stored settings are exactly the submitted documents that are first with their `_id`, in order, with distinct ids; nothing else changes |
| Settings.ReadAfterWrite | api/adminSettings.go:11-41 | after a write, what a caller reads depends only on what was written |
| Settings.InsertEachIsFirsts | api/adminSettings.go:36-38 | inserting the documents one by one, skipping an `_id` already stored, keeps exactly the first document of each id |
| Settings.FirstsUnique | api/adminSettings.go:36-38 | the stored settings carry pairwise different ids |
| Settings.DistinctIdsAllKept | api/adminSettings.go:36-38 | documents with pairwise different ids are all stored, in order |
| Settings.DuplicateIdKeepsFirst | api/adminSettings.go:36-38 | of two documents with one `_id`, only the first is stored |
| Settings.PublicViewIsStable | api/adminSettings.go:14-21 | filtering the public view again changes nothing |
| Config.ResolvePort | config/config.go:114-120 | a non-empty PORT gives ":" + PORT; otherwise the configured port, or ":3000" when empty; never empty |
| Config.ResolvePortStable | config/config.go:114-120 | resolving a resolved port again keeps it, and an override decides regardless of the configured port |
| Config.Encode | config/config.go:147-150 | the encoding has a multiple of four characters |
| Config.EncodeAlphabet | config/config.go:147-150 | every character of the encoding is from the base64 alphabet or '=' |
| Config.EncodedLength | config/config.go:147-150 | every started group of three bytes takes four characters |
| Config.DecodeEncode | config/config.go:147-150 | decoding an encoding gives back the bytes |
| Config.GpsAuthorization | config/config.go:147-150 | the header is "Basic " followed by text that decodes to email, colon, password |

## Left out

- Storage I/O: MongoDB queries, GridFS streaming of licence pictures and maintenance attachments, and panics on storage errors. Collections are sequences, and a panic is `ServerError`. Writes a handler made before it panics stay in the database, but `ServerError` carries no store, so such partial writes are not represented: for instance the membership removed before a failing user delete, or the reset token inserted before a failing mail send.
- Sorting: only the order the listings promise is modelled. Ties between equal keys are left in no particular order. Projections (which fields a query returns) are not modelled, except the hidden private notes.
- Crypto: scrypt hashing and the two-step hash lookup, the secure-cookie codec and random token generation. These are parameters, so the model states nothing about their correctness.
- External services: Google sign-in, Stripe billing, Mailgun mails and templates, and the GPS proxy. None of their effects are modelled. The mail subject of an interview date is returned as a value.
- Background goroutines: the fire-and-forget mails and the `last_access` update of the session check.
- Time zones: all times are local, on one axis. `time.Parse` is modelled for the `DD-MM-YYYY` layout only, and `AddDate(-21, 0, 0)` is the parameter `adultCutoff`.
- Handlers outside the core:
  - routing and the lookup middleware;
  - garage CRUD and the contact form;
  - `adminGetShiftInfo`, `adminGetUser`, `adminGetAdminUsers` and `adminSaveUser`;
  - the maintenance log handlers and the operator-notes readers;
  - `getUser`, `getUserPrivileges`, the password-change handlers and the billing handlers.
- `adminShiftNotes` is left out: it never reads its body and always writes empty notes.
- AdminUsers.UserListing: the listing's text search and its sort are not modelled; the set of rows is.
- Profile.UpdateProfile: the phone number of the form is read but never used, and it is not modelled.
- Config.Decode: this is the reference decoder of section 4 of RFC 4648, written to state the round trip. The source does decode base64, the cookie hash and encryption key in config/config.go:122-125 with their errors ignored; that call is not modelled. Line breaks and unpadded input are not accepted.
- Config.GpsAuthorization: the email and password are their UTF-8 bytes, given as byte sequences. The conversion from Go strings is not modelled.
- Config.Encode: the contract states only the length modulo 4. The alphabet is the separate lemma `Config.EncodeAlphabet` and the exact length 4 * ceil(n / 3) the separate lemma `Config.EncodedLength`.
- AdminBikes.SetOperatorNotes: the report is always written under the stored report's id, or under a fresh id when there is none. In the source a client-supplied `_id` in the body goes into the upsert's replacement document. One that differs from the stored report's makes the write fail and the handler panic, and for a new report it becomes the inserted id. Neither case is modelled.
- Payroll amounts are integers; the source's `float32` totals are not modelled.
- Text.ToLower: folds ASCII letters only. Go's `strings.ToLower` also folds every other Unicode upper-case letter, so `"Élève123"` is secure in the source but not in the model. The same difference reaches the lower-cased email addresses of login, signup, the email change and the profile.
- Users.PasswordSecureIff: the upper-case test is the ASCII fold of `Text.ToLower`; the length is Go's byte length, modelled by `Text.Utf8Length`.
- Auth.PasswordErrors: the "lowercase" message uses the ASCII fold of `Text.ToLower`; the byte length is modelled.
- Auth.SignupErrors: the password checks use the ASCII fold of `Text.ToLower`; the byte length is modelled.
- Auth.SignupMessages: the password checks use the ASCII fold of `Text.ToLower`; the byte length is modelled.
- ShiftApi.DateChecks: `time.Duration(hour) * time.Hour` wraps around in 64 bits when the hour is beyond about 2562047 in size; the model computes `hour * 3600` seconds without a bound.

## Findings

| source | as written | input that shows it | evidently intended | confidence | as-written member | corrected member |
|---|---|---|---|---|---|---|
| api/user.go:186-203 | the address returned by `mail.ParseAddress` is dereferenced before its error is checked | a profile whose email is "not an address" | a 400 with "Email address invalid" (or "Paypal Email address invalid") | not executed; the nil dereference follows from Go semantics | Profile.UpdateProfileAsWritten, Profile.UnparsableEmailPanics | Profile.UpdateProfile |

=== FILE: admin_bikes.dfy ===
/** The fleet administration handlers (api/adminBikes.go): listing, saving
    and archiving bikes, the operator's end-of-shift report, and the name of
    an uploaded maintenance attachment. */
module AdminBikes {
  import opened Wrappers
  import opened Seqs
  import opened Text
  import opened Records
  import opened Availability
  import opened AdminCalendar

  const GarageMissing := "Garage does not exist"
  const ReasonMissing := "Please provide a reason for archiving this bike"
  const AlreadyArchived := "Bike is already archived"

  // ----- listing and saving -----

  /** `adminGetBikes`: the bikes not archived (and, when asked, available),
      by bike number. */
  function ListBikes(bikes: seq<Bike>, availableOnly: bool): (r: seq<Bike>)
    ensures SortedBy(r, BikeNumber)
    ensures forall b :: b in r <==> b in bikes && !b.archived && (availableOnly ==> b.available)
    ensures multiset(r) == multiset(Filter(bikes, (b: Bike) => !b.archived && (availableOnly ==> b.available)))
  {
    var listed := Filter(bikes, (b: Bike) => !b.archived && (availableOnly ==> b.available));
    var r := SortBy(listed, BikeNumber);
    assert forall b :: b in r <==> b in listed by {
      forall b ensures b in r <==> b in listed { SortByMembers(listed, BikeNumber, b); }
    }
    r
  }

  /** The bike a PUT writes: the body's fields under the existing id. The
      two `omitempty` ids keep their stored value when the body leaves them
      empty, as a `$set` of the encoded struct does. */
  function Overwrite(existing: Bike, body: Bike): (r: Bike)
    ensures r.id == existing.id
    ensures body.createdBy.None? ==> r.createdBy == existing.createdBy
    ensures body.createdBy.Some? ==> r.createdBy == body.createdBy
    ensures body.archivedBy.None? ==> r.archivedBy == existing.archivedBy
    ensures body.archivedBy.Some? ==> r.archivedBy == body.archivedBy
    ensures r.(createdBy := body.createdBy, archivedBy := body.archivedBy) == body.(id := existing.id)
  {
    body.(id := existing.id,
          createdBy := if body.createdBy.Some? then body.createdBy else existing.createdBy,
          archivedBy := if body.archivedBy.Some? then body.archivedBy else existing.archivedBy)
  }

  /** `adminSaveBike`: POST creates a bike with a fresh id and its creator;
      PUT overwrites the route's bike `existing`. Either way the garage must
      exist. The reply carries the bike written. */
  function SaveBike(st: Store, body: Bike, create: bool, existing: Bike, now: int, caller: ObjectId, newId: ObjectId): (r: Reply<(Store, Bike)>)
    ensures r.Ok? || r.BadRequest? || r.ServerError?
    ensures r.BadRequest? <==> !GarageExists(st.garages, body.garage)
    ensures r.BadRequest? ==> r.errors == [GarageMissing]
    ensures r.ServerError? ==> !create && forall b :: b in st.bikes ==> b.id != existing.id
    ensures r.Ok? && create ==>
      var (st', bike) := r.value;
      && st' == st.(bikes := st.bikes + [bike])
      && bike.id == newId && bike.created == now && bike.createdBy == Some(caller)
      && bike == body.(id := newId, created := now, createdBy := Some(caller))
    ensures r.Ok? && !create ==>
      var (st', bike) := r.value;
      && bike.id == existing.id
      && st' == st.(bikes := st'.bikes)
      && |st'.bikes| == |st.bikes|
      && (exists b :: b in st.bikes && b.id == existing.id)
      && forall i :: 0 <= i < |st.bikes| ==>
        st'.bikes[i] == if st.bikes[i].id == existing.id then Overwrite(st.bikes[i], body) else st.bikes[i]
  {
    if FindGarageById(st.garages, body.garage).None? then BadRequest([GarageMissing])
    else if create then
      var bike := body.(id := newId, created := now, createdBy := Some(caller));
      Ok((st.(bikes := st.bikes + [bike]), bike))
    else if !exists b <- st.bikes :: b.id == existing.id then ServerError
    else
      var bikes := Update(st.bikes, (b: Bike) => b.id == existing.id, (b: Bike) => Overwrite(b, body));
      Ok((st.(bikes := bikes), body.(id := existing.id)))
  }

  /** A stored bike that is not archived is listed, and also listed among
      the available ones when it is available. */
  lemma StoredBikeIsListed(bikes: seq<Bike>, x: Bike)
    requires x in bikes && !x.archived
    ensures x in ListBikes(bikes, false)
    ensures x.available ==> x in ListBikes(bikes, true)
  {
  }

  /** A saved bike that is not archived is listed afterwards: a POST lists
      the bike it created, a PUT lists the body's fields under the kept id
      (with the stored creator and archiver when the body leaves them
      empty); when the bike is available it is also in the available-only
      listing. */
  lemma SavedBikeIsListed(st: Store, body: Bike, create: bool, existing: Bike, now: int, caller: ObjectId, newId: ObjectId)
    requires SaveBike(st, body, create, existing, now, caller, newId).Ok?
    requires !body.archived
    ensures var (st', bike) := SaveBike(st, body, create, existing, now, caller, newId).value;
      exists x :: x in ListBikes(st'.bikes, false) && x.id == bike.id
        && x.(createdBy := bike.createdBy, archivedBy := bike.archivedBy) == bike
        && (body.available ==> x in ListBikes(st'.bikes, true))
  {
    var r := SaveBike(st, body, create, existing, now, caller, newId).value;
    var bikes, bike := r.0.bikes, r.1;
    var x: Bike;
    if create {
      assert bikes == st.bikes + [bike];
      x := bike;
      assert bikes[|st.bikes|] == x;
    } else {
      var b :| b in st.bikes && b.id == existing.id;
      var i :| 0 <= i < |st.bikes| && st.bikes[i] == b;
      x := bikes[i];
      assert x == Overwrite(b, body);
    }
    StoredBikeIsListed(bikes, x);
  }

  // ----- archiving -----

  /** `adminDeleteBike`: archiving needs a reason and a bike not already
      archived; the bike is then archived and disabled, recording why and by
      whom. */
  function ArchiveBike(st: Store, bike: Bike, reason: string, caller: ObjectId): (r: Reply<Store>)
    ensures r.Ok? || r.BadRequest? || r.ServerError?
    ensures |reason| == 0 ==> r == BadRequest([ReasonMissing])
    ensures |reason| > 0 && bike.archived ==> r == BadRequest([AlreadyArchived])
    ensures r.ServerError? <==> |reason| > 0 && !bike.archived && forall b :: b in st.bikes ==> b.id != bike.id
    ensures r.Ok? ==>
      && r.value == st.(bikes := r.value.bikes)
      && |r.value.bikes| == |st.bikes|
      && forall i :: 0 <= i < |st.bikes| ==>
        var before, after := st.bikes[i], r.value.bikes[i];
        if before.id == bike.id then
          && after.archived && !after.available
          && after.archivedReason == reason && after.archivedBy == Some(caller)
          && after.(archived := before.archived, available := before.available,
                    archivedReason := before.archivedReason, archivedBy := before.archivedBy) == before
        else after == before
  {
    if |reason| == 0 then BadRequest([ReasonMissing])
    else if bike.archived then BadRequest([AlreadyArchived])
    else if !exists b <- st.bikes :: b.id == bike.id then ServerError
    else
      Ok(st.(bikes := Update(st.bikes, (b: Bike) => b.id == bike.id,
        (b: Bike) => b.(archived := true, archivedReason := reason, archivedBy := Some(caller), available := false))))
  }

  /** An archived bike is never offered again, whatever the shifts, day,
      garage or engine-size limit. */
  lemma ArchivedBikeNeverOffered(st: Store, bike: Bike, reason: string, caller: ObjectId,
                                 shifts: seq<Shift>, garage: ObjectId, date: int, maxCC: int)
    requires ArchiveBike(st, bike, reason, caller).Ok?
    ensures var r := ArchiveBike(st, bike, reason, caller).value;
      forall b :: b in AvailableBikes(r.bikes, shifts, garage, date, maxCC) ==> b.id != bike.id
  {
    var r := ArchiveBike(st, bike, reason, caller).value;
    forall b | b in AvailableBikes(r.bikes, shifts, garage, date, maxCC) ensures b.id != bike.id {
      var i :| 0 <= i < |r.bikes| && r.bikes[i] == b;
      assert !b.archived;
    }
  }

  /** Archiving twice fails the second time and changes nothing more. */
  lemma ArchiveTwiceRefused(st: Store, bike: Bike, reason: string, caller: ObjectId)
    requires ArchiveBike(st, bike, reason, caller).Ok?
    ensures var st1 := ArchiveBike(st, bike, reason, caller).value;
      forall b :: b in st1.bikes && b.id == bike.id ==> ArchiveBike(st1, b, reason, caller) == BadRequest([AlreadyArchived])
  {
    var st1 := ArchiveBike(st, bike, reason, caller).value;
    forall b | b in st1.bikes && b.id == bike.id ensures b.archived {
      var i :| 0 <= i < |st1.bikes| && st1.bikes[i] == b;
    }
  }

  // ----- operator notes -----

  /** At most one report per shift. */
  predicate OneReportPerShift(history: seq<BikeHistory>) {
    forall i, j :: 0 <= i < j < |history| ==> history[i].shift != history[j].shift
  }

  /** `adminSetShiftOperatorNotes`: the report is upserted by shift, tied to
      the shift's bike and signed by the operator. A replaced report keeps its
      document id; a new one gets `newId`. */
  function SetOperatorNotes(st: Store, idText: string, body: BikeHistory, caller: ObjectId, newId: ObjectId): (r: Reply<Store>)
    ensures r.Ok? <==> TargetShift(st, idText).Some?
    ensures !r.Ok? ==> r.ServerError?
    ensures r.Ok? ==> var shift := TargetShift(st, idText).value;
      && r.value == st.(history := r.value.history)
      && (exists h :: h in r.value.history && h.shift == shift.id
            && h == body.(id := h.id, shift := shift.id, bike := shift.bike, checkedBy := caller))
      && (forall h :: h in st.history && h.shift != shift.id ==> h in r.value.history)
      && (forall h :: h in r.value.history && h.shift != shift.id ==> h in st.history)
      && (OneReportPerShift(st.history) ==> OneReportPerShift(r.value.history))
  {
    match TargetShift(st, idText)
    case None => ServerError
    case Some(shift) =>
      var report := body.(shift := shift.id, bike := shift.bike, checkedBy := caller);
      match FirstIndex(st.history, (h: BikeHistory) => h.shift == shift.id)
      case Some(j) =>
        var h := st.history[j := report.(id := st.history[j].id)];
        assert h[j] in h;
        assert forall x :: x in st.history && x.shift != shift.id ==> x in h by {
          forall x | x in st.history && x.shift != shift.id ensures x in h {
            var k :| 0 <= k < |st.history| && st.history[k] == x;
            assert h[k] == x;
          }
        }
        Ok(st.(history := h))
      case None =>
        var h := st.history + [report.(id := newId)];
        assert h[|st.history|] in h;
        Ok(st.(history := h))
  }

  /** Saving the report of a shift twice leaves a single report for it. */
  lemma NotesUpsertIsIdempotentInCount(st: Store, idText: string, body: BikeHistory, caller: ObjectId, id1: ObjectId, id2: ObjectId)
    requires OneReportPerShift(st.history)
    requires TargetShift(st, idText).Some?
    ensures var st1 := SetOperatorNotes(st, idText, body, caller, id1).value;
      var st2 := SetOperatorNotes(st1, idText, body, caller, id2).value;
      && OneReportPerShift(st2.history)
      && |st2.history| == |st1.history|
  {
    var shift := TargetShift(st, idText).value;
    var st1 := SetOperatorNotes(st, idText, body, caller, id1).value;
    assert st1.shifts == st.shifts;
    assert TargetShift(st1, idText) == Some(shift);
    var h :| h in st1.history && h.shift == shift.id;
    assert FirstIndex(st1.history, (x: BikeHistory) => x.shift == shift.id).Some?;
  }

  // ----- maintenance attachment name -----

  const FilenameMarker := "filename=\""

  /** The stored name of an uploaded attachment: the text after the first
      `filename="` of the part's `content-disposition` (up to a second one,
      if any) with every quote removed, or `unknown`. */
  function AttachmentName(disposition: string): (r: string)
    ensures '"' !in r
    ensures !(exists i :: OccursAt(disposition, FilenameMarker, i)) ==> r == "unknown"
    ensures (exists i :: OccursAt(disposition, FilenameMarker, i)) ==>
      var i := FindFrom(disposition, FilenameMarker, 0).value;
      && OccursAt(disposition, FilenameMarker, i)
      && (forall j :: 0 <= j < i ==> !OccursAt(disposition, FilenameMarker, j))
      && |r| <= |disposition| - i - |FilenameMarker|
    ensures forall i :: FirstOccurrence(disposition, FilenameMarker, 0, i) ==>
      var start := i + |FilenameMarker|;
      && (forall k :: FirstOccurrence(disposition, FilenameMarker, start, k) ==>
            r == RemoveChar(disposition[start..k], '"'))
      && ((forall k :: start <= k ==> !OccursAt(disposition, FilenameMarker, k)) ==>
            r == RemoveChar(disposition[start..], '"'))
  {
    if |disposition| > 0 then
      FindFromFirst(disposition, FilenameMarker);
      match SplitSecond(disposition, FilenameMarker)
      case Some(part) => RemoveChar(part, '"')
      case None => "unknown"
    else "unknown"
  }

  /** A header `p filename="n"` whose prefix has no quote and whose name has
      neither quotes nor `=` yields exactly `n`. */
  lemma AttachmentNameOfHeader(p: string, n: string)
    requires '"' !in p && '"' !in n && '=' !in n
    ensures AttachmentName(p + FilenameMarker + n + "\"") == n
  {
    var d := p + FilenameMarker + n + "\"";
    MarkerFirstAfterPrefix(p, n);
    NoMarkerInName(p, n);
    assert d[|p| + |FilenameMarker|..] == n + "\"";
    RemoveCharConcat(n, "\"", '"');
    RemoveCharAbsent(n, '"');
  }

  /** The marker first occurs right after a prefix without quotes. */
  lemma MarkerFirstAfterPrefix(p: string, n: string)
    requires '"' !in p
    ensures FindFrom(p + FilenameMarker + n + "\"", FilenameMarker, 0) == Some(|p|)
  {
    var d := p + FilenameMarker + n + "\"";
    var k := |FilenameMarker|;
    assert d[|p| + 9] == '"';
    assert OccursAt(d, FilenameMarker, |p|) by {
      assert d[|p|..|p| + k] == FilenameMarker;
    }
    forall j | 0 <= j < |p| ensures !OccursAt(d, FilenameMarker, j) {
      assert d[j + 9] != '"';
    }
  }

  /** A name without quotes or `=`, closed by a quote, holds no marker. */
  lemma NoMarkerInName(p: string, n: string)
    requires '"' !in n && '=' !in n
    ensures FindFrom(p + FilenameMarker + n + "\"", FilenameMarker, |p| + |FilenameMarker|).None?
  {
    var d := p + FilenameMarker + n + "\"";
    forall j | j >= |p| + |FilenameMarker| ensures !OccursAt(d, FilenameMarker, j) {
      NoMarkerAt(p, n, j);
    }
  }

  /** No marker starts at position `j` past the first one: its quote or its
      `=` would fall on a character of the name. */
  lemma NoMarkerAt(p: string, n: string, j: int)
    requires '"' !in n && '=' !in n
    requires j >= |p| + |FilenameMarker|
    ensures !OccursAt(p + FilenameMarker + n + "\"", FilenameMarker, j)
  {
    var head := p + FilenameMarker;
    var body := head + n;
    var d := body + "\"";
    var k := |FilenameMarker|;
    assert k == 10 && FilenameMarker[8] == '=' && FilenameMarker[9] == '"';
    if j + k <= |d| {
      var x := if j + 9 < |d| - 1 then j + 9 else j + 8;
      assert d[x] == body[x] == n[x - |head|];
      assert n[x - |head|] in n;
      assert d[j..j + k][x - j] == d[x];
    }
  }
}

=== FILE: admin_calendar.dfy ===
/** The operators' calendar (api/adminCalendar.go): the day view grouped by
    bike, check-in and check-out, resetting a shift, approving or rejecting a
    booking, and moving a shift to another bike. Every handler names its
    shift by the hexadecimal id in the route. */
module AdminCalendar {
  import opened Wrappers
  import opened Seqs
  import opened Civil
  import opened Records
  import opened Availability

  const NotCheckedIn := "Not checked in"

  /** The shift a route names; `None` when the id does not parse or no shift
      has it (the Go code panics in both cases). */
  function TargetShift(st: Store, idText: string): (r: Option<Shift>)
    ensures r.Some? ==> r.value in st.shifts && ObjectIdHex(idText) == Some(r.value.id)
    ensures r.None? ==> ObjectIdHex(idText).None? || forall s :: s in st.shifts ==> Some(s.id) != ObjectIdHex(idText)
  {
    match ObjectIdHex(idText)
    case None => None
    case Some(id) => FindShift(st.shifts, id)
  }

  /** Only the shifts with id `id` may differ between `before` and `after`,
      and only the shifts collection changes. */
  predicate OnlyShiftChanged(before: Store, after: Store, id: ObjectId) {
    && after == before.(shifts := after.shifts)
    && |after.shifts| == |before.shifts|
    && forall i :: 0 <= i < |before.shifts| && before.shifts[i].id != id ==> after.shifts[i] == before.shifts[i]
  }

  /** The two collections hold shifts with the same ids at the same positions. */
  predicate SameIds(a: seq<Shift>, b: seq<Shift>) {
    |a| == |b| && forall i :: 0 <= i < |a| ==> a[i].id == b[i].id
  }

  /** The shift a route names depends only on the ids held. */
  lemma TargetShiftById(st1: Store, st2: Store, idText: string)
    requires SameIds(st1.shifts, st2.shifts)
    ensures TargetShift(st1, idText).Some? <==> TargetShift(st2, idText).Some?
    ensures TargetShift(st1, idText).Some? ==> TargetShift(st2, idText).value.id == TargetShift(st1, idText).value.id
  {
    if TargetShift(st1, idText).Some? {
      var i :| 0 <= i < |st1.shifts| && st1.shifts[i] == TargetShift(st1, idText).value;
      assert st2.shifts[i] in st2.shifts;
    }
    if TargetShift(st2, idText).Some? {
      var i :| 0 <= i < |st2.shifts| && st2.shifts[i] == TargetShift(st2, idText).value;
      assert st1.shifts[i] in st1.shifts;
    }
  }

  // ----- the day view -----

  /** A shift of the day with its bike and its driver. */
  datatype CalendarEntry = CalendarEntry(shift: Shift, bike: Bike, user: User)

  function EntryDate(e: CalendarEntry): int { e.shift.date }

  /** The bookings of one bike. */
  datatype CalendarGroup = CalendarGroup(bike: ObjectId, entries: seq<CalendarEntry>)

  function BikeIs(bike: ObjectId): CalendarEntry -> bool {
    (e: CalendarEntry) => e.shift.bike == bike
  }

  predicate DistinctBikes(groups: seq<CalendarGroup>) {
    forall i, j :: 0 <= i < j < |groups| ==> groups[i].bike != groups[j].bike
  }

  /** The entries for one shift: its bikes, with its driver (`$lookup`,
      then `$unwind` of the bike, which drops a shift whose bike is gone). */
  function EntriesFor(s: Shift, u: User, bikes: seq<Bike>): (r: seq<CalendarEntry>)
    ensures forall e :: e in r <==> e.shift == s && e.user == u && e.bike in bikes && e.bike.id == s.bike
  {
    var matching := Filter(bikes, (b: Bike) => b.id == s.bike);
    var r := seq(|matching|, i requires 0 <= i < |matching| => CalendarEntry(s, matching[i], u));
    assert forall i :: 0 <= i < |matching| ==> r[i] == CalendarEntry(s, matching[i], u);
    forall e: CalendarEntry | e.shift == s && e.user == u && e.bike in matching ensures e in r {
      var i :| 0 <= i < |matching| && matching[i] == e.bike;
      assert r[i] == e;
    }
    r
  }

  /** A shift of the day `[day, day + 24h)` whose driver exists, as entries. */
  function EntriesOf(st: Store, day: int, s: Shift): (r: seq<CalendarEntry>)
    ensures forall e :: e in r ==> e.shift == s && e.bike in st.bikes && e.bike.id == s.bike && e.user in st.users && e.user.id == s.user
  {
    if day <= s.date < day + SecondsPerDay then
      match FindUser(st.users, s.user)
      case Some(u) => EntriesFor(s, u, st.bikes)
      case None => []
    else []
  }

  /** The entries of every shift of the day `[day, day + 24h)`. */
  function DayRows(st: Store, day: int): (r: seq<CalendarEntry>)
    ensures forall e :: e in r ==>
      && e.shift in st.shifts && day <= e.shift.date < day + SecondsPerDay
      && e.bike in st.bikes && e.bike.id == e.shift.bike
      && e.user in st.users && e.user.id == e.shift.user
    ensures forall s, b ::
      (s in st.shifts && day <= s.date < day + SecondsPerDay && FindUser(st.users, s.user).Some? && b in st.bikes && b.id == s.bike)
      ==> CalendarEntry(s, b, FindUser(st.users, s.user).value) in r
  {
    var r := FlatMap(st.shifts, (s: Shift) => EntriesOf(st, day, s));
    forall e | e in r
      ensures e.shift in st.shifts && day <= e.shift.date < day + SecondsPerDay
    {
      var s :| s in st.shifts && e in EntriesOf(st, day, s);
    }
    forall s, b | s in st.shifts && day <= s.date < day + SecondsPerDay && FindUser(st.users, s.user).Some? && b in st.bikes && b.id == s.bike
      ensures CalendarEntry(s, b, FindUser(st.users, s.user).value) in r
    {
      assert CalendarEntry(s, b, FindUser(st.users, s.user).value) in EntriesOf(st, day, s);
    }
    r
  }

  /** The day's entries by date. */
  function DayEntries(st: Store, day: int): (r: seq<CalendarEntry>)
    ensures SortedBy(r, EntryDate)
    ensures multiset(r) == multiset(DayRows(st, day))
    ensures forall e :: e in r <==> e in DayRows(st, day)
  {
    var rows := DayRows(st, day);
    var sorted := SortBy(rows, EntryDate);
    assert forall e :: e in sorted <==> e in rows by {
      forall e ensures e in sorted <==> e in rows { SortByMembers(rows, EntryDate, e); }
    }
    sorted
  }

  function EntryBike(e: CalendarEntry): ObjectId { e.shift.bike }

  /** `$group` by bike: one group per bike, holding exactly that bike's
      entries in their original order. Groups come in order of each bike's
      first entry. */
  function GroupByBike(entries: seq<CalendarEntry>): (groups: seq<CalendarGroup>)
    ensures DistinctBikes(groups)
    ensures forall g :: g in groups ==> |g.entries| > 0 && g.entries == Filter(entries, BikeIs(g.bike))
    ensures forall e :: e in entries ==> exists g :: g in groups && g.bike == e.shift.bike
  {
    var bikes := DistinctKeys(entries, EntryBike);
    var groups := seq(|bikes|, i requires 0 <= i < |bikes| => CalendarGroup(bikes[i], Filter(entries, BikeIs(bikes[i]))));
    forall g | g in groups ensures |g.entries| > 0 {
      var i :| 0 <= i < |groups| && groups[i] == g;
      assert bikes[i] in bikes;
      var e :| e in entries && EntryBike(e) == bikes[i];
      assert e in g.entries;
    }
    forall e | e in entries ensures exists g :: g in groups && g.bike == e.shift.bike {
      assert EntryBike(e) in bikes;
      var i :| 0 <= i < |bikes| && bikes[i] == EntryBike(e);
      assert groups[i] in groups;
    }
    groups
  }

  /** The day view of day `day`, grouped. */
  lemma DayGroups(st: Store, day: int)
    requires day % SecondsPerDay == 0
    ensures var groups := GroupByBike(DayEntries(st, day));
      && DistinctBikes(groups)
      && (forall g :: g in groups ==> SortedBy(g.entries, EntryDate))
      && (forall g, e :: g in groups && e in g.entries ==>
          && e.shift in st.shifts && e.shift.bike == g.bike
          && DayOf(e.shift.date) == DayOf(day)
          && e.user in st.users && e.user.id == e.shift.user)
      && (forall s, b ::
          (s in st.shifts && DayOf(s.date) == DayOf(day)
           && FindUser(st.users, s.user).Some? && b in st.bikes && b.id == s.bike)
          ==> exists g :: g in groups && CalendarEntry(s, b, FindUser(st.users, s.user).value) in g.entries)
  {
    forall t: int ensures day <= t < day + SecondsPerDay <==> DayOf(t) == DayOf(day) {
      SameDayIffInWindow(day, t);
    }
    GroupsSorted(DayEntries(st, day));
    DayGroupsSound(st, day);
    DayGroupsComplete(st, day);
  }

  /** Grouping keeps each group in the order of a sorted input. */
  lemma GroupsSorted(entries: seq<CalendarEntry>)
    requires SortedBy(entries, EntryDate)
    ensures forall g :: g in GroupByBike(entries) ==> SortedBy(g.entries, EntryDate)
  {
    forall g | g in GroupByBike(entries) ensures SortedBy(g.entries, EntryDate) {
      FilterKeepsSorted(entries, BikeIs(g.bike), EntryDate);
    }
  }

  /** Every grouped entry is a shift of the window, of the group's bike. */
  lemma DayGroupsSound(st: Store, day: int)
    ensures forall g, e :: g in GroupByBike(DayEntries(st, day)) && e in g.entries ==>
      && e.shift in st.shifts && e.shift.bike == g.bike
      && day <= e.shift.date < day + SecondsPerDay
      && e.user in st.users && e.user.id == e.shift.user
  {
    var entries := DayEntries(st, day);
    forall g, e | g in GroupByBike(entries) && e in g.entries
      ensures e.shift in st.shifts && e.shift.bike == g.bike && day <= e.shift.date < day + SecondsPerDay
      ensures e.user in st.users && e.user.id == e.shift.user
    {
      assert e in entries;
      assert e in DayRows(st, day);
    }
  }

  /** Every shift of the window with an existing driver, joined with each
      of its bikes, is in some group. */
  lemma DayGroupsComplete(st: Store, day: int)
    ensures forall s, b ::
      (s in st.shifts && day <= s.date < day + SecondsPerDay
       && FindUser(st.users, s.user).Some? && b in st.bikes && b.id == s.bike)
      ==> exists g :: g in GroupByBike(DayEntries(st, day)) && CalendarEntry(s, b, FindUser(st.users, s.user).value) in g.entries
  {
    var entries := DayEntries(st, day);
    var groups := GroupByBike(entries);
    forall s, b | s in st.shifts && day <= s.date < day + SecondsPerDay && FindUser(st.users, s.user).Some? && b in st.bikes && b.id == s.bike
      ensures exists g :: g in groups && CalendarEntry(s, b, FindUser(st.users, s.user).value) in g.entries
    {
      var e := CalendarEntry(s, b, FindUser(st.users, s.user).value);
      assert e in DayRows(st, day);
      assert e in entries;
      var g :| g in groups && g.bike == e.shift.bike;
      assert e in g.entries;
    }
  }

  /** `adminGetShiftCalendar`: the day's shifts whose driver exists, grouped
      by bike, each group by date. */
  function Calendar(st: Store, dayText: string): (r: Reply<seq<CalendarGroup>>)
    ensures r.Ok? <==> ParseDate(dayText).Some?
    ensures !r.Ok? ==> r.BadRequest?
    ensures r.Ok? ==> DistinctBikes(r.value)
    ensures r.Ok? ==> forall g :: g in r.value ==> SortedBy(g.entries, EntryDate)
    ensures r.Ok? ==> forall g, e :: g in r.value && e in g.entries ==>
      && e.shift in st.shifts && e.shift.bike == g.bike
      && DayOf(e.shift.date) == DayOf(ParseDate(dayText).value)
      && e.user in st.users && e.user.id == e.shift.user
    ensures r.Ok? ==> forall s, b ::
      (s in st.shifts && DayOf(s.date) == DayOf(ParseDate(dayText).value)
       && FindUser(st.users, s.user).Some? && b in st.bikes && b.id == s.bike)
      ==> exists g :: g in r.value && CalendarEntry(s, b, FindUser(st.users, s.user).value) in g.entries
  {
    match ParseDate(dayText)
    case None => BadRequest([])
    case Some(day) =>
      DayGroups(st, day);
      Ok(GroupByBike(DayEntries(st, day)))
  }

  // ----- check-in, check-out, reset -----

  /** `adminShiftCheckIn`: the shift is running from `date` (now when the
      body carries no date), checked in by the operator. The shift's status
      is not inspected. */
  function CheckIn(st: Store, idText: string, date: Option<int>, now: int, operator: ObjectId): (r: Reply<Store>)
    ensures r.Ok? <==> TargetShift(st, idText).Some?
    ensures !r.Ok? ==> r.ServerError?
    ensures r.Ok? ==> var id := TargetShift(st, idText).value.id;
      && OnlyShiftChanged(st, r.value, id)
      && SameIds(st.shifts, r.value.shifts)
      && forall i :: 0 <= i < |st.shifts| && st.shifts[i].id == id ==>
        var before, after := st.shifts[i], r.value.shifts[i];
        && after.status == Running
        && after.checkIn == Some(date.GetOr(now))
        && after.checkInOperator == Some(operator)
        && after == before.(status := after.status, checkIn := after.checkIn, checkInOperator := after.checkInOperator)
  {
    match TargetShift(st, idText)
    case None => ServerError
    case Some(s) =>
      var at := date.GetOr(now);
      Ok(st.(shifts := UpdateShift(st.shifts, s.id, (x: Shift) => x.(status := Running, checkIn := Some(at), checkInOperator := Some(operator)))))
  }

  /** Go's `Time.Minute`-based rounding of a check-out: up to the next
      quarter of an hour, keeping the seconds (14:07:30 becomes 14:15:30). */
  function RoundUpQuarter(t: int): (r: int)
    ensures t <= r < t + 15 * SecondsPerMinute
    ensures (r - t) % SecondsPerMinute == 0
    ensures MinuteOfHour(r) % 15 == 0
    ensures MinuteOfHour(t) % 15 == 0 ==> r == t
  {
    var rem := MinuteOfHour(t) % 15;
    if rem > 0 then
      QuarterStep(t);
      t + (15 - rem) * SecondsPerMinute
    else t
  }

  lemma QuarterStep(t: int)
    requires MinuteOfHour(t) % 15 > 0
    ensures MinuteOfHour(t + (15 - MinuteOfHour(t) % 15) * SecondsPerMinute) % 15 == 0
  {
    var q := t / 60;
    var m := q % 60;
    var k := 15 - m % 15;
    assert (t + k * 60) / 60 == q + k;
    assert m + k == (m / 15 + 1) * 15;
    assert q + k == (q / 60) * 60 + (m / 15 + 1) * 15;
    if m / 15 == 3 {
      assert (q + k) % 60 == 0;
    } else {
      assert (q + k) % 60 == (m / 15 + 1) * 15;
    }
  }

  /** Rounding an already rounded instant changes nothing. */
  lemma RoundUpQuarterIdempotent(t: int)
    ensures RoundUpQuarter(RoundUpQuarter(t)) == RoundUpQuarter(t)
  {
  }

  /** 14:07:30 rounds to 14:15:30; 14:15:00 stays. */
  lemma RoundUpQuarterExamples()
    ensures RoundUpQuarter(14 * 3600 + 7 * 60 + 30) == 14 * 3600 + 15 * 60 + 30
    ensures RoundUpQuarter(14 * 3600 + 15 * 60) == 14 * 3600 + 15 * 60
  {
  }

  /** `adminShiftCheckOut`: a shift that was never checked in is refused;
      otherwise it is complete at the rounded-up instant. */
  function CheckOut(st: Store, idText: string, date: Option<int>, now: int, operator: ObjectId): (r: Reply<Store>)
    ensures r.Ok? || r.BadRequest? || r.ServerError?
    ensures r.ServerError? <==> TargetShift(st, idText).None?
    ensures r.BadRequest? <==> TargetShift(st, idText).Some? && TargetShift(st, idText).value.checkIn.None?
    ensures r.BadRequest? ==> r.errors == [NotCheckedIn]
    ensures r.Ok? ==> var id := TargetShift(st, idText).value.id;
      && OnlyShiftChanged(st, r.value, id)
      && SameIds(st.shifts, r.value.shifts)
      && forall i :: 0 <= i < |st.shifts| && st.shifts[i].id == id ==>
        var before, after := st.shifts[i], r.value.shifts[i];
        && after.status == Complete
        && after.checkOut == Some(RoundUpQuarter(date.GetOr(now)))
        && date.GetOr(now) <= after.checkOut.value < date.GetOr(now) + 15 * SecondsPerMinute
        && MinuteOfHour(after.checkOut.value) % 15 == 0
        && after.checkOutOperator == Some(operator)
        && after == before.(status := after.status, checkOut := after.checkOut, checkOutOperator := after.checkOutOperator)
  {
    match TargetShift(st, idText)
    case None => ServerError
    case Some(s) =>
      if s.checkIn.None? then BadRequest([NotCheckedIn])
      else
        var at := RoundUpQuarter(date.GetOr(now));
        Ok(st.(shifts := UpdateShift(st.shifts, s.id, (x: Shift) => x.(status := Complete, checkOut := Some(at), checkOutOperator := Some(operator)))))
  }

  /** A check-in followed by a check-out at a later instant completes the
      shift, and the shift ends no earlier than it started. */
  lemma CheckInThenOut(st: Store, idText: string, t1: int, t2: int, now: int, op1: ObjectId, op2: ObjectId)
    requires TargetShift(st, idText).Some?
    requires t1 <= t2
    ensures CheckIn(st, idText, Some(t1), now, op1).Ok?
    ensures var st1 := CheckIn(st, idText, Some(t1), now, op1).value;
      var r := CheckOut(st1, idText, Some(t2), now, op2);
      && r.Ok?
      && forall s :: s in r.value.shifts && Some(s.id) == ObjectIdHex(idText) ==>
        s.status == Complete && s.checkIn == Some(t1) && t1 <= s.checkOut.value
  {
    var id := TargetShift(st, idText).value.id;
    var st1 := CheckIn(st, idText, Some(t1), now, op1).value;
    TargetShiftById(st, st1, idText);
    var t := TargetShift(st1, idText).value;
    assert t in st1.shifts && t.id == id;
    var r := CheckOut(st1, idText, Some(t2), now, op2);
    assert r.Ok?;
    forall s | s in r.value.shifts && Some(s.id) == ObjectIdHex(idText)
      ensures s.status == Complete && s.checkIn == Some(t1) && t1 <= s.checkOut.value
    {
      var j :| 0 <= j < |r.value.shifts| && r.value.shifts[j] == s;
      assert st1.shifts[j].id == id;
    }
  }

  /** `adminShiftReset`: the shift is `created` again, with no check-in or
      check-out. */
  function Reset(st: Store, idText: string): (r: Reply<Store>)
    ensures r.Ok? <==> TargetShift(st, idText).Some?
    ensures !r.Ok? ==> r.ServerError?
    ensures r.Ok? ==> var id := TargetShift(st, idText).value.id;
      && OnlyShiftChanged(st, r.value, id)
      && SameIds(st.shifts, r.value.shifts)
      && forall i :: 0 <= i < |st.shifts| && st.shifts[i].id == id ==>
        var before, after := st.shifts[i], r.value.shifts[i];
        && after.status == Created
        && after.checkIn.None? && after.checkOut.None?
        && after.checkInOperator.None? && after.checkOutOperator.None?
        && after == before.(status := Created, checkIn := None, checkOut := None, checkInOperator := None, checkOutOperator := None)
  {
    match TargetShift(st, idText)
    case None => ServerError
    case Some(s) =>
      Ok(st.(shifts := UpdateShift(st.shifts, s.id,
        (x: Shift) => x.(status := Created, checkIn := None, checkOut := None, checkInOperator := None, checkOutOperator := None))))
  }

  /** A reset undoes a mistaken check-in: checking in a freshly created shift
      and resetting it gives back the store unchanged. */
  lemma ResetUndoesCheckIn(st: Store, idText: string, date: Option<int>, now: int, op: ObjectId)
    requires TargetShift(st, idText).Some?
    requires forall s :: s in st.shifts && Some(s.id) == ObjectIdHex(idText) ==>
      s.status == Created && s.checkIn.None? && s.checkOut.None? && s.checkInOperator.None? && s.checkOutOperator.None?
    ensures CheckIn(st, idText, date, now, op).Ok?
    ensures Reset(CheckIn(st, idText, date, now, op).value, idText) == Ok(st)
  {
    var st1 := CheckIn(st, idText, date, now, op).value;
    TargetShiftById(st, st1, idText);
    var st2 := Reset(st1, idText).value;
    ResetRestoresEach(st, st1, st2, TargetShift(st, idText).value.id, ObjectIdHex(idText));
    assert st2.shifts == st.shifts;
  }

  /** Shift by shift: a fresh shift checked in and then cleared is the shift
      it was, and every other shift was never touched. */
  lemma ResetRestoresEach(st: Store, st1: Store, st2: Store, id: ObjectId, named: Option<ObjectId>)
    requires named == Some(id)
    requires forall s :: s in st.shifts && Some(s.id) == named ==>
      s.status == Created && s.checkIn.None? && s.checkOut.None? && s.checkInOperator.None? && s.checkOutOperator.None?
    requires OnlyShiftChanged(st, st1, id) && OnlyShiftChanged(st1, st2, id)
    requires forall i :: 0 <= i < |st.shifts| && st.shifts[i].id == id ==>
      st1.shifts[i] == st.shifts[i].(status := st1.shifts[i].status, checkIn := st1.shifts[i].checkIn, checkInOperator := st1.shifts[i].checkInOperator)
    requires forall i :: 0 <= i < |st1.shifts| && st1.shifts[i].id == id ==>
      st2.shifts[i] == st1.shifts[i].(status := Created, checkIn := None, checkOut := None, checkInOperator := None, checkOutOperator := None)
    ensures st2 == st
  {
    forall j | 0 <= j < |st.shifts| ensures st2.shifts[j] == st.shifts[j] {
      if st.shifts[j].id == id {
        assert st.shifts[j] in st.shifts;
      }
    }
    assert st2.shifts == st.shifts;
  }

  // ----- approve, reject, reassign -----

  /** A rival booking of `target`: another `created` shift for the same bike
      on the same day (any garage). */
  predicate IsRival(x: Shift, target: Shift) {
    && x.bike == target.bike
    && DayOf(x.date) == DayOf(target.date)
    && x.id != target.id
    && x.status == Created
  }

  /** The fields a cancellation sets; `deleted_reason` is left as it was. */
  function Cancellation(x: Shift, now: int, operator: ObjectId): Shift {
    x.(status := Cancelled, deleted := true, deletedDate := Some(now), deletedBy := Some(operator))
  }

  /** `adminApproveShiftStatus`: approving (POST) cancels every rival booking
      and confirms the shift; rejecting (any other method) cancels the shift.
      Approving does not clear the shift's `deleted` flag. */
  function Approve(st: Store, idText: string, approve: bool, now: int, operator: ObjectId): (r: Reply<Store>)
    ensures r.Ok? <==> TargetShift(st, idText).Some?
    ensures !r.Ok? ==> r.ServerError?
    ensures r.Ok? ==>
      && r.value == st.(shifts := r.value.shifts)
      && |r.value.shifts| == |st.shifts|
    ensures r.Ok? && approve ==> var t := TargetShift(st, idText).value;
      forall i :: 0 <= i < |st.shifts| ==>
        var before, after := st.shifts[i], r.value.shifts[i];
        && (before.id == t.id ==> after == before.(status := Confirmed))
        && (IsRival(before, t) ==>
              after == before.(status := Cancelled, deleted := true, deletedDate := Some(now), deletedBy := Some(operator)))
        && (before.id != t.id && !IsRival(before, t) ==> after == before)
    ensures r.Ok? && !approve ==> var t := TargetShift(st, idText).value;
      forall i :: 0 <= i < |st.shifts| ==>
        var before, after := st.shifts[i], r.value.shifts[i];
        && (before.id == t.id ==>
              after == before.(status := Cancelled, deleted := true, deletedDate := Some(now), deletedBy := Some(operator)))
        && (before.id != t.id ==> after == before)
  {
    match TargetShift(st, idText)
    case None => ServerError
    case Some(t) =>
      if approve then
        var withoutRivals := Update(st.shifts, (x: Shift) => IsRival(x, t), (x: Shift) => Cancellation(x, now, operator));
        Ok(st.(shifts := UpdateShift(withoutRivals, t.id, (x: Shift) => x.(status := Confirmed))))
      else
        Ok(st.(shifts := UpdateShift(st.shifts, t.id, (x: Shift) => Cancellation(x, now, operator))))
  }

  /** After an approval no rival booking is left `created`. */
  lemma ApproveLeavesNoRival(st: Store, idText: string, now: int, operator: ObjectId)
    requires TargetShift(st, idText).Some?
    ensures var t := TargetShift(st, idText).value;
      forall x ::
        (x in Approve(st, idText, true, now, operator).value.shifts && x.bike == t.bike
         && DayOf(x.date) == DayOf(t.date) && x.id != t.id)
        ==> x.status != Created
  {
    var t := TargetShift(st, idText).value;
    var r := Approve(st, idText, true, now, operator).value;
    forall x | x in r.shifts && x.bike == t.bike && DayOf(x.date) == DayOf(t.date) && x.id != t.id
      ensures x.status != Created
    {
      var i :| 0 <= i < |r.shifts| && r.shifts[i] == x;
      assert st.shifts[i].id != t.id;
    }
  }

  /** Approving a live booking takes its bike out of that day's offer in its
      garage, whatever the engine-size limit. */
  lemma ApproveBlocksBike(st: Store, idText: string, now: int, operator: ObjectId, maxCC: int)
    requires TargetShift(st, idText).Some?
    requires !TargetShift(st, idText).value.deleted
    ensures var t := TargetShift(st, idText).value;
      var r := Approve(st, idText, true, now, operator).value;
      forall b :: b in AvailableBikes(r.bikes, r.shifts, t.garage, t.date, maxCC) ==> b.id != t.bike
  {
    var t := TargetShift(st, idText).value;
    var r := Approve(st, idText, true, now, operator).value;
    var i :| 0 <= i < |st.shifts| && st.shifts[i] == t;
    var confirmed := r.shifts[i];
    assert confirmed == t.(status := Confirmed);
    assert confirmed in r.shifts;
    ConfirmedShiftExcludesBike(r.bikes, r.shifts, confirmed, t.date, maxCC);
  }

  /** `adminReassignBike`: the shift moves to another bike and is confirmed
      and live. An unparsable bike id ends the request (the Go code panics). */
  function Reassign(st: Store, idText: string, bikeText: string): (r: Reply<Store>)
    ensures r.Ok? <==> TargetShift(st, idText).Some? && ObjectIdHex(bikeText).Some?
    ensures !r.Ok? ==> r.ServerError?
    ensures r.Ok? ==> var id := TargetShift(st, idText).value.id;
      && OnlyShiftChanged(st, r.value, id)
      && forall i :: 0 <= i < |st.shifts| && st.shifts[i].id == id ==>
        var before, after := st.shifts[i], r.value.shifts[i];
        && after.bike == ObjectIdHex(bikeText).value
        && after.status == Confirmed && !after.deleted
        && after == before.(bike := after.bike, status := Confirmed, deleted := false)
  {
    match TargetShift(st, idText)
    case None => ServerError
    case Some(t) =>
      match ObjectIdHex(bikeText)
      case None => ServerError
      case Some(bike) =>
        Ok(st.(shifts := UpdateShift(st.shifts, t.id, (x: Shift) => x.(bike := bike, status := Confirmed, deleted := false))))
  }

  /** After a reassignment the new bike is not offered that day in the
      shift's garage, whatever the engine-size limit. */
  lemma ReassignBlocksBike(st: Store, idText: string, bikeText: string, maxCC: int)
    requires Reassign(st, idText, bikeText).Ok?
    ensures var t := TargetShift(st, idText).value;
      var r := Reassign(st, idText, bikeText).value;
      forall b :: b in AvailableBikes(r.bikes, r.shifts, t.garage, t.date, maxCC) ==> b.id != ObjectIdHex(bikeText).value
  {
    var t := TargetShift(st, idText).value;
    var r := Reassign(st, idText, bikeText).value;
    var i :| 0 <= i < |st.shifts| && st.shifts[i] == t;
    var moved := r.shifts[i];
    assert moved == t.(bike := ObjectIdHex(bikeText).value, status := Confirmed, deleted := false);
    assert moved in r.shifts;
    ConfirmedShiftExcludesBike(r.bikes, r.shifts, moved, t.date, maxCC);
  }

  /** Reassigning does not look at the new bike's bookings: moving a shift
      onto a bike that already has a live confirmed shift that day leaves
      two live confirmed shifts for one bike on one day. */
  lemma ReassignCanDoubleBook(st: Store, idText: string, bikeText: string, a: Shift)
    requires TargetShift(st, idText).Some?
    requires a in st.shifts && a.id != TargetShift(st, idText).value.id
    requires a.status == Confirmed && !a.deleted
    requires DayOf(a.date) == DayOf(TargetShift(st, idText).value.date)
    requires ObjectIdHex(bikeText) == Some(a.bike)
    ensures Reassign(st, idText, bikeText).Ok?
    ensures var r := Reassign(st, idText, bikeText).value;
      exists x, y :: x in r.shifts && y in r.shifts && x.id != y.id && x.bike == y.bike
        && DayOf(x.date) == DayOf(y.date)
        && x.status == Confirmed && y.status == Confirmed && !x.deleted && !y.deleted
  {
    var t := TargetShift(st, idText).value;
    var r := Reassign(st, idText, bikeText).value;
    var i :| 0 <= i < |st.shifts| && st.shifts[i] == t;
    var j :| 0 <= j < |st.shifts| && st.shifts[j] == a;
    assert r.shifts[j] == a;
    assert r.shifts[i].id == t.id && r.shifts[i].bike == a.bike;
    assert r.shifts[i] in r.shifts && a in r.shifts;
  }
}

=== FILE: admin_memberships.dfy ===
/** The onboarding review of membership applications
    (api/adminMemberships.go): listings and counts of applications by stage,
    the administrator's edit of an application, the interview, the rating,
    and the three outcomes (accept, reject, move back). Every handler acts
    on the first membership of the user named in the route. */
module AdminMemberships {
  import opened Wrappers
  import opened Seqs
  import opened Records
  import MembershipApi

  // ---------------------------------------------------------------------
  // Stages
  // ---------------------------------------------------------------------

  /** Where an application is in the onboarding flow. */
  datatype Stage = Draft | Uncontacted | Contacted | Approved

  function StageOf(m: Membership): (s: Stage)
    ensures s == Approved <==> m.approved
    ensures s == Draft <==> !m.approved && !m.submitted
  {
    if m.approved then Approved
    else if !m.submitted then Draft
    else if m.interviewDate.None? then Uncontacted
    else Contacted
  }

  /** Submitted and awaiting a decision. */
  predicate Pending(m: Membership) { m.submitted && !m.approved }

  /** The pending listing's query: no interview date, unless `contacted`
      was asked for. */
  predicate InListing(m: Membership, contacted: bool) {
    Pending(m) && (if contacted then m.interviewDate.Some? else m.interviewDate.None?)
  }

  lemma ListingIsStage(m: Membership, contacted: bool)
    ensures InListing(m, contacted) <==> StageOf(m) == (if contacted then Contacted else Uncontacted)
  {
  }

  // ---------------------------------------------------------------------
  // Listings and statistics
  // ---------------------------------------------------------------------

  /** Users without any membership, or with some unsubmitted one (the
      `$lookup` join matches when any joined membership is unsubmitted). */
  predicate IsNewApplicant(ms: seq<Membership>, u: User) {
    (forall m :: m in ms ==> m.user != u.id) || (exists m <- ms :: m.user == u.id && !m.submitted)
  }

  /** `adminGetMemberships?state=new`. */
  function NewApplicants(st: Store): (r: seq<User>)
    ensures forall u :: u in r <==> u in st.users && IsNewApplicant(st.memberships, u)
    ensures IsSubsequence(r, st.users)
  {
    FilterIsSubsequence(st.users, (u: User) => IsNewApplicant(st.memberships, u));
    Filter(st.users, (u: User) => IsNewApplicant(st.memberships, u))
  }

  /** A user whose membership has not been submitted is listed as new. */
  lemma DraftIsNew(st: Store, u: User)
    requires u in st.users
    requires MembershipOf(st.memberships, u.id).Some? && StageOf(MembershipOf(st.memberships, u.id).value) == Draft
    ensures u in NewApplicants(st)
  {
    assert MembershipOf(st.memberships, u.id).value in st.memberships;
  }

  /** The memberships the pending listing selects, in natural order. */
  function PendingMemberships(ms: seq<Membership>, state: string): (r: seq<Membership>)
    ensures forall m :: m in r <==> m in ms && InListing(m, state == "contacted")
  {
    Filter(ms, (m: Membership) => InListing(m, state == "contacted"))
  }

  /** Each membership with its user; `None` when a user is missing, which
      the handler answers with a server error. */
  function JoinUsers(users: seq<User>, ms: seq<Membership>): (r: Option<seq<(User, Membership)>>)
    ensures r.None? <==> exists m <- ms :: FindUser(users, m.user).None?
    ensures r.Some? ==> |r.value| == |ms|
    ensures r.Some? ==> forall i :: 0 <= i < |ms| ==>
      r.value[i].1 == ms[i] && r.value[i].0 in users && r.value[i].0.id == ms[i].user
  {
    if ms == [] then Some([])
    else match FindUser(users, ms[0].user)
      case None => None
      case Some(u) =>
        match JoinUsers(users, ms[1..])
        case None => None
        case Some(rest) => Some([(u, ms[0])] + rest)
  }

  /** `adminGetMemberships` for any state but `new`. */
  function ListPending(st: Store, state: string): (r: Reply<seq<(User, Membership)>>)
    ensures r.Ok? || r.ServerError?
    ensures r.ServerError? <==> exists m <- PendingMemberships(st.memberships, state) :: FindUser(st.users, m.user).None?
    ensures r.Ok? ==> |r.value| == |PendingMemberships(st.memberships, state)|
    ensures r.Ok? ==> forall i :: 0 <= i < |r.value| ==>
      r.value[i].1 == PendingMemberships(st.memberships, state)[i] && r.value[i].0 in st.users && r.value[i].0.id == r.value[i].1.user
    ensures r.Ok? ==> forall p :: p in r.value ==> InListing(p.1, state == "contacted") && p.0.id == p.1.user
  {
    var selected := PendingMemberships(st.memberships, state);
    match JoinUsers(st.users, selected)
    case None => ServerError
    case Some(rows) =>
      assert forall p :: p in rows ==> p.1 in selected by {
        forall p | p in rows ensures p.1 in selected {
          var i :| 0 <= i < |rows| && rows[i] == p;
        }
      }
      Ok(rows)
  }

  /** `adminGetMembershipStats`: (uncontacted, contacted). */
  function Stats(ms: seq<Membership>): (r: (nat, nat))
    ensures r.0 + r.1 == Count(ms, Pending)
  {
    StatsSplitPending(ms);
    (Count(ms, (m: Membership) => InListing(m, false)), Count(ms, (m: Membership) => InListing(m, true)))
  }

  lemma {:induction false} StatsSplitPending(ms: seq<Membership>)
    ensures Count(ms, (m: Membership) => InListing(m, false)) + Count(ms, (m: Membership) => InListing(m, true)) == Count(ms, Pending)
  {
    if ms != [] {
      StatsSplitPending(ms[1..]);
    }
  }

  /** The counts are the lengths of the two listings. */
  lemma StatsMatchListings(st: Store)
    ensures Stats(st.memberships).0 == |PendingMemberships(st.memberships, "")|
    ensures Stats(st.memberships).1 == |PendingMemberships(st.memberships, "contacted")|
  {
    FilterCount(st.memberships, (m: Membership) => InListing(m, false));
    FilterCount(st.memberships, (m: Membership) => InListing(m, true));
  }

  /** Every pending application is in exactly one of the two listings. */
  lemma ListingsPartitionPending(ms: seq<Membership>, m: Membership)
    requires m in ms && Pending(m)
    ensures m in PendingMemberships(ms, "contacted") <==> m !in PendingMemberships(ms, "")
  {
  }

  // ---------------------------------------------------------------------
  // The administrator's edit
  // ---------------------------------------------------------------------

  /** The fields the review flow owns. */
  datatype Workflow = Workflow(
    number: int, mid: ObjectId, user: ObjectId,
    submitted: bool, submittedDate: Option<int>,
    approved: bool, approvedDate: Option<int>, approvedBy: Option<ObjectId>,
    interviewDate: Option<int>)

  function WorkflowOf(m: Membership): Workflow {
    Workflow(m.number, m.mid, m.user, m.submitted, m.submittedDate, m.approved, m.approvedDate, m.approvedBy, m.interviewDate)
  }

  /** The fields an administrator may edit: the form, the notes, the rating. */
  datatype Editable = Editable(details: MembershipApi.Details, privateNotes: string, rating: int)

  function EditableOf(m: Membership): Editable {
    Editable(MembershipApi.DetailsOf(m), m.privateNotes, m.rating)
  }

  /** A membership is its workflow fields and its editable fields. */
  lemma WorkflowAndEditableDetermine(a: Membership, b: Membership)
    requires WorkflowOf(a) == WorkflowOf(b) && EditableOf(a) == EditableOf(b)
    ensures a == b
  {
  }

  /** The submitted document with the workflow fields of the original. */
  function KeepWorkflow(body: Membership, original: Membership): (m: Membership)
    ensures WorkflowOf(m) == WorkflowOf(original)
    ensures EditableOf(m) == EditableOf(body)
  {
    body.(number := original.number, mid := original.mid, user := original.user,
      submitted := original.submitted, submittedDate := original.submittedDate,
      approved := original.approved, approvedDate := original.approvedDate,
      approvedBy := original.approvedBy, interviewDate := original.interviewDate)
  }

  /** `adminUpdateUserMembership` for user `user` with the parsed body: a
      user without a membership first gets an empty one with the fresh id
      `newMid`; the document is then replaced by the body, keeping the
      workflow fields. */
  function AdminUpdate(st: Store, user: ObjectId, body: Membership, newMid: ObjectId): (r: Reply<Store>)
    ensures r.Ok?
    ensures r.value == st.(memberships := r.value.memberships)
    ensures MembershipOf(st.memberships, user).None? ==>
      r.value.memberships == st.memberships + [KeepWorkflow(body, EmptyMembership(newMid, user))]
    ensures UniqueMembershipIds(st.memberships) && MembershipOf(st.memberships, user).Some? ==>
      var m := MembershipOf(st.memberships, user).value;
      && MembershipOf(r.value.memberships, user) == Some(KeepWorkflow(body, m))
      && forall u :: u != user ==> MembershipOf(r.value.memberships, u) == MembershipOf(st.memberships, u)
  {
    match MembershipOf(st.memberships, user)
    case None => Ok(st.(memberships := st.memberships + [KeepWorkflow(body, EmptyMembership(newMid, user))]))
    case Some(m) =>
      var f := (x: Membership) => KeepWorkflow(body, m);
      ReplaceMembership(st.memberships, user, f);
      Ok(st.(memberships := UpdateMembership(st.memberships, m.mid, f)))
  }

  /** An administrator's edit never moves an application between stages. */
  lemma AdminEditKeepsStage(st: Store, user: ObjectId, body: Membership, newMid: ObjectId)
    requires UniqueMembershipIds(st.memberships)
    requires MembershipOf(st.memberships, user).Some?
    ensures var after := AdminUpdate(st, user, body, newMid).value;
      StageOf(MembershipOf(after.memberships, user).value) == StageOf(MembershipOf(st.memberships, user).value)
  {
  }

  // ---------------------------------------------------------------------
  // Interview and rating
  // ---------------------------------------------------------------------

  const InterviewSubject := "Maple Fleet On Boarding Session"
  const RescheduledSubject := "Maple Fleet On Boarding Session rescheduled"

  /** `adminSetInterviewDate`: a date before `now` is refused; otherwise the
      date is stored and the mail subject says "rescheduled" exactly when a
      date was already set. A user without a membership is a server error. */
  function SetInterviewDate(st: Store, user: ObjectId, date: int, now: int): (r: Reply<(Store, string)>)
    ensures r.Ok? || r.BadRequest? || r.ServerError?
    ensures r.BadRequest? <==> date < now
    ensures r.BadRequest? ==> r.errors == []
    ensures r.ServerError? <==> date >= now && MembershipOf(st.memberships, user).None?
    ensures r.Ok? ==> r.value.0 == st.(memberships := r.value.0.memberships)
    ensures r.Ok? ==> (r.value.1 == RescheduledSubject <==> MembershipOf(st.memberships, user).value.interviewDate.Some?)
    ensures r.Ok? ==> r.value.1 == InterviewSubject || r.value.1 == RescheduledSubject
    ensures r.Ok? && UniqueMembershipIds(st.memberships) ==>
      MembershipOf(r.value.0.memberships, user) == Some(MembershipOf(st.memberships, user).value.(interviewDate := Some(date)))
    ensures r.Ok? && UniqueMembershipIds(st.memberships) ==>
      forall u :: u != user ==> MembershipOf(r.value.0.memberships, u) == MembershipOf(st.memberships, u)
  {
    if date < now then BadRequest([])
    else match MembershipOf(st.memberships, user)
      case None => ServerError
      case Some(m) =>
        var f := (x: Membership) => x.(interviewDate := Some(date));
        ReplaceMembershipInPlace(st.memberships, user, f);
        var subject := if m.interviewDate.Some? then RescheduledSubject else InterviewSubject;
        Ok((st.(memberships := UpdateMembership(st.memberships, m.mid, f)), subject))
  }

  /** `$set` on a user's membership: with unique ids the user's membership
      becomes `f` of it, and every other user's membership stays as it was. */
  lemma ReplaceMembershipInPlace(ms: seq<Membership>, user: ObjectId, f: Membership -> Membership)
    requires MembershipOf(ms, user).Some?
    requires forall x :: f(x).user == x.user
    ensures UniqueMembershipIds(ms) ==>
      var m := MembershipOf(ms, user).value;
      MembershipOf(UpdateMembership(ms, m.mid, f), user) == Some(f(m))
    ensures UniqueMembershipIds(ms) ==>
      var m := MembershipOf(ms, user).value;
      forall u :: u != user ==> MembershipOf(UpdateMembership(ms, m.mid, f), u) == MembershipOf(ms, u)
  {
    ReplaceMembership(ms, user, f);
  }

  /** Scheduling an interview for a pending application makes it contacted. */
  lemma InterviewMakesContacted(st: Store, user: ObjectId, date: int, now: int)
    requires UniqueMembershipIds(st.memberships)
    requires SetInterviewDate(st, user, date, now).Ok?
    requires Pending(MembershipOf(st.memberships, user).value)
    ensures StageOf(MembershipOf(SetInterviewDate(st, user, date, now).value.0.memberships, user).value) == Contacted
  {
  }

  /** A second interview date is announced as rescheduled. */
  lemma SecondInterviewIsRescheduled(st: Store, user: ObjectId, d1: int, d2: int, now: int)
    requires UniqueMembershipIds(st.memberships)
    requires SetInterviewDate(st, user, d1, now).Ok? && d2 >= now
    ensures var st1 := SetInterviewDate(st, user, d1, now).value.0;
      SetInterviewDate(st1, user, d2, now).Ok? && SetInterviewDate(st1, user, d2, now).value.1 == RescheduledSubject
  {
  }

  /** `adminSetRating`. */
  function SetRating(st: Store, user: ObjectId, rating: int): (r: Reply<Store>)
    ensures r.Ok? || r.ServerError?
    ensures r.ServerError? <==> MembershipOf(st.memberships, user).None?
    ensures r.Ok? ==> r.value == st.(memberships := r.value.memberships)
    ensures r.Ok? && UniqueMembershipIds(st.memberships) ==>
      && MembershipOf(r.value.memberships, user).Some?
      && var m := MembershipOf(r.value.memberships, user).value;
      && m.rating == rating
      && WorkflowOf(m) == WorkflowOf(MembershipOf(st.memberships, user).value)
    ensures r.Ok? && UniqueMembershipIds(st.memberships) ==>
      var before := MembershipOf(st.memberships, user).value;
      && MembershipOf(r.value.memberships, user) == Some(before.(rating := rating))
      && forall u :: u != user ==> MembershipOf(r.value.memberships, u) == MembershipOf(st.memberships, u)
  {
    match MembershipOf(st.memberships, user)
    case None => ServerError
    case Some(m) =>
      var f := (x: Membership) => x.(rating := rating);
      ReplaceMembershipInPlace(st.memberships, user, f);
      Ok(st.(memberships := UpdateMembership(st.memberships, m.mid, f)))
  }

  // ---------------------------------------------------------------------
  // Outcomes
  // ---------------------------------------------------------------------

  const FirstMembershipNumber := 100000

  /** The highest number among approved memberships. */
  function MaxApprovedNumber(ms: seq<Membership>): (r: Option<int>)
    ensures r.None? <==> forall m :: m in ms ==> !m.approved
    ensures r.Some? ==> exists m <- ms :: m.approved && m.number == r.value
    ensures r.Some? ==> forall m :: m in ms && m.approved ==> m.number <= r.value
  {
    if ms == [] then None
    else
      var rest := MaxApprovedNumber(ms[1..]);
      assert forall m :: m in ms <==> m == ms[0] || m in ms[1..];
      if !ms[0].approved then rest
      else if rest.Some? && rest.value >= ms[0].number then rest
      else Some(ms[0].number)
  }

  /** The number the next accepted member gets: 100000 for the first,
      otherwise one more than the highest approved number. */
  function NextNumber(ms: seq<Membership>): (n: int)
    ensures (forall m :: m in ms ==> !m.approved) ==> n == FirstMembershipNumber
    ensures forall m :: m in ms && m.approved ==> m.number < n
    ensures (exists m <- ms :: m.approved) ==> exists m <- ms :: m.approved && n == m.number + 1
  {
    match MaxApprovedNumber(ms)
    case None => FirstMembershipNumber
    case Some(k) => k + 1
  }

  /** `adminAcceptMembership`: an already approved membership is refused;
      otherwise it is approved by `actor` at `now` with the next number.
      The handler does not ask for a submitted application. */
  function Accept(st: Store, user: ObjectId, actor: ObjectId, now: int): (r: Reply<Store>)
    ensures r.Ok? || r.BadRequest? || r.ServerError?
    ensures r.ServerError? <==> MembershipOf(st.memberships, user).None?
    ensures r.BadRequest? <==> MembershipOf(st.memberships, user).Some? && MembershipOf(st.memberships, user).value.approved
    ensures r.BadRequest? ==> r.errors == []
    ensures r.Ok? ==> r.value == st.(memberships := r.value.memberships)
    ensures r.Ok? && UniqueMembershipIds(st.memberships) ==>
      var before := MembershipOf(st.memberships, user).value;
      && MembershipOf(r.value.memberships, user).Some?
      && var m := MembershipOf(r.value.memberships, user).value;
      && m.approved && m.approvedBy == Some(actor) && m.approvedDate == Some(now)
      && m.number == NextNumber(st.memberships)
      && MembershipApi.DetailsOf(m) == MembershipApi.DetailsOf(before)
      && m.submitted == before.submitted && m.interviewDate == before.interviewDate
      && m.(approved := before.approved, approvedBy := before.approvedBy, approvedDate := before.approvedDate, number := before.number) == before
    ensures r.Ok? && UniqueMembershipIds(st.memberships) ==>
      forall u :: u != user ==> MembershipOf(r.value.memberships, u) == MembershipOf(st.memberships, u)
    ensures r.Ok? ==> var mid := MembershipOf(st.memberships, user).value.mid;
      && |r.value.memberships| == |st.memberships|
      && forall i :: 0 <= i < |st.memberships| ==>
        if st.memberships[i].mid == mid then r.value.memberships[i].number == NextNumber(st.memberships)
        else r.value.memberships[i] == st.memberships[i]
  {
    match MembershipOf(st.memberships, user)
    case None => ServerError
    case Some(m) =>
      if m.approved then BadRequest([])
      else
        var n := NextNumber(st.memberships);
        var f := (x: Membership) => x.(approved := true, approvedBy := Some(actor), approvedDate := Some(now), number := n);
        ReplaceMembershipInPlace(st.memberships, user, f);
        Ok(st.(memberships := UpdateMembership(st.memberships, m.mid, f)))
  }

  /** Approved memberships carry pairwise different numbers. */
  predicate DistinctNumbers(ms: seq<Membership>) {
    forall i, j :: 0 <= i < j < |ms| && ms[i].approved && ms[j].approved ==> ms[i].number != ms[j].number
  }

  /** Accepting keeps membership numbers distinct, and keeps them at or
      above 100000. */
  lemma AcceptKeepsNumbersDistinct(st: Store, user: ObjectId, actor: ObjectId, now: int)
    requires UniqueMembershipIds(st.memberships)
    requires DistinctNumbers(st.memberships)
    requires forall m :: m in st.memberships && m.approved ==> m.number >= FirstMembershipNumber
    requires Accept(st, user, actor, now).Ok?
    ensures DistinctNumbers(Accept(st, user, actor, now).value.memberships)
    ensures forall m :: m in Accept(st, user, actor, now).value.memberships && m.approved ==> m.number >= FirstMembershipNumber
  {
    var before := st.memberships;
    var after := Accept(st, user, actor, now).value.memberships;
    var m := MembershipOf(before, user).value;
    StampKeepsNumbers(before, after, m.mid, NextNumber(before));
  }

  /** Giving the one membership with id `mid` a number above every approved
      one keeps approved numbers distinct and at or above 100000. */
  lemma StampKeepsNumbers(before: seq<Membership>, after: seq<Membership>, mid: ObjectId, n: int)
    requires UniqueMembershipIds(before) && DistinctNumbers(before)
    requires forall m :: m in before && m.approved ==> FirstMembershipNumber <= m.number < n
    requires n >= FirstMembershipNumber
    requires |after| == |before|
    requires forall i :: 0 <= i < |before| ==> after[i] == before[i] || (before[i].mid == mid && after[i].number == n)
    ensures DistinctNumbers(after)
    ensures forall m :: m in after && m.approved ==> m.number >= FirstMembershipNumber
  {
    forall i | 0 <= i < |after| && after[i].approved
      ensures after[i].number >= FirstMembershipNumber
    {
      assert before[i] in before;
    }
    forall i, j | 0 <= i < j < |after| && after[i].approved && after[j].approved
      ensures after[i].number != after[j].number
    {
      assert before[i] in before && before[j] in before;
    }
  }

  /** The first member accepted gets number 100000. */
  lemma FirstAcceptGetsFirstNumber(st: Store, user: ObjectId, actor: ObjectId, now: int)
    requires UniqueMembershipIds(st.memberships)
    requires forall m :: m in st.memberships ==> !m.approved
    requires MembershipOf(st.memberships, user).Some?
    ensures Accept(st, user, actor, now).Ok?
    ensures MembershipOf(Accept(st, user, actor, now).value.memberships, user).value.number == FirstMembershipNumber
  {
  }

  /** `adminRejectMembership`: only a submitted, unapproved application can
      be rejected, and rejecting deletes its document. */
  function Reject(st: Store, user: ObjectId): (r: Reply<Store>)
    ensures r.Ok? || r.BadRequest? || r.ServerError?
    ensures r.ServerError? <==> MembershipOf(st.memberships, user).None?
    ensures r.BadRequest? <==> MembershipOf(st.memberships, user).Some? && !Pending(MembershipOf(st.memberships, user).value)
    ensures r.Ok? ==> r.value == st.(memberships := r.value.memberships)
    ensures r.Ok? ==> var gone := MembershipOf(st.memberships, user).value;
      && |r.value.memberships| < |st.memberships|
      && forall x :: x in r.value.memberships <==> x in st.memberships && x.mid != gone.mid
    ensures r.Ok? ==> var gone := MembershipOf(st.memberships, user).value;
      && IsSubsequence(r.value.memberships, st.memberships)
      && forall x :: multiset(r.value.memberships)[x] == if x.mid != gone.mid then multiset(st.memberships)[x] else 0
  {
    match MembershipOf(st.memberships, user)
    case None => ServerError
    case Some(m) =>
      if m.approved || !m.submitted then BadRequest([])
      else
        FilterDropsSome(st.memberships, (x: Membership) => x.mid != m.mid, m);
        FilterIsSubsequence(st.memberships, (x: Membership) => x.mid != m.mid);
        forall x ensures multiset(Filter(st.memberships, (x: Membership) => x.mid != m.mid))[x] == if x.mid != m.mid then multiset(st.memberships)[x] else 0 {
          FilterMultiplicity(st.memberships, (x: Membership) => x.mid != m.mid, x);
        }
        Ok(st.(memberships := Filter(st.memberships, (x: Membership) => x.mid != m.mid)))
  }

  /** A user has at most one membership. */
  predicate OnePerUser(ms: seq<Membership>) {
    forall i, j :: 0 <= i < j < |ms| ==> ms[i].user != ms[j].user
  }

  /** After a rejection the user has no membership and may apply again. */
  lemma RejectAllowsReapplying(st: Store, user: ObjectId, d: MembershipApi.Details, newMid: ObjectId)
    requires OnePerUser(st.memberships)
    requires Reject(st, user).Ok?
    ensures MembershipOf(Reject(st, user).value.memberships, user).None?
    ensures MembershipApi.UpdateDetails(Reject(st, user).value, user, d, newMid).Ok?
  {
    var m := MembershipOf(st.memberships, user).value;
    var after := Reject(st, user).value.memberships;
    forall x | x in after ensures x.user != user {
    }
  }

  /** `adminMoveMembership`: an approved, submitted membership goes back to
      review: not approved, no interview date. Its number stays on the
      document. */
  function MoveBack(st: Store, user: ObjectId): (r: Reply<Store>)
    ensures r.Ok? || r.BadRequest? || r.ServerError?
    ensures r.ServerError? <==> MembershipOf(st.memberships, user).None?
    ensures r.BadRequest? <==>
      MembershipOf(st.memberships, user).Some? && !(MembershipOf(st.memberships, user).value.approved && MembershipOf(st.memberships, user).value.submitted)
    ensures r.Ok? ==> r.value == st.(memberships := r.value.memberships)
    ensures r.Ok? && UniqueMembershipIds(st.memberships) ==>
      var before := MembershipOf(st.memberships, user).value;
      MembershipOf(r.value.memberships, user) == Some(before.(approved := false, interviewDate := None))
    ensures r.Ok? && UniqueMembershipIds(st.memberships) ==>
      forall u :: u != user ==> MembershipOf(r.value.memberships, u) == MembershipOf(st.memberships, u)
  {
    match MembershipOf(st.memberships, user)
    case None => ServerError
    case Some(m) =>
      if !m.approved || !m.submitted then BadRequest([])
      else
        var f := (x: Membership) => x.(approved := false, interviewDate := None);
        ReplaceMembershipInPlace(st.memberships, user, f);
        Ok(st.(memberships := UpdateMembership(st.memberships, m.mid, f)))
  }

  /** Moving an approved application back leaves it uncontacted, and it can
      be accepted again. */
  lemma MoveBackReopens(st: Store, user: ObjectId, actor: ObjectId, now: int)
    requires UniqueMembershipIds(st.memberships)
    requires MoveBack(st, user).Ok?
    ensures StageOf(MembershipOf(MoveBack(st, user).value.memberships, user).value) == Uncontacted
    ensures Accept(MoveBack(st, user).value, user, actor, now).Ok?
  {
  }

  /** `adminGetUserMembership`: the user's membership, private notes
      included, or a membership with every field at its zero value. */
  function AdminView(st: Store, user: ObjectId): (m: Membership)
    ensures MembershipOf(st.memberships, user).Some? ==> m in st.memberships && m.user == user
    ensures MembershipOf(st.memberships, user).None? ==> m == EmptyMembership([], [])
  {
    MembershipOf(st.memberships, user).GetOr(EmptyMembership([], []))
  }

  /** The administrator's view shows a new rating, and every other user's
      view is as before. */
  lemma RatingIsReadBack(st: Store, user: ObjectId, rating: int)
    requires UniqueMembershipIds(st.memberships)
    requires SetRating(st, user, rating).Ok?
    ensures var after := SetRating(st, user, rating).value;
      && AdminView(after, user) == AdminView(st, user).(rating := rating)
      && forall u :: u != user ==> AdminView(after, u) == AdminView(st, u)
  {
  }

  /** Setting the old rating again restores the store exactly. */
  lemma {:induction false} RatingUndo(st: Store, user: ObjectId, rating: int)
    requires UniqueMembershipIds(st.memberships)
    requires SetRating(st, user, rating).Ok?
    ensures var previous := MembershipOf(st.memberships, user).value.rating;
      SetRating(SetRating(st, user, rating).value, user, previous) == Ok(st)
  {
    var m := MembershipOf(st.memberships, user).value;
    var ms := st.memberships;
    var ms1 := UpdateMembership(ms, m.mid, (x: Membership) => x.(rating := rating));
    assert SetRating(st, user, rating) == Ok(st.(memberships := ms1));
    var st1 := st.(memberships := ms1);
    ReplaceMembership(ms, user, (x: Membership) => x.(rating := rating));
    var m1 := MembershipOf(ms1, user).value;
    assert m1 == m.(rating := rating) && m1.mid == m.mid;
    var ms2 := UpdateMembership(ms1, m.mid, (x: Membership) => x.(rating := m.rating));
    assert SetRating(st1, user, m.rating) == Ok(st1.(memberships := ms2));
    var k :| 0 <= k < |ms| && ms[k] == m;
    forall i | 0 <= i < |ms| ensures ms2[i] == ms[i] {
      if ms[i].mid == m.mid {
        assert i == k;
      }
    }
    assert ms2 == ms;
  }
}

=== FILE: admin_users.dfy ===
/** User administration (package `api`, adminUsers.go): privileges, email and
    name changes, deletion, blocking and the driver listing. `target` is the
    user the route's `{user_id}` names, as the lookup middleware loaded it;
    `caller` is the authenticated administrator. */
module AdminUsers {
  import opened Wrappers
  import opened Seqs
  import opened Text
  import opened Records
  import opened RequestContext
  import Auth
  import Users
  import AdminMemberships

  // ---------------------------------------------------------------------
  // Privileges

  /** The privilege types `adminUserSetPrivileges` inserts. */
  const AssignableRoles: set<string> := {"supervisor", "admin", "superadmin", "mechanic"}

  function OwnedBy(user: ObjectId): Privilege -> bool {
    (p: Privilege) => p.user == user
  }

  function NotOwnedBy(user: ObjectId): Privilege -> bool {
    (p: Privilege) => p.user != user
  }

  /** What a privilege change leaves the user with. */
  function Granted(user: ObjectId, kind: string): seq<Privilege> {
    if kind in AssignableRoles then [Privilege(user, kind)] else []
  }

  /** `adminUserSetPrivileges`: a protected user is refused; otherwise every
      privilege of the user is removed and one of the requested type is
      inserted when the type is assignable. Other users' privileges stay. */
  function SetPrivileges(st: Store, target: User, kind: string): (r: Reply<Store>)
    ensures r == BadRequest([]) <==> target.protected
    ensures r.Ok? || r == BadRequest([])
    ensures r.Ok? ==> r.value == st.(privileges := r.value.privileges)
    ensures r.Ok? ==> Filter(r.value.privileges, OwnedBy(target.id)) == Granted(target.id, kind)
    ensures r.Ok? ==> Filter(r.value.privileges, NotOwnedBy(target.id)) == Filter(st.privileges, NotOwnedBy(target.id))
  {
    if target.protected then BadRequest([])
    else
      var kept := Filter(st.privileges, NotOwnedBy(target.id));
      FilterConcat(kept, Granted(target.id, kind), OwnedBy(target.id));
      FilterConcat(kept, Granted(target.id, kind), NotOwnedBy(target.id));
      FilterAll(kept, NotOwnedBy(target.id));
      FilterNone(kept, OwnedBy(target.id));
      Ok(st.(privileges := kept + Granted(target.id, kind)))
  }

  /** After a change the user holds at most one privilege. */
  lemma AtMostOnePrivilege(st: Store, target: User, kind: string)
    requires SetPrivileges(st, target, kind).Ok?
    ensures Count(SetPrivileges(st, target, kind).value.privileges, OwnedBy(target.id)) <= 1
  {
    FilterCount(SetPrivileges(st, target, kind).value.privileges, OwnedBy(target.id));
  }

  /** After a change the guards admit the user exactly according to the new
      type: the supervisor guard for any assignable type, the administrator
      guard for administrators, the super-administrator guard for
      super-administrators; any other type revokes every privilege. */
  lemma PrivilegesDecideGuards(st: Store, target: User, kind: string, c: Caller)
    requires SetPrivileges(st, target, kind).Ok?
    requires c.userId == target.id
    ensures var privileges := SetPrivileges(st, target, kind).value.privileges;
      && (Auth.SupervisorGuard(privileges, c).Ok? <==> kind in AssignableRoles)
      && (Auth.AdminGuard(privileges, c).Ok? <==> kind == "admin" || kind == "superadmin")
      && (Auth.SuperAdminGuard(privileges, c).Ok? <==> kind == "superadmin")
  {
    var privileges := SetPrivileges(st, target, kind).value.privileges;
    OwnPrivileges(st, target, kind);
    if kind in AssignableRoles {
      assert Privilege(target.id, kind) in privileges;
    }
  }

  /** After a change the user's privileges are exactly the granted one. */
  lemma OwnPrivileges(st: Store, target: User, kind: string)
    requires SetPrivileges(st, target, kind).Ok?
    ensures var privileges := SetPrivileges(st, target, kind).value.privileges;
      forall p :: p in privileges && p.user == target.id <==> kind in AssignableRoles && p == Privilege(target.id, kind)
  {
    var privileges := SetPrivileges(st, target, kind).value.privileges;
    var mine := Filter(privileges, OwnedBy(target.id));
    assert forall p :: p in privileges && p.user == target.id <==> p in mine;
  }

  // ---------------------------------------------------------------------
  // Email and name

  /** The address an email change stores: the parsed address, lower-cased;
      when parsing fails, the text as submitted (only the duplicate check
      still reads it). */
  function NewEmail(email: string, parse: string -> Result<string>): string {
    match parse(email)
    case Success(a) => ToLower(a)
    case Failure(_) => email
  }

  function HasEmail(email: string): User -> bool {
    (u: User) => u.email == email
  }

  /** The errors of an email change, in order: the parser's message or
      "Email not changed", then "Email address in use". */
  function EmailErrors(users: seq<User>, target: User, email: string, parse: string -> Result<string>): (errs: seq<string>)
    ensures errs == [] <==>
      parse(email).Success? && target.email != NewEmail(email, parse) && !Auth.EmailInUse(users, NewEmail(email, parse))
    ensures Auth.EmailInUse(users, NewEmail(email, parse)) ==> errs[|errs| - 1] == "Email address in use"
    ensures parse(email).Failure? ==> errs[0] == parse(email).error
    ensures parse(email).Failure? ==>
      errs[1..] == if Auth.EmailInUse(users, NewEmail(email, parse)) then ["Email address in use"] else []
    ensures parse(email).Success? ==>
      && ("Email not changed" in errs <==> target.email == NewEmail(email, parse))
      && ("Email address in use" in errs <==> Auth.EmailInUse(users, NewEmail(email, parse)))
    ensures |errs| <= 2
  {
    (match parse(email)
     case Failure(e) => [e]
     case Success(a) => if target.email == ToLower(a) then ["Email not changed"] else []) +
    (if Count(users, HasEmail(NewEmail(email, parse))) > 0 then ["Email address in use"] else [])
  }

  /** `adminSetUserEmail`: the errors are joined with ", " into one message
      and nothing is written; otherwise the user's email becomes the
      lower-cased address. */
  function SetEmail(st: Store, target: User, email: string, parse: string -> Result<string>): (r: Reply<Store>)
    ensures r.Ok? || r.BadRequest?
    ensures r.BadRequest? <==> EmailErrors(st.users, target, email, parse) != []
    ensures r.BadRequest? ==> r.errors == [Join(EmailErrors(st.users, target, email, parse), ", ")]
    ensures r.Ok? ==> r.value == st.(users := r.value.users) && |r.value.users| == |st.users|
    ensures r.Ok? ==> forall i :: 0 <= i < |st.users| ==>
      r.value.users[i] == if st.users[i].id == target.id then st.users[i].(email := NewEmail(email, parse)) else st.users[i]
  {
    var errs := EmailErrors(st.users, target, email, parse);
    if errs != [] then BadRequest([Join(errs, ", ")])
    else Ok(st.(users := UpdateUser(st.users, target.id, (u: User) => u.(email := NewEmail(email, parse)))))
  }

  /** Re-entering a stored user's current address reports both errors: the
      address is unchanged and, being the user's own, it is in use. */
  lemma UnchangedEmailReportsBoth(st: Store, target: User, email: string, parse: string -> Result<string>)
    requires target in st.users
    requires parse(email).Success? && ToLower(parse(email).value) == target.email
    ensures SetEmail(st, target, email, parse) == BadRequest(["Email not changed, Email address in use"])
  {
    BothEmailErrors(st.users, target, email, parse);
    JoinTwo("Email not changed", "Email address in use", ", ");
    BothMessages();
  }

  lemma BothEmailErrors(users: seq<User>, target: User, email: string, parse: string -> Result<string>)
    requires target in users
    requires parse(email).Success? && ToLower(parse(email).value) == target.email
    ensures EmailErrors(users, target, email, parse) == ["Email not changed", "Email address in use"]
  {
    assert Auth.EmailInUse(users, NewEmail(email, parse));
  }

  lemma JoinTwo(a: string, b: string, sep: string)
    ensures Join([a, b], sep) == a + sep + b
  {
    assert [a, b][1..] == [b];
  }

  lemma BothMessages()
    ensures "Email not changed" + ", " + "Email address in use" == "Email not changed, Email address in use"
  {
  }

  /** Once an address is given to one user, giving it to another stored user
      fails: it is in use. */
  lemma EmailTakenAfterChange(st: Store, target: User, other: User, email: string, parse: string -> Result<string>)
    requires target in st.users && other in st.users
    requires SetEmail(st, target, email, parse).Ok?
    ensures SetEmail(SetEmail(st, target, email, parse).value, other, email, parse).BadRequest?
  {
    var st1 := SetEmail(st, target, email, parse).value;
    var i :| 0 <= i < |st.users| && st.users[i] == target;
    assert st1.users[i].email == NewEmail(email, parse);
    assert st1.users[i] in st1.users;
  }

  /** `adminSetUserName`: an empty name is refused with "Invalid"; otherwise
      only the user's name changes. */
  function SetName(st: Store, target: User, name: string): (r: Reply<Store>)
    ensures r == BadRequest(["Invalid"]) <==> name == ""
    ensures r.Ok? || r == BadRequest(["Invalid"])
    ensures r.Ok? ==> r.value == st.(users := r.value.users) && |r.value.users| == |st.users|
    ensures r.Ok? ==> forall i :: 0 <= i < |st.users| ==>
      r.value.users[i].(name := st.users[i].name) == st.users[i] &&
      (st.users[i].id == target.id ==> r.value.users[i].name == name) &&
      (st.users[i].id != target.id ==> r.value.users[i] == st.users[i])
  {
    if |name| == 0 then BadRequest([Join(["Invalid"], ", ")])
    else Ok(st.(users := UpdateUser(st.users, target.id, (u: User) => u.(name := name))))
  }

  /** After a rename the user's first name, as greetings show it, is the
      first word of the new name. */
  lemma RenameReadBack(st: Store, target: User, first: string, rest: string)
    requires ' ' !in first
    requires exists u :: u in st.users && u.id == target.id
    ensures SetName(st, target, first + " " + rest).Ok?
    ensures var after := SetName(st, target, first + " " + rest).value;
      exists u :: u in after.users && u.id == target.id && Users.GetName(u.name) == first
  {
    var name := first + " " + rest;
    var after := SetName(st, target, name).value;
    var i :| 0 <= i < |st.users| && st.users[i].id == target.id;
    assert after.users[i].name == name && after.users[i].id == target.id && after.users[i] in after.users;
    Users.GetNameOfFullName(first, rest);
  }

  // ---------------------------------------------------------------------
  // Delete and block

  /** Protected users and the caller's own account are off limits. */
  predicate OffLimits(target: User, caller: ObjectId) {
    target.protected || Hex(target.id) == Hex(caller)
  }

  predicate UniqueUserIds(users: seq<User>) {
    forall i, j :: 0 <= i < j < |users| ==> users[i].id != users[j].id
  }

  function UserWithId(id: ObjectId): User -> bool {
    (u: User) => u.id == id
  }

  /** `adminDeleteUser`: removes one membership of the user and then the
      user document; removing a user that is not stored fails. */
  function DeleteUser(st: Store, target: User, caller: ObjectId): (r: Reply<Store>)
    ensures r == BadRequest([]) <==> OffLimits(target, caller)
    ensures caller == target.id ==> r == BadRequest([])
    ensures r == ServerError <==> !OffLimits(target, caller) && FindUser(st.users, target.id).None?
    ensures r.Ok? ==> r.value == st.(users := r.value.users, memberships := r.value.memberships)
    ensures r.Ok? ==> |r.value.users| == |st.users| - 1 && forall u :: u in r.value.users ==> u in st.users
    ensures r.Ok? && UniqueUserIds(st.users) ==> FindUser(r.value.users, target.id).None?
    ensures r.Ok? && AdminMemberships.OnePerUser(st.memberships) ==> MembershipOf(r.value.memberships, target.id).None?
    ensures r.Ok? ==> forall u :: u in st.users && u.id != target.id ==> u in r.value.users
    ensures r.Ok? ==> forall id :: id != target.id ==> MembershipOf(r.value.memberships, id) == MembershipOf(st.memberships, id)
  {
    if OffLimits(target, caller) then BadRequest([])
    else if FindUser(st.users, target.id).None? then ServerError
    else
      RemoveFirstFacts(st.users, UserWithId(target.id));
      RemoveFirstFacts(st.memberships, BelongsTo(target.id));
      OneMatch(st, target.id);
      forall id | id != target.id
        ensures MembershipOf(RemoveFirst(st.memberships, BelongsTo(target.id)), id) == MembershipOf(st.memberships, id)
      {
        MembershipOfRemoveOther(st.memberships, target.id, id);
      }
      Ok(st.(users := RemoveFirst(st.users, UserWithId(target.id)),
             memberships := RemoveFirst(st.memberships, BelongsTo(target.id))))
  }

  /** Unique user ids leave one user per id, and one membership per user
      leaves one membership per user id. */
  lemma OneMatch(st: Store, id: ObjectId)
    ensures UniqueUserIds(st.users) ==> AtMostOne(st.users, UserWithId(id))
    ensures AdminMemberships.OnePerUser(st.memberships) ==> AtMostOne(st.memberships, BelongsTo(id))
  {
  }

  /** `blockUser`: POST blocks the user, DELETE unblocks; the mail that
      follows is not modelled. */
  function BlockUser(st: Store, target: User, caller: ObjectId, post: bool): (r: Reply<Store>)
    ensures r == BadRequest([]) <==> OffLimits(target, caller)
    ensures r == ServerError <==> !OffLimits(target, caller) && FindUser(st.users, target.id).None?
    ensures r.Ok? ==> r.value == st.(users := r.value.users) && |r.value.users| == |st.users|
    ensures r.Ok? ==> forall i :: 0 <= i < |st.users| ==>
      r.value.users[i] == if st.users[i].id == target.id then st.users[i].(blocked := post) else st.users[i]
  {
    if OffLimits(target, caller) then BadRequest([])
    else if FindUser(st.users, target.id).None? then ServerError
    else Ok(st.(users := UpdateUser(st.users, target.id, (u: User) => u.(blocked := post))))
  }

  /** Blocking ends the user's sessions: the session check refuses every
      token naming the user. Unblocking restores them. */
  lemma BlockingDecidesSessions(st: Store, target: User, caller: ObjectId, post: bool,
                                token: string, decode: string -> Option<map<string, string>>)
    requires BlockUser(st, target, caller, post).Ok?
    requires ValidId(target.id) && forall i :: 0 <= i < |target.id| ==> target.id[i] as int < 256
    requires |token| > 0 && decode(token) == Some(map["user" := Hex(target.id)])
    ensures Auth.SecureMiddleware(BlockUser(st, target, caller, post).value.users, token, "", decode).Ok? <==> !post
  {
    var users := BlockUser(st, target, caller, post).value.users;
    Auth.SessionOfUser(users, token, decode, target.id);
    var i := FirstIndex(st.users, UserWithId(target.id)).value;
    assert users[i].id == target.id && users[i].blocked == post;
    assert users[i] in users;
  }

  // ---------------------------------------------------------------------
  // Listing

  /** The rows the listing joins for one user: one per approved membership of
      the user. */
  function Rows(u: User, memberships: seq<Membership>): (r: seq<(User, Membership)>)
    ensures forall row :: row in r <==> row.0 == u && row.1 in memberships && row.1.user == u.id && row.1.approved
  {
    if memberships == [] then []
    else
      var m := memberships[0];
      assert forall x :: x in memberships <==> x == m || x in memberships[1..];
      (if m.user == u.id && m.approved then [(u, m)] else []) + Rows(u, memberships[1..])
  }

  /** `adminGetUsers`: users joined with their memberships, keeping only
      approved ones. */
  function UserListing(users: seq<User>, memberships: seq<Membership>): (r: seq<(User, Membership)>)
    ensures forall u, m :: (u, m) in r <==> u in users && m in memberships && m.user == u.id && m.approved
  {
    FlatMap(users, (u: User) => Rows(u, memberships))
  }

  /** An accepted driver is listed with the accepted membership. */
  lemma AcceptListsDriver(st: Store, u: User, actor: ObjectId, now: int)
    requires u in st.users
    requires UniqueMembershipIds(st.memberships)
    requires AdminMemberships.Accept(st, u.id, actor, now).Ok?
    ensures var st1 := AdminMemberships.Accept(st, u.id, actor, now).value;
      (u, MembershipOf(st1.memberships, u.id).value) in UserListing(st1.users, st1.memberships)
  {
  }
}

=== FILE: auth.dfy ===
/** Authentication (package `api`, auth.go): the session check in front of
    every logged-in route, the three privilege guards, login, signup and the
    password-reset tokens. Cookie encoding, scrypt and `mail.ParseAddress`
    are parameters. */
module Auth {
  import opened Wrappers
  import opened Seqs
  import opened Text
  import opened Records
  import opened RequestContext
  import opened Users

  // ---------------------------------------------------------------------
  // Privilege guards

  const SuperAdminRoles: set<string> := {"superadmin"}
  const AdminRoles: set<string> := {"admin", "superadmin"}
  const SupervisorRoles: set<string> := {"supervisor", "admin", "superadmin", "mechanic"}

  /** `user` holds a privilege of one of the `roles`. */
  predicate HasRole(privileges: seq<Privilege>, user: ObjectId, roles: set<string>) {
    exists p :: p in privileges && p.user == user && p.kind in roles
  }

  function RoleOf(user: ObjectId, roles: set<string>): Privilege -> bool {
    (p: Privilege) => p.user == user && p.kind in roles
  }

  /** A guard counts the caller's privileges of the admitted roles and answers
      403 when there are none. */
  function Guard(privileges: seq<Privilege>, c: Caller, roles: set<string>): (r: Reply<Caller>)
    ensures r == Forbidden <==> !HasRole(privileges, c.userId, roles)
    ensures r.Ok? || r == Forbidden
    ensures r.Ok? ==> r.value == c
  {
    if Count(privileges, RoleOf(c.userId, roles)) == 0 then Forbidden else Ok(c)
  }

  /** `superAdminMiddleware`. */
  function SuperAdminGuard(privileges: seq<Privilege>, c: Caller): (r: Reply<Caller>)
    ensures r.Ok? <==> exists p :: p in privileges && p.user == c.userId && p.kind == "superadmin"
  {
    Guard(privileges, c, SuperAdminRoles)
  }

  /** `adminMiddleware`. */
  function AdminGuard(privileges: seq<Privilege>, c: Caller): (r: Reply<Caller>)
    ensures r.Ok? <==> exists p :: p in privileges && p.user == c.userId && (p.kind == "admin" || p.kind == "superadmin")
  {
    Guard(privileges, c, AdminRoles)
  }

  /** `supervisorMiddleware`: on success it also marks the request as an
      administrator's. */
  function SupervisorGuard(privileges: seq<Privilege>, c: Caller): (r: Reply<Caller>)
    ensures r.Ok? <==> HasRole(privileges, c.userId, SupervisorRoles)
    ensures r.Ok? ==> r.value == c.(isAdmin := true)
    ensures r.Ok? || r == Forbidden
  {
    match Guard(privileges, c, SupervisorRoles)
    case Ok(c') => Ok(c'.(isAdmin := true))
    case _ => Forbidden
  }

  /** The guards are nested: whoever passes the super-administrator guard
      passes the administrator guard, and whoever passes that passes the
      supervisor guard. */
  lemma GuardsNest(privileges: seq<Privilege>, c: Caller)
    ensures SuperAdminGuard(privileges, c).Ok? ==> AdminGuard(privileges, c).Ok?
    ensures AdminGuard(privileges, c).Ok? ==> SupervisorGuard(privileges, c).Ok?
  {
  }

  /** A mechanic (or supervisor) without any other privilege passes the
      supervisor guard, and with it the administrator flag, but not the
      administrator guard. */
  lemma StaffAreNotAdmins(privileges: seq<Privilege>, c: Caller, kind: string)
    requires kind == "mechanic" || kind == "supervisor"
    requires Privilege(c.userId, kind) in privileges
    requires forall p :: p in privileges && p.user == c.userId ==> p.kind == kind
    ensures SupervisorGuard(privileges, c) == Ok(c.(isAdmin := true))
    ensures AdminGuard(privileges, c) == Forbidden
  {
  }

  // ---------------------------------------------------------------------
  // Session check

  /** The token is read from the `authorization` query parameter when that is
      non-empty, otherwise from the `Authorization` header. */
  function SessionToken(header: string, query: string): string {
    if |query| > 0 then query else header
  }

  predicate IsBlocked(users: seq<User>, id: ObjectId) {
    exists u :: u in users && u.id == id && u.blocked
  }

  function BlockedWithId(id: ObjectId): User -> bool {
    (u: User) => u.id == id && u.blocked
  }

  /** `secureMiddleware`. `decode` stands for the secure-cookie decoder: the
      cookie's values, or `None` when the token does not decode. The
      `last_access` update it starts in the background is not modelled. */
  function SecureMiddleware(users: seq<User>, header: string, query: string, decode: string -> Option<map<string, string>>): (r: Reply<Caller>)
    ensures r.Ok? || r == Forbidden
    ensures r.Ok? <==>
      var token := SessionToken(header, query);
      |token| > 0 && decode(token).Some? && "user" in decode(token).value &&
      IsObjectIdHex(decode(token).value["user"]) &&
      !IsBlocked(users, ObjectIdHex(decode(token).value["user"]).value)
    ensures r.Ok? ==> Some(r.value.userId) == ObjectIdHex(decode(SessionToken(header, query)).value["user"])
    ensures r.Ok? ==> r.value.adminUser.None? && !r.value.isAdmin
  {
    var token := SessionToken(header, query);
    if |token| == 0 then Forbidden
    else match decode(token)
      case None => Forbidden
      case Some(values) =>
        if "user" !in values || !IsObjectIdHex(values["user"]) then Forbidden
        else
          var id := ObjectIdHex(values["user"]).value;
          if Count(users, BlockedWithId(id)) > 0 then Forbidden
          else Ok(Caller(id, None, false))
  }

  /** A session issued for a user (its value is the id's hexadecimal form)
      authenticates that user exactly while the user is not blocked. */
  lemma SessionOfUser(users: seq<User>, token: string, decode: string -> Option<map<string, string>>, id: ObjectId)
    requires ValidId(id) && forall i :: 0 <= i < |id| ==> id[i] as int < 256
    requires |token| > 0 && decode(token) == Some(map["user" := Hex(id)])
    ensures SecureMiddleware(users, token, "", decode).Ok? <==> !IsBlocked(users, id)
    ensures SecureMiddleware(users, token, "", decode).Ok? ==> SecureMiddleware(users, token, "", decode).value.userId == id
  {
    ObjectIdHexOfHex(id);
  }

  // ---------------------------------------------------------------------
  // Login

  function ActiveWithEmail(email: string): User -> bool {
    (u: User) => u.email == email && !u.blocked
  }

  /** `login`. `matches(u, password)` stands for the two scrypt lookups that
      compare the password with `u`'s stored hash; the session token handed
      back is represented by the user's id. */
  function Login(st: Store, email: string, password: string, matches: (User, string) -> bool, now: int): (r: Reply<(Store, ObjectId)>)
    ensures |email| == 0 || |password| == 0 ==> r == BadRequest([])
    ensures r.Ok? || r == BadRequest([])
    ensures (forall u :: u in st.users && u.email == ToLower(email) ==> u.blocked) ==> !r.Ok?
    ensures r.Ok? ==> exists u :: u in st.users && u.id == r.value.1 && u.email == ToLower(email) && !u.blocked && matches(u, password)
    ensures r.Ok? ==> exists i :: IsFirst(st.users, ActiveWithEmail(ToLower(email)), i) && st.users[i].id == r.value.1
    ensures forall i :: |email| > 0 && |password| > 0 && IsFirst(st.users, ActiveWithEmail(ToLower(email)), i) ==>
      (r.Ok? <==> matches(st.users[i], password)) && (r.Ok? ==> r.value.1 == st.users[i].id)
    ensures r.Ok? ==> r.value.0 == st.(users := r.value.0.users) && |r.value.0.users| == |st.users|
    ensures r.Ok? ==> forall i :: 0 <= i < |st.users| ==>
      r.value.0.users[i] == if st.users[i].id == r.value.1 then st.users[i].(lastLogin := Some(now)) else st.users[i]
  {
    FirstIndexIsFirst(st.users, ActiveWithEmail(ToLower(email)));
    if |email| == 0 || |password| == 0 then BadRequest([])
    else match FindFirst(st.users, ActiveWithEmail(ToLower(email)))
      case None => BadRequest([])
      case Some(u) =>
        if !matches(u, password) then BadRequest([])
        else Ok((st.(users := UpdateUser(st.users, u.id, (x: User) => x.(lastLogin := Some(now)))), u.id))
  }

  // ---------------------------------------------------------------------
  // Signup

  datatype SignupForm = SignupForm(
    name: string,
    email: string,
    password: string,
    noUnspentCriminal: bool,
    phone: string)

  const ShortPassword := "Weak Password (shorter than 8)"
  const LowercasePassword := "Weak Password (lowercase)"

  /** The checks of the name and the email's presence. */
  function PresenceErrors(f: SignupForm): (errs: seq<string>)
    ensures "Invalid Email" in errs <==> |f.email| == 0
    ensures "Invalid Name" in errs <==> |f.name| == 0
    ensures forall x :: x in errs ==> x == "Invalid Email" || x == "Invalid Name"
  {
    (if |f.email| == 0 then ["Invalid Email"] else []) +
    (if |f.name| == 0 then ["Invalid Name"] else [])
  }

  /** The password checks: they run only for a password `IsPasswordSecure`
      rejects, and then at least one of them fires. */
  function PasswordErrors(password: string): (errs: seq<string>)
    ensures ShortPassword in errs <==> Utf8Length(password) < 8
    ensures LowercasePassword in errs <==> !IsPasswordSecure(password) && password == ToLower(password)
    ensures errs == [] <==> IsPasswordSecure(password)
    ensures forall x :: x in errs ==> x == ShortPassword || x == LowercasePassword
  {
    var weak := !IsPasswordSecure(password);
    (if weak && Utf8Length(password) <= 7 then [ShortPassword] else []) +
    (if weak && password == ToLower(password) then [LowercasePassword] else [])
  }

  /** The phone number and the address checks. */
  function ContactErrors(f: SignupForm, parse: string -> Option<string>): (errs: seq<string>)
    ensures "Invalid Phone Number" in errs <==> |f.phone| == 0
    ensures "Invalid Email Address" in errs <==> parse(ToLower(f.email)).None?
    ensures forall x :: x in errs ==> x == "Invalid Phone Number" || x == "Invalid Email Address"
  {
    (if |f.phone| == 0 then ["Invalid Phone Number"] else []) +
    (if parse(ToLower(f.email)).None? then ["Invalid Email Address"] else [])
  }

  /** Every check of the signup form, in order; all of them run. `parse`
      stands for `mail.ParseAddress`: the address part, or `None` when the
      text does not parse. */
  function SignupErrors(f: SignupForm, parse: string -> Option<string>): (errs: seq<string>)
    ensures errs == [] <==>
      |f.email| > 0 && |f.name| > 0 && IsPasswordSecure(f.password) && |f.phone| > 0 && parse(ToLower(f.email)).Some?
    ensures !IsPasswordSecure(f.password) ==> ShortPassword in errs || LowercasePassword in errs
  {
    var presence, password, contact := PresenceErrors(f), PasswordErrors(f.password), ContactErrors(f, parse);
    InConcatThree(presence, password, contact);
    presence + password + contact
  }

  /** Each signup check reports its own message, exactly when it fails. */
  lemma SignupMessages(f: SignupForm, parse: string -> Option<string>)
    ensures var errs := SignupErrors(f, parse);
      && ("Invalid Email" in errs <==> |f.email| == 0)
      && ("Invalid Name" in errs <==> |f.name| == 0)
      && ("Invalid Phone Number" in errs <==> |f.phone| == 0)
      && ("Invalid Email Address" in errs <==> parse(ToLower(f.email)).None?)
      && (ShortPassword in errs <==> Utf8Length(f.password) < 8)
      && (LowercasePassword in errs <==> !IsPasswordSecure(f.password) && f.password == ToLower(f.password))
  {
    PresenceMessages(f, parse);
    PasswordMessages(f, parse);
    ContactMessages(f, parse);
  }

  lemma PresenceMessages(f: SignupForm, parse: string -> Option<string>)
    ensures "Invalid Email" in SignupErrors(f, parse) <==> |f.email| == 0
    ensures "Invalid Name" in SignupErrors(f, parse) <==> |f.name| == 0
  {
    var presence, password, contact := PresenceErrors(f), PasswordErrors(f.password), ContactErrors(f, parse);
    var errs := SignupErrors(f, parse);
    assert errs == presence + password + contact;
    InConcatThree(presence, password, contact);
    SignupMessageLengths();
    OnlyIn(errs, "Invalid Email", presence, password, contact);
    OnlyIn(errs, "Invalid Name", presence, password, contact);
  }

  lemma PasswordMessages(f: SignupForm, parse: string -> Option<string>)
    ensures ShortPassword in SignupErrors(f, parse) <==> Utf8Length(f.password) < 8
    ensures LowercasePassword in SignupErrors(f, parse) <==> !IsPasswordSecure(f.password) && f.password == ToLower(f.password)
  {
    var presence, password, contact := PresenceErrors(f), PasswordErrors(f.password), ContactErrors(f, parse);
    var errs := SignupErrors(f, parse);
    assert errs == presence + password + contact;
    InConcatThree(presence, password, contact);
    SignupMessageLengths();
    OnlyIn(errs, ShortPassword, password, presence, contact);
    OnlyIn(errs, LowercasePassword, password, presence, contact);
  }

  lemma ContactMessages(f: SignupForm, parse: string -> Option<string>)
    ensures "Invalid Phone Number" in SignupErrors(f, parse) <==> |f.phone| == 0
    ensures "Invalid Email Address" in SignupErrors(f, parse) <==> parse(ToLower(f.email)).None?
  {
    var presence, password, contact := PresenceErrors(f), PasswordErrors(f.password), ContactErrors(f, parse);
    var errs := SignupErrors(f, parse);
    assert errs == presence + password + contact;
    InConcatThree(presence, password, contact);
    SignupMessageLengths();
    OnlyIn(errs, "Invalid Phone Number", contact, presence, password);
    OnlyIn(errs, "Invalid Email Address", contact, presence, password);
  }

  /** The six signup messages are different texts: their lengths differ. */
  lemma SignupMessageLengths()
    ensures |"Invalid Email"| == 13 && |"Invalid Name"| == 12
    ensures |"Invalid Phone Number"| == 20 && |"Invalid Email Address"| == 21
    ensures |ShortPassword| == 30 && |LowercasePassword| == 25
  {
  }

  predicate EmailInUse(users: seq<User>, email: string) {
    exists u :: u in users && u.email == email
  }

  function HasEmail(email: string): User -> bool {
    (u: User) => u.email == email
  }

  /** The user document signup inserts. */
  function NewAccount(id: ObjectId, f: SignupForm, address: string, hashed: string, now: int): User {
    User(id, address, f.name, Some(hashed), "", now, None, f.noUnspentCriminal, false, false)
  }

  /** `signup`. A form with errors, or an address that is already taken,
      inserts nothing; otherwise one user and one membership carrying the
      phone number are inserted. `newUser` and `newMid` are the ids the
      database hands out and `hashed` is `HashPassword`'s output. */
  function Signup(st: Store, f: SignupForm, parse: string -> Option<string>,
                  newUser: ObjectId, newMid: ObjectId, hashed: string, now: int): (r: Reply<Store>)
    ensures SignupErrors(f, parse) != [] ==> r == BadRequest(SignupErrors(f, parse))
    ensures SignupErrors(f, parse) == [] && EmailInUse(st.users, parse(ToLower(f.email)).value) ==>
      r == BadRequest(["User Exists"])
    ensures r.Ok? || r.BadRequest?
    ensures r.Ok? ==>
      SignupErrors(f, parse) == [] && !EmailInUse(st.users, parse(ToLower(f.email)).value) &&
      r.value.users == st.users + [NewAccount(newUser, f, parse(ToLower(f.email)).value, hashed, now)] &&
      r.value.memberships == st.memberships + [EmptyMembership(newMid, newUser).(phone := f.phone)] &&
      r.value == st.(users := r.value.users, memberships := r.value.memberships)
  {
    var errs := SignupErrors(f, parse);
    if errs != [] then BadRequest(errs)
    else
      var address := parse(ToLower(f.email)).value;
      if Count(st.users, HasEmail(address)) > 0 then BadRequest(["User Exists"])
      else Ok(st.(users := st.users + [NewAccount(newUser, f, address, hashed, now)],
                  memberships := st.memberships + [EmptyMembership(newMid, newUser).(phone := f.phone)]))
  }

  /** The same form cannot sign up twice: the second attempt finds the
      address in use. */
  lemma SignupIsNotRepeatable(st: Store, f: SignupForm, parse: string -> Option<string>,
                              u1: ObjectId, m1: ObjectId, h1: string, t1: int,
                              u2: ObjectId, m2: ObjectId, h2: string, t2: int)
    requires Signup(st, f, parse, u1, m1, h1, t1).Ok?
    ensures Signup(Signup(st, f, parse, u1, m1, h1, t1).value, f, parse, u2, m2, h2, t2) == BadRequest(["User Exists"])
  {
    var st1 := Signup(st, f, parse, u1, m1, h1, t1).value;
    var address := parse(ToLower(f.email)).value;
    assert st1.users[|st.users|] == NewAccount(u1, f, address, h1, t1);
    assert EmailInUse(st1.users, address);
  }

  /** A new account whose address is its lower-cased email can log in at once
      with the password it signed up with. */
  lemma SignupThenLogin(st: Store, f: SignupForm, parse: string -> Option<string>,
                        newUser: ObjectId, newMid: ObjectId, hashed: string, now: int,
                        matches: (User, string) -> bool, later: int)
    requires Signup(st, f, parse, newUser, newMid, hashed, now).Ok?
    requires parse(ToLower(f.email)) == Some(ToLower(f.email))
    requires matches(NewAccount(newUser, f, ToLower(f.email), hashed, now), f.password)
    ensures var st1 := Signup(st, f, parse, newUser, newMid, hashed, now).value;
      Login(st1, f.email, f.password, matches, later).Ok? &&
      Login(st1, f.email, f.password, matches, later).value.1 == newUser
  {
    var st1 := Signup(st, f, parse, newUser, newMid, hashed, now).value;
    var account := NewAccount(newUser, f, ToLower(f.email), hashed, now);
    var p := ActiveWithEmail(ToLower(f.email));
    assert st1.users == st.users + [account];
    forall j | 0 <= j < |st.users| ensures !p(st1.users[j]) {
      assert st1.users[j] == st.users[j] && st.users[j] in st.users;
    }
    assert p(st1.users[|st.users|]);
    assert FirstIndex(st1.users, p) == Some(|st.users|);
  }

  // ---------------------------------------------------------------------
  // Password reset

  /** Reset tokens expire fifteen minutes after they are issued. */
  const ResetLifetime := 15 * 60

  const NoAccount := "User account does not exist"

  /** `sendReset`: the first user with the lower-cased address gets a token
      valid for `ResetLifetime` seconds; a missing or protected account is
      refused. `token` stands for the random token and sending the mail is
      not modelled. */
  function SendReset(st: Store, email: string, token: string, now: int): (r: Reply<Store>)
    ensures r.Ok? || r == BadRequest([NoAccount])
    ensures !EmailInUse(st.users, ToLower(email)) ==> r == BadRequest([NoAccount])
    ensures r.Ok? ==> exists u :: (u in st.users && u.email == ToLower(email) && !u.protected &&
      r.value == st.(resets := st.resets + [ResetToken(u.id, token, now + ResetLifetime)]))
    ensures r.Ok? ==> exists i :: IsFirst(st.users, HasEmail(ToLower(email)), i)
    ensures forall i :: IsFirst(st.users, HasEmail(ToLower(email)), i) ==>
      (r.Ok? <==> !st.users[i].protected) &&
      (r.Ok? ==> r.value == st.(resets := st.resets + [ResetToken(st.users[i].id, token, now + ResetLifetime)]))
  {
    FirstIndexIsFirst(st.users, HasEmail(ToLower(email)));
    match FindFirst(st.users, HasEmail(ToLower(email)))
    case None => BadRequest([NoAccount])
    case Some(u) =>
      if u.protected then BadRequest([NoAccount])
      else Ok(st.(resets := st.resets + [ResetToken(u.id, token, now + ResetLifetime)]))
  }

  function LiveToken(token: string, now: int): ResetToken -> bool {
    (t: ResetToken) => t.token == token && t.expire > now
  }

  function NotOwnedBy(user: ObjectId): ResetToken -> bool {
    (t: ResetToken) => t.user != user
  }

  /** `doReset`: a weak password or a token that is unknown or expired is
      refused; otherwise the token's user gets the new password and every
      token of that user is removed. A token whose user is gone makes the Go
      code dereference a nil user. */
  function DoReset(st: Store, token: string, password: string, hashed: string, now: int): (r: Reply<Store>)
    ensures !IsPasswordSecure(password) ==> r == BadRequest(["Weak Password"])
    ensures IsPasswordSecure(password) && (forall t :: t in st.resets ==> !LiveToken(token, now)(t)) ==> r == BadRequest([])
    ensures r.Ok? ==> exists t :: (t in st.resets && t.token == token && now < t.expire &&
      FindUser(st.users, t.user).Some? &&
      r.value.users == UpdatePassword(st.users, t.user, password, hashed).value &&
      (forall x :: x in r.value.resets <==> x in st.resets && x.user != t.user))
    ensures r.Ok? ==> r.value == st.(users := r.value.users, resets := r.value.resets)
    ensures r.Ok? ==> exists i :: IsFirst(st.resets, LiveToken(token, now), i)
    ensures forall i :: IsPasswordSecure(password) && IsFirst(st.resets, LiveToken(token, now), i) ==>
      var t := st.resets[i];
      && (r.Ok? <==> ValidId(t.user) && FindUser(st.users, t.user).Some?)
      && (r.Ok? ==> r.value.users == UpdatePassword(st.users, t.user, password, hashed).value)
      && (r.Ok? ==> forall x :: x in r.value.resets <==> x in st.resets && x.user != t.user)
  {
    FirstIndexIsFirst(st.resets, LiveToken(token, now));
    if !IsPasswordSecure(password) then BadRequest(["Weak Password"])
    else match FindFirst(st.resets, LiveToken(token, now))
      case None => BadRequest([])
      case Some(t) =>
        match FindUserById(st.users, t.user)
        case Failure(_) => ServerError
        case Success(None) => ServerError
        case Success(Some(u)) =>
          match UpdatePassword(st.users, u.id, password, hashed)
          case Failure(_) => ServerError
          case Success(users) => Ok(st.(users := users, resets := Filter(st.resets, NotOwnedBy(u.id))))
  }

  /** No token other than `t` carries the string `token`. */
  predicate UniqueToken(resets: seq<ResetToken>, token: string) {
    forall x :: x in resets ==> x.token != token
  }

  /** A token is refused once its fifteen minutes have passed. */
  lemma ResetTokenExpires(st: Store, email: string, token: string, issued: int, password: string, hashed: string, now: int)
    requires SendReset(st, email, token, issued).Ok?
    requires UniqueToken(st.resets, token)
    requires now >= issued + ResetLifetime
    ensures !DoReset(SendReset(st, email, token, issued).value, token, password, hashed, now).Ok?
  {
    var st1 := SendReset(st, email, token, issued).value;
    forall t | t in st1.resets ensures !LiveToken(token, now)(t) {
      if t !in st.resets {
        assert t == st1.resets[|st.resets|];
      }
    }
  }

  /** Within its fifteen minutes a token resets the password of the account
      it was issued for. */
  lemma ResetWithinLifetime(st: Store, email: string, token: string, issued: int, password: string, hashed: string, now: int)
    requires SendReset(st, email, token, issued).Ok?
    requires UniqueToken(st.resets, token)
    requires issued <= now < issued + ResetLifetime
    requires IsPasswordSecure(password)
    requires forall u :: u in st.users ==> ValidId(u.id)
    ensures DoReset(SendReset(st, email, token, issued).value, token, password, hashed, now).Ok?
  {
    var st1 := SendReset(st, email, token, issued).value;
    var p := LiveToken(token, now);
    var i := |st.resets|;
    forall j | 0 <= j < i ensures !p(st1.resets[j]) {
      assert st1.resets[j] == st.resets[j] && st.resets[j] in st.resets;
    }
    assert p(st1.resets[i]);
    assert FirstIndex(st1.resets, p) == Some(i);
  }

  /** A token cannot be used twice: a successful reset removes every token of
      its user, so the same token is then unknown, as long as no other user
      holds a token with the same text. */
  lemma ResetIsSingleUse(st: Store, token: string, p1: string, h1: string, t1: int, p2: string, h2: string, t2: int)
    requires DoReset(st, token, p1, h1, t1).Ok?
    requires forall x, y :: x in st.resets && y in st.resets && x.token == token && y.token == token ==> x.user == y.user
    ensures !DoReset(DoReset(st, token, p1, h1, t1).value, token, p2, h2, t2).Ok?
  {
    var st1 := DoReset(st, token, p1, h1, t1).value;
    forall x | x in st1.resets ensures !LiveToken(token, t2)(x) {
    }
  }
}

=== FILE: availability.dfy ===
/** `GetAvailableScooters` (db/Shift.go): the bikes of a garage that can be
    booked on a given day. A bike is bookable when it is enabled, not
    archived, within the engine-size limit, and has no confirmed,
    non-deleted shift of the same garage on that day. */
module Availability {
  import opened Wrappers
  import opened Seqs
  import opened Civil
  import opened Records

  /** The bikes query: the garage's enabled, unarchived bikes, and when
      `maxCC > 0` only those of at most `maxCC` cc. */
  predicate IsCandidate(b: Bike, garage: ObjectId, maxCC: int) {
    && b.garage == garage
    && b.available
    && !b.archived
    && (maxCC > 0 ==> b.engineSize <= maxCC)
  }

  /** The shifts query run per candidate bike, over the window `[start, end)`. */
  predicate Blocks(s: Shift, garage: ObjectId, bike: ObjectId, start: int, end: int) {
    && s.garage == garage
    && s.bike == bike
    && start <= s.date < end
    && !s.deleted
    && s.status == Confirmed
  }

  predicate IsBooked(shifts: seq<Shift>, garage: ObjectId, bike: ObjectId, start: int, end: int) {
    exists s <- shifts :: Blocks(s, garage, bike, start, end)
  }

  /** The calendar reading of a booking: `s` is a live confirmed shift of
      that garage and bike on day `day`. */
  predicate ConfirmedOn(s: Shift, garage: ObjectId, bike: ObjectId, day: int) {
    && s.garage == garage
    && s.bike == bike
    && DayOf(s.date) == day
    && !s.deleted
    && s.status == Confirmed
  }

  /** The candidates, ordered by bike number. */
  function Candidates(bikes: seq<Bike>, garage: ObjectId, maxCC: int): (r: seq<Bike>)
    ensures SortedBy(r, BikeNumber)
    ensures forall b :: b in r <==> b in bikes && IsCandidate(b, garage, maxCC)
    ensures forall b :: multiset(r)[b] == if IsCandidate(b, garage, maxCC) then multiset(bikes)[b] else 0
  {
    var selected := Filter(bikes, (b: Bike) => IsCandidate(b, garage, maxCC));
    var r := SortBy(selected, BikeNumber);
    forall b ensures multiset(r)[b] == if IsCandidate(b, garage, maxCC) then multiset(bikes)[b] else 0 {
      FilterMultiplicity(bikes, (b: Bike) => IsCandidate(b, garage, maxCC), b);
    }
    assert forall b :: b in r <==> b in selected by {
      forall b ensures b in r <==> b in selected {
        SortByMembers(selected, BikeNumber, b);
      }
    }
    r
  }

  /** The day window of `date` is `[start of its day, start of the next day)`. */
  lemma WindowOfDate(date: int)
    ensures DayStart(date + SecondsPerDay) == DayStart(date) + SecondsPerDay
  {
    assert (date + SecondsPerDay) / SecondsPerDay == date / SecondsPerDay + 1;
  }

  /** A shift falls in the window of `date` exactly when it is on the same day. */
  lemma BlocksIffConfirmedOn(s: Shift, garage: ObjectId, bike: ObjectId, date: int)
    ensures Blocks(s, garage, bike, DayStart(date), DayStart(date + SecondsPerDay))
            <==> ConfirmedOn(s, garage, bike, DayOf(date))
  {
    WindowOfDate(date);
    SameDayIffInWindow(date, s.date);
  }

  /** `GetAvailableScooters(garage, date, maxCC)`. */
  function AvailableBikes(bikes: seq<Bike>, shifts: seq<Shift>, garage: ObjectId, date: int, maxCC: int): (r: seq<Bike>)
    ensures forall b :: b in r ==> b.garage == garage && b.available && !b.archived
    ensures maxCC > 0 ==> forall b :: b in r ==> b.engineSize <= maxCC
    ensures SortedBy(r, BikeNumber)
    ensures IsSubsequence(r, Candidates(bikes, garage, maxCC))
    ensures forall b :: b in r <==>
      && b in bikes
      && IsCandidate(b, garage, maxCC)
      && !exists s <- shifts :: ConfirmedOn(s, garage, b.id, DayOf(date))
  {
    var start := DayStart(date);
    var end := DayStart(date + SecondsPerDay);
    var c := Candidates(bikes, garage, maxCC);
    var r := Filter(c, (b: Bike) => !IsBooked(shifts, garage, b.id, start, end));
    FilterKeepsSorted(c, (b: Bike) => !IsBooked(shifts, garage, b.id, start, end), BikeNumber);
    FilterIsSubsequence(c, (b: Bike) => !IsBooked(shifts, garage, b.id, start, end));
    assert forall b: Bike, s: Shift :: Blocks(s, garage, b.id, start, end) <==> ConfirmedOn(s, garage, b.id, DayOf(date)) by {
      forall b: Bike, s: Shift ensures Blocks(s, garage, b.id, start, end) <==> ConfirmedOn(s, garage, b.id, DayOf(date)) {
        BlocksIffConfirmedOn(s, garage, b.id, date);
      }
    }
    r
  }

  /** Dropping the engine-size limit can only add bikes: every bike offered
      under a limit is offered without one. */
  lemma NoLimitOffersMore(bikes: seq<Bike>, shifts: seq<Shift>, garage: ObjectId, date: int, maxCC: int)
    requires maxCC > 0
    ensures forall b :: b in AvailableBikes(bikes, shifts, garage, date, maxCC) ==> b in AvailableBikes(bikes, shifts, garage, date, 0)
  {
  }

  /** A live confirmed shift on the day takes its bike out of the offer, for
      any engine-size limit. */
  lemma ConfirmedShiftExcludesBike(bikes: seq<Bike>, shifts: seq<Shift>, s: Shift, date: int, maxCC: int)
    requires s in shifts
    requires s.status == Confirmed && !s.deleted
    requires DayOf(s.date) == DayOf(date)
    ensures forall b :: b in AvailableBikes(bikes, shifts, s.garage, date, maxCC) ==> b.id != s.bike
  {
    forall b | b in AvailableBikes(bikes, shifts, s.garage, date, maxCC) ensures b.id != s.bike {
      assert ConfirmedOn(s, s.garage, s.bike, DayOf(date));
    }
  }

  /** A shift that cannot block (not confirmed, deleted, another garage, or
      another day) leaves the offer exactly as it was: created shifts do not
      reserve a bike, so the same bike may be booked twice at that stage. */
  lemma {:induction false} NonBlockingShiftIsIgnored(bikes: seq<Bike>, shifts: seq<Shift>, s: Shift, garage: ObjectId, date: int, maxCC: int)
    requires s.status != Confirmed || s.deleted || s.garage != garage || DayOf(s.date) != DayOf(date)
    ensures AvailableBikes(bikes, shifts + [s], garage, date, maxCC) == AvailableBikes(bikes, shifts, garage, date, maxCC)
  {
    var start := DayStart(date);
    var end := DayStart(date + SecondsPerDay);
    var c := Candidates(bikes, garage, maxCC);
    forall b: Bike ensures IsBooked(shifts + [s], garage, b.id, start, end) == IsBooked(shifts, garage, b.id, start, end) {
      BlocksIffConfirmedOn(s, garage, b.id, date);
      if IsBooked(shifts + [s], garage, b.id, start, end) {
        var t :| t in shifts + [s] && Blocks(t, garage, b.id, start, end);
        assert t != s;
        assert t in shifts;
      }
    }
    FilterCongruent(c,
      (b: Bike) => !IsBooked(shifts + [s], garage, b.id, start, end),
      (b: Bike) => !IsBooked(shifts, garage, b.id, start, end));
  }

  /** A bike with no confirmed shift that day is offered if it is a
      candidate, whatever created shifts it has. */
  lemma UnconfirmedBikeIsOffered(bikes: seq<Bike>, shifts: seq<Shift>, b: Bike, garage: ObjectId, date: int, maxCC: int)
    requires b in bikes && IsCandidate(b, garage, maxCC)
    requires forall s :: s in shifts && s.bike == b.id && DayOf(s.date) == DayOf(date) ==> s.status == Created
    ensures b in AvailableBikes(bikes, shifts, garage, date, maxCC)
  {
  }

  /** The learner scenario: a 50cc and a 150cc bike in one garage, no
      shifts, and a 125cc limit: only the 50cc bike is offered. */
  lemma LearnerScenario(g: ObjectId, a: Bike, b: Bike, date: int)
    requires a.garage == g && b.garage == g
    requires a.available && b.available && !a.archived && !b.archived
    requires a.engineSize == 50 && b.engineSize == 150
    ensures AvailableBikes([a, b], [], g, date, 125) == [a]
  {
    var c := Candidates([a, b], g, 125);
    assert Filter([a, b], (x: Bike) => IsCandidate(x, g, 125)) == [a];
    assert c == [a];
  }
}

=== FILE: civil.dfy ===
/** The proleptic Gregorian calendar on a local-time axis of whole seconds.
    Instant 0 is 0000-01-01 00:00 local time; day `n` covers the seconds
    `[n * 86400, (n + 1) * 86400)`. Time zones are not modelled: every
    instant is already local. */
module Civil {
  import opened Wrappers

  const SecondsPerMinute := 60
  const SecondsPerHour := 3600
  const SecondsPerDay := 86400

  /** The day an instant falls on (floor division: `/` with a positive divisor). */
  function DayOf(t: int): int { t / SecondsPerDay }

  /** Midnight starting day number `day`. */
  function Midnight(day: int): (r: int)
    ensures r % SecondsPerDay == 0
    ensures DayOf(r) == day
  {
    day * SecondsPerDay
  }

  /** Midnight starting the day of `t`. */
  function DayStart(t: int): (r: int)
    ensures r <= t < r + SecondsPerDay
    ensures r % SecondsPerDay == 0
  {
    Midnight(DayOf(t))
  }

  /** Two instants share a calendar day exactly when the second lies in the
      day window `[DayStart(t), DayStart(t) + 24h)` of the first. */
  lemma SameDayIffInWindow(t: int, u: int)
    ensures DayStart(t) <= u < DayStart(t) + SecondsPerDay <==> DayOf(u) == DayOf(t)
  {
  }

  /** The minute of the hour, as Go's `Time.Minute`. */
  function MinuteOfHour(t: int): (r: int)
    ensures 0 <= r < 60
  {
    (t / SecondsPerMinute) % 60
  }

  predicate IsLeap(y: int) {
    y % 4 == 0 && (y % 100 != 0 || y % 400 == 0)
  }

  function DaysInMonth(y: int, m: int): (r: int)
    requires 1 <= m <= 12
    ensures 28 <= r <= 31
  {
    if m == 2 then (if IsLeap(y) then 29 else 28)
    else if m == 4 || m == 6 || m == 9 || m == 11 then 30
    else 31
  }

  /** Days in the months of year `y` before month `m`. */
  function DaysBeforeMonth(y: int, m: int): int
    requires 1 <= m <= 12
  {
    [0, 31, 59, 90, 120, 151, 181, 212, 243, 273, 304, 334][m - 1]
      + (if m > 2 && IsLeap(y) then 1 else 0)
  }

  /** Leap years in `[0, y)` (negative when `y` is negative). */
  function LeapYearsBefore(y: int): int {
    (y + 3) / 4 - (y + 99) / 100 + (y + 399) / 400
  }

  /** Days from 0000-01-01 to the first of January of year `y`. */
  function DaysBeforeYear(y: int): int {
    365 * y + LeapYearsBefore(y)
  }

  /** The day number of the date `d`/`m`/`y`. */
  function DayNumber(y: int, m: int, d: int): int
    requires 1 <= m <= 12
  {
    DaysBeforeYear(y) + DaysBeforeMonth(y, m) + d - 1
  }

  /** A year has 366 days when it is a leap year and 365 otherwise. */
  lemma YearLength(y: int)
    ensures DaysBeforeYear(y + 1) - DaysBeforeYear(y) == if IsLeap(y) then 366 else 365
  {
    LeapStep(y);
  }

  /** The leap-year count grows by one exactly past a leap year. */
  lemma LeapStep(y: int)
    ensures LeapYearsBefore(y + 1) - LeapYearsBefore(y) == if IsLeap(y) then 1 else 0
  {
    CeilingStep(y, 4);
    CeilingStep(y, 100);
    CeilingStep(y, 400);
    MultipleOfMultiple(y, 4, 25);
    MultipleOfMultiple(y, 100, 4);
  }

  /** A multiple of `k * j` is a multiple of `k`. */
  lemma MultipleOfMultiple(y: int, k: int, j: int)
    requires k > 0 && j > 0
    ensures y % (k * j) == 0 ==> y % k == 0
  {
    if y % (k * j) == 0 {
      var q := y / (k * j);
      assert y == (q * j) * k + 0;
      DivOf(y, k, q * j, 0);
    }
  }

  /** The count of multiples of `k` in `[0, y)` grows by one at `y` exactly
      when `y` is a multiple of `k`. */
  lemma CeilingStep(y: int, k: int)
    requires k > 0
    ensures (y + k) / k - (y + k - 1) / k == if y % k == 0 then 1 else 0
  {
    var q, r := y / k, y % k;
    assert y + k == (q + 1) * k + r;
    DivOf(y + k, k, q + 1, r);
    if r == 0 {
      assert y + k - 1 == q * k + (k - 1);
      DivOf(y + k - 1, k, q, k - 1);
    } else {
      assert y + k - 1 == (q + 1) * k + (r - 1);
      DivOf(y + k - 1, k, q + 1, r - 1);
    }
  }

  /** Division is determined by quotient and remainder. */
  lemma DivOf(n: int, k: int, q: int, r: int)
    requires k > 0 && 0 <= r < k && n == q * k + r
    ensures n / k == q
  {
    var d := n / k - q;
    assert d * k == r - n % k by {
      assert (n / k) * k + n % k == n;
      assert (n / k) * k == d * k + q * k;
    }
    MultipleBounds(d, k);
  }

  /** A non-zero multiple of `k` is at least `k` away from zero. */
  lemma MultipleBounds(d: int, k: int)
    requires k > 0
    ensures d >= 1 ==> d * k >= k
    ensures d <= -1 ==> d * k <= -k
  {
    if d >= 1 {
      assert d * k == (d - 1) * k + k;
      assert (d - 1) * k >= 0;
    } else if d <= -1 {
      assert d * k == (d + 1) * k - k;
      assert (d + 1) * k <= 0;
    }
  }

  /** The first of the next month is `DaysInMonth` days after the first of
      this one, December included. */
  lemma MonthLength(y: int, m: int)
    requires 1 <= m <= 12
    ensures m < 12 ==> DayNumber(y, m + 1, 1) - DayNumber(y, m, 1) == DaysInMonth(y, m)
    ensures m == 12 ==> DayNumber(y + 1, 1, 1) - DayNumber(y, 12, 1) == DaysInMonth(y, 12)
  {
    if m == 12 {
      YearLength(y);
    }
  }

  /** Go's `time.Date` normalisation of an out-of-range month: month
      `month` of year `year` is month `m` of year `y`, with `1 <= m <= 12`. */
  function NormalizeMonth(year: int, month: int): (r: (int, int))
    ensures 1 <= r.1 <= 12
    ensures r.0 * 12 + (r.1 - 1) == year * 12 + (month - 1)
  {
    var k := month - 1;
    (year + k / 12, k % 12 + 1)
  }

  /** Midnight of the first day of (normalised) month `month` of `year`:
      `time.Date(year, time.Month(month), 1, 0, 0, 0, 0, loc)`. */
  function MonthStart(year: int, month: int): int {
    var (y, m) := NormalizeMonth(year, month);
    Midnight(DayNumber(y, m, 1))
  }

  /** The window `[MonthStart(y, m), MonthStart(y, m + 1))` is exactly the
      normalised month: between 28 and 31 whole days. */
  lemma MonthWindow(year: int, month: int)
    ensures var (y, m) := NormalizeMonth(year, month);
      MonthStart(year, month + 1) - MonthStart(year, month) == DaysInMonth(y, m) * SecondsPerDay
    ensures 28 * SecondsPerDay <= MonthStart(year, month + 1) - MonthStart(year, month) <= 31 * SecondsPerDay
  {
    var (y, m) := NormalizeMonth(year, month);
    var (y2, m2) := NormalizeMonth(year, month + 1);
    MonthLength(y, m);
    if m < 12 {
      assert y2 == y && m2 == m + 1;
    } else {
      assert y2 == y + 1 && m2 == 1;
    }
  }

  predicate IsDigit(c: char) { '0' <= c <= '9' }

  function DigitValue(c: char): int
    requires IsDigit(c)
  {
    c as int - '0' as int
  }

  function DigitChar(n: int): (c: char)
    requires 0 <= n <= 9
    ensures IsDigit(c) && DigitValue(c) == n
  {
    ('0' as int + n) as char
  }

  /** The number written by `s` in decimal; every character a digit. */
  function Decimal(s: string): int
    requires forall i :: 0 <= i < |s| ==> IsDigit(s[i])
  {
    if s == [] then 0 else Decimal(s[..|s| - 1]) * 10 + DigitValue(s[|s| - 1])
  }

  /** `time.Parse("02-01-2006", s)`: exactly two day digits, a dash, two
      month digits, a dash and four year digits, naming a real date. The
      result is midnight of that day. */
  function ParseDate(s: string): (r: Option<int>)
    ensures r.Some? ==> r.value % SecondsPerDay == 0
    ensures r.Some? ==> exists y, m, d ::
      && 0 <= y <= 9999 && 1 <= m <= 12 && 1 <= d <= DaysInMonth(y, m)
      && s == FormatDate(y, m, d) && r.value == Midnight(DayNumber(y, m, d))
  {
    if |s| == 10 && s[2] == '-' && s[5] == '-'
       && (forall i :: 0 <= i < 10 && i != 2 && i != 5 ==> IsDigit(s[i]))
    then
      var d := Decimal(s[0..2]);
      var m := Decimal(s[3..5]);
      var y := Decimal(s[6..10]);
      if 1 <= m <= 12 && 1 <= d <= DaysInMonth(y, m)
      then
        ShapeIsFormatted(s);
        Some(Midnight(DayNumber(y, m, d)))
      else None
    else None
  }

  /** Text of the `DD-MM-YYYY` shape is the formatted form of the numbers
      its digit groups write. */
  lemma ShapeIsFormatted(s: string)
    requires |s| == 10 && s[2] == '-' && s[5] == '-'
    requires forall i :: 0 <= i < 10 && i != 2 && i != 5 ==> IsDigit(s[i])
    requires 1 <= Decimal(s[0..2]) <= 31 && 1 <= Decimal(s[3..5]) <= 12
    ensures 0 <= Decimal(s[6..10]) <= 9999
    ensures s == FormatDate(Decimal(s[6..10]), Decimal(s[3..5]), Decimal(s[0..2]))
  {
    PaddedDecimal(s[0..2]);
    PaddedDecimal(s[3..5]);
    PaddedDecimal(s[6..10]);
    assert Pow10(4) == 10000;
    assert s == s[0..2] + "-" + s[3..5] + "-" + s[6..10];
  }

  /** A string of digits is the zero-padded form of the number it writes,
      which has at most that many digits. */
  lemma {:induction false} PaddedDecimal(s: string)
    requires forall i :: 0 <= i < |s| ==> IsDigit(s[i])
    ensures 0 <= Decimal(s) < Pow10(|s|)
    ensures Padded(Decimal(s), |s|) == s
  {
    if s != [] {
      var p := s[..|s| - 1];
      var c := s[|s| - 1];
      PaddedDecimal(p);
      var v := Decimal(s);
      assert v == Decimal(p) * 10 + DigitValue(c);
      assert v / 10 == Decimal(p) && v % 10 == DigitValue(c);
      assert DigitChar(DigitValue(c)) == c;
      assert s == p + [c];
    }
  }

  /** The `n`-digit decimal form of `v`, zero-padded. */
  function Padded(v: int, n: nat): (r: string)
    requires 0 <= v
    ensures |r| == n
    ensures forall i :: 0 <= i < n ==> IsDigit(r[i])
  {
    if n == 0 then [] else Padded(v / 10, n - 1) + [DigitChar(v % 10)]
  }

  /** Reading back a padded number gives the number, when it fits. */
  lemma {:induction false} DecimalPadded(v: int, n: nat, bound: int)
    requires 0 <= v < bound
    requires n == 0 ==> bound == 1
    requires n > 0 ==> bound == Pow10(n)
    ensures Decimal(Padded(v, n)) == v
  {
    if n > 0 {
      var p := Padded(v, n);
      assert p[..|p| - 1] == Padded(v / 10, n - 1);
      if n == 1 {
        DecimalPadded(v / 10, 0, 1);
      } else {
        DecimalPadded(v / 10, n - 1, Pow10(n - 1));
      }
    }
  }

  function Pow10(n: nat): (r: int)
    ensures r >= 1
  {
    if n == 0 then 1 else 10 * Pow10(n - 1)
  }

  /** The `DD-MM-YYYY` text of a date. */
  function FormatDate(y: int, m: int, d: int): (s: string)
    requires 0 <= y <= 9999 && 1 <= m <= 12 && 1 <= d <= 31
  {
    Padded(d, 2) + "-" + Padded(m, 2) + "-" + Padded(y, 4)
  }

  /** Parsing the `DD-MM-YYYY` text of a real date gives midnight of that
      date: the parser and the formatter are inverse on the years 0..9999. */
  lemma ParseFormatRoundTrip(y: int, m: int, d: int)
    requires 0 <= y <= 9999 && 1 <= m <= 12 && 1 <= d <= DaysInMonth(y, m)
    ensures ParseDate(FormatDate(y, m, d)) == Some(Midnight(DayNumber(y, m, d)))
  {
    var s := FormatDate(y, m, d);
    assert s[0..2] == Padded(d, 2);
    assert s[3..5] == Padded(m, 2);
    assert s[6..10] == Padded(y, 4);
    assert Pow10(2) == 100 && Pow10(4) == 10000;
    DecimalPadded(d, 2, 100);
    DecimalPadded(m, 2, 100);
    DecimalPadded(y, 4, 10000);
  }

  /** A text of the wrong shape never parses. */
  lemma ParseRejectsWrongLength(s: string)
    requires |s| != 10
    ensures ParseDate(s).None?
  {
  }
}

=== FILE: config.dfy ===
/** Configuration (package `config`): how the listening port is resolved and
    the HTTP Basic authorization header sent to the GPS service, whose
    credentials are base64-encoded with the standard alphabet and padding
    of section 4 of RFC 4648. Strings handed to the encoder are their bytes. */
module Config {
  import opened Wrappers

  // ---------------------------------------------------------------------
  // Port

  /** `Parse`: a non-empty `PORT` environment variable overrides the
      configured port; an empty result falls back to ":3000". */
  function ResolvePort(configured: string, env: string): (port: string)
    ensures |port| > 0
    ensures |env| > 0 ==> port == ":" + env
    ensures |env| == 0 && |configured| > 0 ==> port == configured
    ensures |env| == 0 && |configured| == 0 ==> port == ":3000"
  {
    var p := if |env| > 0 then ":" + env else configured;
    if |p| == 0 then ":3000" else p
  }

  /** Resolving is stable: a resolved port, resolved again without an
      override, stays as it is, and an override decides the port whatever
      was configured. */
  lemma ResolvePortStable(configured: string, other: string, env: string)
    ensures ResolvePort(ResolvePort(configured, env), "") == ResolvePort(configured, env)
    ensures |env| > 0 ==> ResolvePort(configured, env) == ResolvePort(other, env)
  {
  }

  // ---------------------------------------------------------------------
  // Base64 (section 4 of RFC 4648)

  type Byte = b: int | 0 <= b < 256

  /** The character for a six-bit value: Table 1 of RFC 4648. */
  function Base64Char(v: int): (c: char)
    requires 0 <= v < 64
  {
    if v < 26 then ('A' as int + v) as char
    else if v < 52 then ('a' as int + v - 26) as char
    else if v < 62 then ('0' as int + v - 52) as char
    else if v == 62 then '+'
    else '/'
  }

  predicate IsBase64Char(c: char) {
    'A' <= c <= 'Z' || 'a' <= c <= 'z' || '0' <= c <= '9' || c == '+' || c == '/'
  }

  /** The six-bit value a character of the alphabet stands for. */
  function Base64Value(c: char): (v: int)
    requires IsBase64Char(c)
    ensures 0 <= v < 64
  {
    if 'A' <= c <= 'Z' then c as int - 'A' as int
    else if 'a' <= c <= 'z' then c as int - 'a' as int + 26
    else if '0' <= c <= '9' then c as int - '0' as int + 52
    else if c == '+' then 62
    else 63
  }

  /** Every value has a character of the alphabet that decodes to it. */
  lemma Base64CharValue(v: int)
    requires 0 <= v < 64
    ensures IsBase64Char(Base64Char(v)) && Base64Value(Base64Char(v)) == v
  {
  }

  /** Three bytes as four characters. */
  function EncodeGroup(a: Byte, b: Byte, c: Byte): string {
    [Base64Char(a / 4), Base64Char(a % 4 * 16 + b / 16), Base64Char(b % 16 * 4 + c / 64), Base64Char(c % 64)]
  }

  /** `base64.StdEncoding.EncodeToString`: whole groups of three bytes, then
      a final one or two bytes padded with "==" or "=". */
  function Encode(bytes: seq<Byte>): (s: string)
    ensures |s| % 4 == 0
  {
    if |bytes| == 0 then ""
    else if |bytes| == 1 then
      [Base64Char(bytes[0] / 4), Base64Char(bytes[0] % 4 * 16), '=', '=']
    else if |bytes| == 2 then
      [Base64Char(bytes[0] / 4), Base64Char(bytes[0] % 4 * 16 + bytes[1] / 16), Base64Char(bytes[1] % 16 * 4), '=']
    else
      EncodeGroup(bytes[0], bytes[1], bytes[2]) + Encode(bytes[3..])
  }

  /** Text made of base64 characters and the padding '='. */
  predicate IsBase64Text(s: string) {
    forall i :: 0 <= i < |s| ==> IsBase64Char(s[i]) || s[i] == '='
  }

  /** The encoding uses only the base64 alphabet and '='. */
  lemma {:induction false} EncodeAlphabet(bytes: seq<Byte>)
    ensures IsBase64Text(Encode(bytes))
  {
    if |bytes| == 1 {
      Base64CharValue(bytes[0] / 4);
      Base64CharValue(bytes[0] % 4 * 16);
    } else if |bytes| == 2 {
      Base64CharValue(bytes[0] / 4);
      Base64CharValue(bytes[0] % 4 * 16 + bytes[1] / 16);
      Base64CharValue(bytes[1] % 16 * 4);
    } else if |bytes| > 2 {
      var g := EncodeGroup(bytes[0], bytes[1], bytes[2]);
      Base64CharValue(bytes[0] / 4);
      Base64CharValue(bytes[0] % 4 * 16 + bytes[1] / 16);
      Base64CharValue(bytes[1] % 16 * 4 + bytes[2] / 64);
      Base64CharValue(bytes[2] % 64);
      assert IsBase64Text(g);
      EncodeAlphabet(bytes[3..]);
      EncodeStep(bytes);
      TextConcat(g, Encode(bytes[3..]));
    }
  }

  lemma TextConcat(a: string, b: string)
    requires IsBase64Text(a) && IsBase64Text(b)
    ensures IsBase64Text(a + b)
  {
    forall i | 0 <= i < |a + b| ensures IsBase64Char((a + b)[i]) || (a + b)[i] == '=' {
      if i >= |a| { assert (a + b)[i] == b[i - |a|]; }
    }
  }

  /** Every started group of three bytes takes four characters. */
  lemma {:induction false} EncodedLength(bytes: seq<Byte>)
    ensures |Encode(bytes)| == 4 * ((|bytes| + 2) / 3)
  {
    if |bytes| > 2 {
      EncodedLength(bytes[3..]);
      assert (|bytes| + 2) / 3 == (|bytes[3..]| + 2) / 3 + 1;
    }
  }

  /** Decoding, the inverse the standard defines: groups of four characters,
      padding only in the last group. Anything else is rejected. */
  function Decode(s: string): Option<seq<Byte>> {
    if |s| == 0 then Some([])
    else if |s| < 4 then None
    else if |s| == 4 && s[2] == '=' && s[3] == '=' then
      if IsBase64Char(s[0]) && IsBase64Char(s[1]) then
        Some([Base64Value(s[0]) * 4 + Base64Value(s[1]) / 16])
      else None
    else if |s| == 4 && s[3] == '=' then
      if IsBase64Char(s[0]) && IsBase64Char(s[1]) && IsBase64Char(s[2]) then
        Some([Base64Value(s[0]) * 4 + Base64Value(s[1]) / 16, Base64Value(s[1]) % 16 * 16 + Base64Value(s[2]) / 4])
      else None
    else if IsBase64Char(s[0]) && IsBase64Char(s[1]) && IsBase64Char(s[2]) && IsBase64Char(s[3]) then
      match Decode(s[4..])
      case None => None
      case Some(rest) => Some(DecodeGroupOf(s[..4]) + rest)
    else None
  }

  /** Four characters of the alphabet as three bytes. */
  function DecodeGroupOf(q: string): seq<Byte>
    requires |q| == 4 && forall i :: 0 <= i < 4 ==> IsBase64Char(q[i])
  {
    var w, x, y, z := Base64Value(q[0]), Base64Value(q[1]), Base64Value(q[2]), Base64Value(q[3]);
    [w * 4 + x / 16, x % 16 * 16 + y / 4, y % 4 * 64 + z]
  }

  /** The arithmetic of one group: the four six-bit values put back together
      give the three bytes. */
  lemma GroupRoundTrip(a: Byte, b: Byte, c: Byte)
    ensures var w, x, y, z := a / 4, a % 4 * 16 + b / 16, b % 16 * 4 + c / 64, c % 64;
      w * 4 + x / 16 == a && x % 16 * 16 + y / 4 == b && y % 4 * 64 + z == c
  {
    var x := a % 4 * 16 + b / 16;
    var y := b % 16 * 4 + c / 64;
    assert x / 16 == a % 4 && x % 16 == b / 16;
    assert y / 4 == b % 16 && y % 4 == c / 64;
  }

  /** Decoding an encoding gives the bytes back. */
  lemma {:induction false} DecodeEncode(bytes: seq<Byte>)
    ensures Decode(Encode(bytes)) == Some(bytes)
    decreases |bytes|
  {
    if |bytes| == 1 {
      DecodeLastOne(bytes);
    } else if |bytes| == 2 {
      DecodeLastTwo(bytes);
    } else if |bytes| > 2 {
      DecodeEncode(bytes[3..]);
      DecodeGroup(bytes);
    }
  }

  /** One final byte: two characters and "==". */
  lemma DecodeLastOne(bytes: seq<Byte>)
    requires |bytes| == 1
    ensures Decode(Encode(bytes)) == Some(bytes)
  {
    EncodeLastOne(bytes);
    DecodeOneOf(bytes[0]);
    SplitOne(bytes);
  }

  /** Two final bytes: three characters and "=". */
  lemma DecodeLastTwo(bytes: seq<Byte>)
    requires |bytes| == 2
    ensures Decode(Encode(bytes)) == Some(bytes)
  {
    EncodeLastTwo(bytes);
    DecodeTwoOf(bytes[0], bytes[1]);
    SplitTwo(bytes);
  }

  /** One final byte is encoded as two characters and "==". */
  lemma EncodeLastOne(bytes: seq<Byte>)
    requires |bytes| == 1
    ensures Encode(bytes) == [Base64Char(bytes[0] / 4), Base64Char(bytes[0] % 4 * 16), '=', '=']
  {
  }

  /** Two final bytes are encoded as three characters and "=". */
  lemma EncodeLastTwo(bytes: seq<Byte>)
    requires |bytes| == 2
    ensures Encode(bytes) ==
      [Base64Char(bytes[0] / 4), Base64Char(bytes[0] % 4 * 16 + bytes[1] / 16), Base64Char(bytes[1] % 16 * 4), '=']
  {
  }

  /** The encoding of one final byte decodes to it. */
  lemma DecodeOneOf(a: Byte)
    ensures Decode([Base64Char(a / 4), Base64Char(a % 4 * 16), '=', '=']) == Some([a])
  {
    var v0, v1 := a / 4, a % 4 * 16;
    DecodeOneValue(v0, v1);
    GroupRoundTrip(a, 0, 0);
    assert v0 * 4 + v1 / 16 == a;
  }

  /** The encoding of two final bytes decodes to them. */
  lemma DecodeTwoOf(a: Byte, b: Byte)
    ensures Decode([Base64Char(a / 4), Base64Char(a % 4 * 16 + b / 16), Base64Char(b % 16 * 4), '=']) == Some([a, b])
  {
    var v0, v1, v2 := a / 4, a % 4 * 16 + b / 16, b % 16 * 4;
    DecodeTwoValues(v0, v1, v2);
    GroupRoundTrip(a, b, 0);
    assert v0 * 4 + v1 / 16 == a && v1 % 16 * 16 + v2 / 4 == b;
  }

  /** The characters of two six-bit values, then "==", decode to one byte. */
  lemma DecodeOneValue(v0: int, v1: int)
    requires 0 <= v0 < 64 && 0 <= v1 < 64
    ensures Decode([Base64Char(v0), Base64Char(v1), '=', '=']) == Some([v0 * 4 + v1 / 16])
  {
    Base64CharValue(v0);
    Base64CharValue(v1);
    DecodeOneByte(Base64Char(v0), Base64Char(v1));
  }

  /** The characters of three six-bit values, then "=", decode to two bytes. */
  lemma DecodeTwoValues(v0: int, v1: int, v2: int)
    requires 0 <= v0 < 64 && 0 <= v1 < 64 && 0 <= v2 < 64
    ensures Decode([Base64Char(v0), Base64Char(v1), Base64Char(v2), '=']) == Some([v0 * 4 + v1 / 16, v1 % 16 * 16 + v2 / 4])
  {
    Base64CharValue(v0);
    Base64CharValue(v1);
    Base64CharValue(v2);
    DecodeTwoBytes(Base64Char(v0), Base64Char(v1), Base64Char(v2));
  }

  /** A final group with "==" decodes to one byte. */
  lemma DecodeOneByte(c0: char, c1: char)
    requires IsBase64Char(c0) && IsBase64Char(c1)
    ensures Decode([c0, c1, '=', '=']) == Some([Base64Value(c0) * 4 + Base64Value(c1) / 16])
  {
  }

  /** A final group with "=" decodes to two bytes. */
  lemma DecodeTwoBytes(c0: char, c1: char, c2: char)
    requires IsBase64Char(c0) && IsBase64Char(c1) && IsBase64Char(c2)
    ensures Decode([c0, c1, c2, '=']) ==
      Some([Base64Value(c0) * 4 + Base64Value(c1) / 16, Base64Value(c1) % 16 * 16 + Base64Value(c2) / 4])
  {
    assert [c0, c1, c2, '='][2] == c2 != '=';
  }

  lemma SplitOne<T>(s: seq<T>)
    requires |s| == 1
    ensures s == [s[0]]
  {
  }

  lemma SplitTwo<T>(s: seq<T>)
    requires |s| == 2
    ensures s == [s[0], s[1]]
  {
  }

  /** A whole group decodes to its three bytes, followed by whatever the
      rest decodes to. */
  lemma DecodeGroup(bytes: seq<Byte>)
    requires |bytes| > 2
    requires Decode(Encode(bytes[3..])) == Some(bytes[3..])
    ensures Decode(Encode(bytes)) == Some(bytes)
  {
    EncodeStep(bytes);
    DecodeAppend(bytes[0], bytes[1], bytes[2], Encode(bytes[3..]), bytes[3..]);
    SplitThree(bytes);
  }

  /** A sequence of three or more is its first three elements and the rest. */
  lemma SplitThree<T>(s: seq<T>)
    requires |s| > 2
    ensures s == [s[0], s[1], s[2]] + s[3..]
  {
  }

  /** A leading group of three bytes is encoded on its own. */
  lemma EncodeStep(bytes: seq<Byte>)
    requires |bytes| > 2
    ensures Encode(bytes) == EncodeGroup(bytes[0], bytes[1], bytes[2]) + Encode(bytes[3..])
  {
  }

  /** A group in front of any decodable text decodes to its bytes in front
      of what the text decodes to. */
  lemma DecodeAppend(a: Byte, b: Byte, c: Byte, t: string, rest: seq<Byte>)
    requires Decode(t) == Some(rest)
    ensures Decode(EncodeGroup(a, b, c) + t) == Some([a, b, c] + rest)
  {
    var g := EncodeGroup(a, b, c);
    var s := g + t;
    GroupChars(a, b, c);
    assert s[..4] == g && s[4..] == t;
    DecodeStep(s);
  }

  /** A leading group without padding decodes on its own, in front of the
      rest. */
  lemma DecodeStep(s: string)
    requires |s| >= 4 && (forall i :: 0 <= i < 4 ==> IsBase64Char(s[i]))
    ensures Decode(s) == match Decode(s[4..]) { case None => None case Some(rest) => Some(DecodeGroupOf(s[..4]) + rest) }
  {
    assert s[3] != '=';
  }

  /** A group's characters are in the alphabet and decode to the group. */
  lemma GroupChars(a: Byte, b: Byte, c: Byte)
    ensures var g := EncodeGroup(a, b, c);
      (forall i :: 0 <= i < 4 ==> IsBase64Char(g[i])) && g[3] != '=' && DecodeGroupOf(g) == [a, b, c]
  {
    var w, x, y, z := a / 4, a % 4 * 16 + b / 16, b % 16 * 4 + c / 64, c % 64;
    GroupValues(w, x, y, z);
    GroupRoundTrip(a, b, c);
    assert w * 4 + x / 16 == a && x % 16 * 16 + y / 4 == b && y % 4 * 64 + z == c;
  }

  /** The characters of four six-bit values are in the alphabet and decode
      to the three bytes those values make up. */
  lemma GroupValues(w: int, x: int, y: int, z: int)
    requires 0 <= w < 64 && 0 <= x < 64 && 0 <= y < 64 && 0 <= z < 64
    ensures var g := [Base64Char(w), Base64Char(x), Base64Char(y), Base64Char(z)];
      && (forall i :: 0 <= i < 4 ==> IsBase64Char(g[i])) && g[3] != '='
      && DecodeGroupOf(g) == [w * 4 + x / 16, x % 16 * 16 + y / 4, y % 4 * 64 + z]
  {
    Base64CharValue(w);
    Base64CharValue(x);
    Base64CharValue(y);
    Base64CharValue(z);
  }

  const Colon: Byte := 58

  /** `GetGPSAuthorization`: the HTTP Basic credentials of section 2 of
      RFC 7617, the email and password joined by a colon and base64-encoded
      after "Basic ". */
  function GpsAuthorization(email: seq<Byte>, password: seq<Byte>): (header: string)
    ensures |header| >= 6 && header[..6] == "Basic "
    ensures Decode(header[6..]) == Some(email + [Colon] + password)
  {
    DecodeEncode(email + [Colon] + password);
    var header := "Basic " + Encode(email + [Colon] + password);
    assert header[6..] == Encode(email + [Colon] + password);
    header
  }
}

=== FILE: context.dfy ===
/** What the middleware chain leaves in a request's context for the handlers:
    the authenticated user, the user an administrator is acting for, and
    whether a privilege guard admitted the caller. */
module RequestContext {
  import opened Wrappers
  import opened Records

  datatype Caller = Caller(
    /** `userID`: the authenticated user. */
    userId: ObjectId,
    /** `admin_user`: the user an administrator route is acting for, if any. */
    adminUser: Option<ObjectId>,
    /** `is_admin`: set by the supervisor guard. */
    isAdmin: bool)

  /** The user a request is about: the proxied user on administrator routes,
      otherwise the caller. */
  function EffectiveUser(c: Caller): (u: ObjectId)
    ensures c.adminUser.None? ==> u == c.userId
    ensures c.adminUser.Some? ==> u == c.adminUser.value
  {
    c.adminUser.GetOr(c.userId)
  }
}

=== FILE: membership.dfy ===
/** A driver's own membership application (api/membership.go): saving the
    application form, submitting it for review, and the driving-licence
    documents kept in the licence file store. */
module MembershipApi {
  import opened Wrappers
  import opened Seqs
  import opened Text
  import opened Records
  import opened RequestContext

  // ---------------------------------------------------------------------
  // The application form
  // ---------------------------------------------------------------------

  /** The fields a driver fills in; everything else in a membership belongs
      to the review workflow. */
  datatype Details = Details(
    dob: Option<int>,
    phone: string,
    paypalEmail: string,
    address: string,
    city: string,
    postcode: string,
    workCity: string,
    nationality: string,
    driverLicense: string,
    driverLicenseExpiry: Option<int>,
    cbtExpiry: Option<int>,
    workDeclaration: string,
    licence: string,
    useOwnBike: bool,
    nextOfKin: string,
    checkCode: string,
    utr: string,
    nationalInsurance: string)

  function DetailsOf(m: Membership): Details {
    Details(m.dob, m.phone, m.paypalEmail, m.address, m.city, m.postcode, m.workCity, m.nationality,
      m.driverLicense, m.driverLicenseExpiry, m.cbtExpiry, m.workDeclaration, m.licence, m.useOwnBike,
      m.nextOfKin, m.checkCode, m.utr, m.nationalInsurance)
  }

  /** A workflow that has not started: not submitted, not approved, no
      number, interview, notes or rating. */
  predicate Fresh(m: Membership) {
    && m.number == 0
    && !m.submitted && m.submittedDate.None?
    && !m.approved && m.approvedDate.None? && m.approvedBy.None?
    && m.interviewDate.None?
    && m.privateNotes == "" && m.rating == 0
  }

  /** The document the save handler writes: the form, its owner and its id,
      with every workflow field at its zero value. */
  function Fill(mid: ObjectId, user: ObjectId, d: Details): (m: Membership)
    ensures DetailsOf(m) == d
    ensures m.mid == mid && m.user == user
    ensures Fresh(m)
  {
    EmptyMembership(mid, user).(
      dob := d.dob, phone := d.phone, paypalEmail := d.paypalEmail, address := d.address,
      city := d.city, postcode := d.postcode, workCity := d.workCity, nationality := d.nationality,
      driverLicense := d.driverLicense, driverLicenseExpiry := d.driverLicenseExpiry,
      cbtExpiry := d.cbtExpiry, workDeclaration := d.workDeclaration, licence := d.licence,
      useOwnBike := d.useOwnBike, nextOfKin := d.nextOfKin, checkCode := d.checkCode,
      utr := d.utr, nationalInsurance := d.nationalInsurance)
  }

  /** What `userMembershipMiddleware` loads: the membership with its private
      notes left out of the query. */
  function Visible(m: Membership): (v: Membership)
    ensures v.privateNotes == ""
    ensures DetailsOf(v) == DetailsOf(m) && v.mid == m.mid && v.user == m.user
    ensures v.submitted == m.submitted && v.approved == m.approved && v.number == m.number
  {
    m.(privateNotes := "")
  }

  /** `getUserMembership`: the caller's membership as loaded, or a membership
      with every field at its zero value when there is none. */
  function OwnMembership(st: Store, user: ObjectId): (r: Membership)
    ensures r.privateNotes == ""
    ensures MembershipOf(st.memberships, user).Some? ==>
      r.user == user && DetailsOf(r) == DetailsOf(MembershipOf(st.memberships, user).value)
    ensures MembershipOf(st.memberships, user).None? ==> r == EmptyMembership([], [])
  {
    match MembershipOf(st.memberships, user)
    case Some(m) => Visible(m)
    case None => EmptyMembership([], [])
  }

  /** `userMustMembershipMiddleware`: routes behind it answer 403 to a caller
      without a membership. */
  function RequireMembership(st: Store, user: ObjectId): (r: Reply<Membership>)
    ensures r.Forbidden? <==> forall m :: m in st.memberships ==> m.user != user
    ensures r.Ok? ==> r.value in st.memberships && r.value.user == user
  {
    match MembershipOf(st.memberships, user)
    case Some(m) => Ok(m)
    case None => Forbidden
  }

  const SubmittedLocked := "Cannot change submitted application"

  /** `updateUserMembershipDetails`: a submitted application cannot change;
      otherwise the caller's membership document is replaced by the form
      (keeping only its id and owner), or a new one is inserted with id
      `newMid` when the caller has none. */
  function UpdateDetails(st: Store, user: ObjectId, d: Details, newMid: ObjectId): (r: Reply<Store>)
    ensures r.Ok? || r.BadRequest?
    ensures r.BadRequest? <==> MembershipOf(st.memberships, user).Some? && MembershipOf(st.memberships, user).value.submitted
    ensures r.BadRequest? ==> r.errors == [SubmittedLocked]
    ensures r.Ok? ==> r.value == st.(memberships := r.value.memberships)
    ensures r.Ok? && MembershipOf(st.memberships, user).None? ==>
      r.value.memberships == st.memberships + [Fill(newMid, user, d)]
    ensures r.Ok? && MembershipOf(st.memberships, user).Some? ==>
      |r.value.memberships| == |st.memberships|
    ensures r.Ok? && UniqueMembershipIds(st.memberships) ==>
      var mid := if MembershipOf(st.memberships, user).Some? then MembershipOf(st.memberships, user).value.mid else newMid;
      MembershipOf(r.value.memberships, user) == Some(Fill(mid, user, d))
    ensures r.Ok? && UniqueMembershipIds(st.memberships) ==>
      forall u :: u != user ==> MembershipOf(r.value.memberships, u) == MembershipOf(st.memberships, u)
  {
    match MembershipOf(st.memberships, user)
    case Some(m) =>
      if m.submitted then BadRequest([SubmittedLocked])
      else
        var f := (x: Membership) => Fill(m.mid, user, d);
        var after := UpdateMembership(st.memberships, m.mid, f);
        ReplaceMembership(st.memberships, user, f);
        Ok(st.(memberships := after))
    case None =>
      var after := st.memberships + [Fill(newMid, user, d)];
      forall u | u != user ensures MembershipOf(after, u) == MembershipOf(st.memberships, u) {
        MembershipOfSnoc(st.memberships, Fill(newMid, user, d), u);
      }
      MembershipOfSnoc(st.memberships, Fill(newMid, user, d), user);
      Ok(st.(memberships := after))
  }

  /** A save with a fresh id keeps membership ids unique. */
  lemma UpdateKeepsIdsUnique(st: Store, user: ObjectId, d: Details, newMid: ObjectId)
    requires UniqueMembershipIds(st.memberships)
    requires forall m :: m in st.memberships ==> m.mid != newMid
    requires UpdateDetails(st, user, d, newMid).Ok?
    ensures UniqueMembershipIds(UpdateDetails(st, user, d, newMid).value.memberships)
  {
    var before := st.memberships;
    var after := UpdateDetails(st, user, d, newMid).value.memberships;
    if MembershipOf(before, user).Some? {
      forall i | 0 <= i < |after| ensures after[i].mid == before[i].mid {
      }
    } else {
      forall i, j | 0 <= i < j < |after| ensures after[i].mid != after[j].mid {
        if j == |before| {
          assert before[i] in before;
        } else {
          assert after[i] == before[i] && after[j] == before[j];
        }
      }
    }
  }

  // ---------------------------------------------------------------------
  // Submission
  // ---------------------------------------------------------------------

  const DobInvalid := "DoB invalid"
  const UnderAge := "You must be over 21 years old"
  const WorkDeclarationMissing := ['"'] + "Right to work in the United Kingdom" + ['"'] + " not selected"
  const DocumentsMissing := "Required documents were not uploaded"

  /** The messages of the first switch, in the order it tries them. */
  const FieldMessages: seq<string> := [
    DobInvalid, UnderAge, "Phone Number invalid", "Address invalid", "City invalid",
    "Postcode invalid", "Nationality invalid", "DriverLicence invalid", "Licences invalid",
    "Check Code invalid", "Nat Insurance code Invalid"]

  const WorkDeclarations: seq<string> := ["eu_passport", "visa", "indefinite_leave"]

  /** Every form field the first switch checks is acceptable; `adultCutoff`
      is the instant 21 years before now. */
  predicate FieldsComplete(d: Details, adultCutoff: int) {
    && d.dob.Some?
    && d.dob.value <= adultCutoff
    && d.phone != []
    && d.address != []
    && d.city != []
    && d.postcode != []
    && d.nationality != []
    && d.driverLicense != []
    && d.licence != []
    && d.checkCode != []
    && d.nationalInsurance != []
  }

  /** Check `k` of the first switch fails: the date of birth is missing, or
      too late, or the `k`-th required text field is empty. */
  predicate FieldFails(d: Details, adultCutoff: int, k: int) {
    match k
    case 0 => d.dob.None?
    case 1 => d.dob.Some? && d.dob.value > adultCutoff
    case 2 => d.phone == []
    case 3 => d.address == []
    case 4 => d.city == []
    case 5 => d.postcode == []
    case 6 => d.nationality == []
    case 7 => d.driverLicense == []
    case 8 => d.licence == []
    case 9 => d.checkCode == []
    case 10 => d.nationalInsurance == []
    case _ => false
  }

  /** The first failing check from `k` on, in switch order. */
  function FirstFailing(d: Details, adultCutoff: int, k: nat): (r: Option<nat>)
    requires k <= |FieldMessages|
    ensures r.Some? ==> k <= r.value < |FieldMessages| && FieldFails(d, adultCutoff, r.value)
    ensures r.Some? ==> forall j :: k <= j < r.value ==> !FieldFails(d, adultCutoff, j)
    ensures r.None? <==> forall j :: k <= j < |FieldMessages| ==> !FieldFails(d, adultCutoff, j)
    decreases |FieldMessages| - k
  {
    if k == |FieldMessages| then None
    else if FieldFails(d, adultCutoff, k) then Some(k)
    else FirstFailing(d, adultCutoff, k + 1)
  }

  /** The field messages are pairwise different. */
  lemma FieldMessagesDistinct()
    ensures forall i, j :: 0 <= i < j < |FieldMessages| ==> FieldMessages[i] != FieldMessages[j]
  {
    forall i, j | 0 <= i < j < |FieldMessages| ensures FieldMessages[i] != FieldMessages[j] {
      if |FieldMessages[i]| == |FieldMessages[j]| {
        assert FieldMessages[i][0] != FieldMessages[j][0];
      }
    }
  }

  /** The form is complete exactly when no check of the switch fails. */
  lemma FieldsCompleteIff(d: Details, adultCutoff: int)
    ensures FieldsComplete(d, adultCutoff) <==> forall j :: 0 <= j < |FieldMessages| ==> !FieldFails(d, adultCutoff, j)
  {
    if !FieldsComplete(d, adultCutoff) {
      var k := if d.dob.None? then 0 else if d.dob.value > adultCutoff then 1 else if d.phone == [] then 2
        else if d.address == [] then 3 else if d.city == [] then 4 else if d.postcode == [] then 5
        else if d.nationality == [] then 6 else if d.driverLicense == [] then 7 else if d.licence == [] then 8
        else if d.checkCode == [] then 9 else 10;
      assert FieldFails(d, adultCutoff, k);
    }
  }

  /** The first switch of `submitMembership`: the message of the first
      failing check, if any. */
  function FieldError(d: Details, adultCutoff: int): (r: Option<string>)
    ensures r.None? <==> FieldsComplete(d, adultCutoff)
    ensures r.Some? ==> r.value in FieldMessages
    ensures forall k :: 0 <= k < |FieldMessages| ==>
      (r == Some(FieldMessages[k]) <==>
        FieldFails(d, adultCutoff, k) && forall j :: 0 <= j < k ==> !FieldFails(d, adultCutoff, j))
    ensures d.dob.None? ==> r == Some(DobInvalid)
    ensures d.dob.Some? && d.dob.value > adultCutoff ==> r == Some(UnderAge)
  {
    FieldsCompleteIff(d, adultCutoff);
    FieldMessagesDistinct();
    match FirstFailing(d, adultCutoff, 0)
    case Some(i) =>
      assert FieldFails(d, adultCutoff, 0) ==> i == 0;
      assert FieldFails(d, adultCutoff, 1) ==> i <= 1;
      Some(FieldMessages[i])
    case None => None
  }

  /** The documents a licence type needs: front, back, selfie and a utility
      bill, plus the CBT certificate for a `cbt` licence. Any other type
      falls back to the `full` list. */
  function RequiredTags(licence: string): seq<string> {
    if licence == "cbt" then ["front", "back", "cbt", "selfie", "utility"]
    else ["front", "back", "selfie", "utility"]
  }

  /** How many matching documents a licence type needs. */
  function RequiredCount(licence: string): (n: nat)
    ensures n == |RequiredTags(licence)|
  {
    if licence == "cbt" then 5 else 4
  }

  predicate KnownLicence(licence: string) {
    licence == "full" || licence == "cbt"
  }

  /** The message for an unknown licence type: the type, quoted, inside a
      fixed frame. */
  function LicenceTypeMessage(licence: string): (msg: string)
    ensures |msg| == |licence| + 23 && msg[0] == 'L'
    ensures msg[..14] == "Licence type '" && msg[|msg| - 9..] == "' invalid"
    ensures msg[14..14 + |licence|] == licence
  {
    "Licence type '" + licence + "' invalid"
  }

  /** A stored file name matches the regular expression
      `<user hex>-(tag1|tag2|…)`, which is not anchored: the user's prefix and
      one of the tags occur somewhere in the name. */
  predicate IsDocumentOf(f: string, user: ObjectId, tags: seq<string>) {
    exists t <- tags :: Contains(f, Hex(user) + "-" + t)
  }

  /** The count of licence files matching the required-documents expression. */
  function DocumentCount(files: seq<string>, user: ObjectId, tags: seq<string>): nat {
    Count(files, (f: string) => IsDocumentOf(f, user, tags))
  }

  /** Everything `submitMembership` demands of an application. */
  predicate Submittable(d: Details, files: seq<string>, user: ObjectId, adultCutoff: int) {
    && FieldsComplete(d, adultCutoff)
    && d.workDeclaration in WorkDeclarations
    && KnownLicence(d.licence)
    && DocumentCount(files, user, RequiredTags(d.licence)) == RequiredCount(d.licence)
  }

  /** The checks `submitMembership` makes after the field switch, each
      reported independently: the work declaration, the licence type and
      the document count. */
  function RuleErrors(d: Details, files: seq<string>, user: ObjectId): (errs: seq<string>)
    ensures |errs| <= 3
    ensures forall e :: e in errs ==> e !in FieldMessages
    ensures WorkDeclarationMissing in errs <==> d.workDeclaration !in WorkDeclarations
    ensures LicenceTypeMessage(d.licence) in errs <==> !KnownLicence(d.licence)
    ensures DocumentsMissing in errs <==> DocumentCount(files, user, RequiredTags(d.licence)) != RequiredCount(d.licence)
  {
    var msg := LicenceTypeMessage(d.licence);
    var work := if d.workDeclaration in WorkDeclarations then [] else [WorkDeclarationMissing];
    var licence := if KnownLicence(d.licence) then [] else [msg];
    var documents :=
      if DocumentCount(files, user, RequiredTags(d.licence)) != RequiredCount(d.licence) then [DocumentsMissing] else [];
    var errs := work + licence + documents;
    RuleMessagesApart(msg);
    InConcatThree(work, licence, documents);
    OnlyIn(errs, WorkDeclarationMissing, work, licence, documents);
    OnlyIn(errs, msg, licence, work, documents);
    OnlyIn(errs, DocumentsMissing, documents, work, licence);
    errs
  }

  /** The rule messages differ from each other and from the field
      messages: a licence message starts with 'L' and is long. */
  lemma RuleMessagesApart(msg: string)
    requires |msg| >= 23 && msg[0] == 'L'
    ensures msg != WorkDeclarationMissing && msg != DocumentsMissing && WorkDeclarationMissing != DocumentsMissing
    ensures msg !in FieldMessages && WorkDeclarationMissing !in FieldMessages && DocumentsMissing !in FieldMessages
  {
    assert WorkDeclarationMissing[0] != 'L' && DocumentsMissing[0] != 'L';
    assert WorkDeclarationMissing[0] != DocumentsMissing[0];
    forall i | 0 <= i < |FieldMessages|
      ensures FieldMessages[i] != msg && FieldMessages[i] != WorkDeclarationMissing && FieldMessages[i] != DocumentsMissing
    {
      assert |FieldMessages[i]| < 23 || FieldMessages[i][0] != 'L';
      assert |FieldMessages[i]| != |WorkDeclarationMissing| && |FieldMessages[i]| != |DocumentsMissing|;
    }
  }

  /** The error list of `submitMembership`: at most one message from the
      field switch, first, then the independent rule checks. */
  function SubmissionErrors(d: Details, files: seq<string>, user: ObjectId, adultCutoff: int): (errs: seq<string>)
    ensures errs == [] <==> Submittable(d, files, user, adultCutoff)
    ensures |errs| <= 4
    ensures forall i :: 0 <= i < |errs| && errs[i] in FieldMessages ==> i == 0 && FieldError(d, adultCutoff) == Some(errs[i])
    ensures FieldError(d, adultCutoff).Some? ==> errs[0] == FieldError(d, adultCutoff).value
    ensures forall e :: e !in FieldMessages ==> (e in errs <==> e in RuleErrors(d, files, user))
  {
    var field := match FieldError(d, adultCutoff) case Some(e) => [e] case None => [];
    var rules := RuleErrors(d, files, user);
    assert forall i :: 0 <= i < |rules| ==> rules[i] in rules;
    field + rules
  }

  /** The membership as submitted: the loaded document (without its private
      notes) marked submitted at `now`. */
  function MarkSubmitted(m: Membership, now: int): (s: Membership)
    ensures s.submitted && s.submittedDate == Some(now)
    ensures DetailsOf(s) == DetailsOf(m) && s.mid == m.mid && s.user == m.user
    ensures s.approved == m.approved && s.number == m.number && s.interviewDate == m.interviewDate
    ensures s.privateNotes == ""
    ensures s.(submitted := m.submitted, submittedDate := m.submittedDate) == Visible(m)
  {
    Visible(m).(submitted := true, submittedDate := Some(now))
  }

  /** `submitMembership` for the caller `user`, at `now`, with `adultCutoff`
      the instant 21 years before `now`. An invalid id (the user lookup
      fails) and a missing user (its id is dereferenced) end in a server
      error; a caller without a membership gets 404. The document written
      back is the one the middleware loaded, whose private notes were not
      selected, so a successful submission clears them. */
  function Submit(st: Store, user: ObjectId, now: int, adultCutoff: int): (r: Reply<Store>)
    ensures r.Ok? || r.BadRequest? || r.NotFound? || r.ServerError?
    ensures !ValidId(user) ==> r.ServerError?
    ensures r.NotFound? <==> ValidId(user) && MembershipOf(st.memberships, user).None?
    ensures ValidId(user) && MembershipOf(st.memberships, user).Some? && FindUser(st.users, user).None? ==> r.ServerError?
    ensures r.BadRequest? <==>
      && ValidId(user)
      && MembershipOf(st.memberships, user).Some?
      && FindUser(st.users, user).Some?
      && !Submittable(DetailsOf(MembershipOf(st.memberships, user).value), st.licenceFiles, user, adultCutoff)
    ensures r.BadRequest? ==> r.errors != []
    ensures r.BadRequest? ==> r.errors == SubmissionErrors(DetailsOf(MembershipOf(st.memberships, user).value), st.licenceFiles, user, adultCutoff)
    ensures r.Ok? ==> r.value == st.(memberships := r.value.memberships)
    ensures r.Ok? && UniqueMembershipIds(st.memberships) ==>
      MembershipOf(r.value.memberships, user) == Some(MarkSubmitted(MembershipOf(st.memberships, user).value, now))
    ensures r.Ok? && UniqueMembershipIds(st.memberships) ==>
      forall u :: u != user ==> MembershipOf(r.value.memberships, u) == MembershipOf(st.memberships, u)
  {
    if !ValidId(user) then ServerError
    else match MembershipOf(st.memberships, user)
      case None => NotFound
      case Some(m) =>
        if FindUser(st.users, user).None? then ServerError
        else
          var errs := SubmissionErrors(DetailsOf(m), st.licenceFiles, user, adultCutoff);
          if errs != [] then BadRequest(errs)
          else
            var f := (x: Membership) => MarkSubmitted(m, now);
            ReplaceMembership(st.memberships, user, f);
            Ok(st.(memberships := UpdateMembership(st.memberships, m.mid, f)))
  }

  /** Once submitted, the application form is locked. */
  lemma SubmitLocksApplication(st: Store, user: ObjectId, now: int, adultCutoff: int, d: Details, newMid: ObjectId)
    requires UniqueMembershipIds(st.memberships)
    requires Submit(st, user, now, adultCutoff).Ok?
    ensures UpdateDetails(Submit(st, user, now, adultCutoff).value, user, d, newMid) == BadRequest([SubmittedLocked])
  {
  }

  /** Saving a complete form (with its documents uploaded) and then
      submitting it succeeds, and the submitted membership holds the form. */
  lemma SaveThenSubmit(st: Store, user: ObjectId, d: Details, newMid: ObjectId, now: int, adultCutoff: int)
    requires UniqueMembershipIds(st.memberships)
    requires forall m :: m in st.memberships ==> m.mid != newMid
    requires ValidId(user) && FindUser(st.users, user).Some?
    requires UpdateDetails(st, user, d, newMid).Ok?
    requires Submittable(d, st.licenceFiles, user, adultCutoff)
    ensures var saved := UpdateDetails(st, user, d, newMid).value;
      && Submit(saved, user, now, adultCutoff).Ok?
      && MembershipOf(Submit(saved, user, now, adultCutoff).value.memberships, user).value.submitted
      && DetailsOf(MembershipOf(Submit(saved, user, now, adultCutoff).value.memberships, user).value) == d
  {
    UpdateKeepsIdsUnique(st, user, d, newMid);
  }

  /** The file name `<user hex>-<tag>` of each listed tag. */
  function DocumentNames(user: ObjectId, tags: seq<string>): (names: seq<string>)
    ensures |names| == |tags|
    ensures forall f :: f in names ==> IsDocumentOf(f, user, tags)
  {
    if tags == [] then []
    else
      var f := Hex(user) + "-" + tags[0];
      assert OccursAt(f, f, 0);
      var rest := DocumentNames(user, tags[1..]);
      assert forall g :: g in rest ==> IsDocumentOf(g, user, tags) by {
        forall g | g in rest ensures IsDocumentOf(g, user, tags) {
          var t :| t in tags[1..] && Contains(g, Hex(user) + "-" + t);
          assert t in tags;
        }
      }
      [f] + rest
  }

  /** Uploading exactly the documents a licence type needs meets the count. */
  lemma RequiredUploadsSuffice(user: ObjectId, licence: string)
    ensures DocumentCount(DocumentNames(user, RequiredTags(licence)), user, RequiredTags(licence)) == RequiredCount(licence)
  {
    var tags := RequiredTags(licence);
    CountAll(DocumentNames(user, tags), (f: string) => IsDocumentOf(f, user, tags));
  }

  // ---------------------------------------------------------------------
  // Driving-licence documents
  // ---------------------------------------------------------------------

  /** The licence document types, in the precedence order of the info
      handler's switch. */
  const LicenceTags: seq<string> := ["front", "back", "cbt", "selfie", "passport", "utility"]

  /** The first type, in switch order, that occurs in a file name. */
  function FirstTag(f: string): (r: Option<string>)
    ensures r.Some? ==> r.value in LicenceTags && Contains(f, r.value)
    ensures r.None? <==> forall t :: t in LicenceTags ==> !Contains(f, t)
    ensures forall j, k :: 0 <= j < k < |LicenceTags| && r == Some(LicenceTags[k]) ==> !Contains(f, LicenceTags[j])
  {
    match FirstIndex(LicenceTags, (t: string) => Contains(f, t))
    case None => None
    case Some(i) =>
      LicenceTagsDistinct();
      Some(LicenceTags[i])
  }

  /** The six type names are pairwise different. */
  lemma LicenceTagsDistinct()
    ensures forall i, j :: 0 <= i < j < |LicenceTags| ==> LicenceTags[i] != LicenceTags[j]
  {
    forall i, j | 0 <= i < j < |LicenceTags| ensures LicenceTags[i] != LicenceTags[j] {
      assert |LicenceTags[i]| != |LicenceTags[j]|;
    }
  }

  /** No type name occurs inside another. */
  lemma TagsDoNotNest()
    ensures forall t, u :: t in LicenceTags && u in LicenceTags && t != u ==> !Contains(t, u)
  {
    var tags := LicenceTags;
    forall t, u | t in tags && u in tags && t != u ensures !Contains(t, u) {
      NoStart(t, u);
    }
  }

  /** A type occurring in `h + "-" + t`, with `h` hexadecimal, occurs in `t`:
      every type name has a letter that is not a hexadecimal digit, and no dash. */
  lemma TagOccursInSuffix(h: string, t: string, u: string)
    requires forall i :: 0 <= i < |h| ==> IsHexDigit(h[i])
    requires u in LicenceTags
    requires Contains(h + "-" + t, u)
    ensures Contains(t, u)
  {
    var f := h + "-" + t;
    NoTagAcrossHex(h, t, u);
    var i :| 0 <= i <= |f| && OccursAt(f, u, i);
    var j := i - |h| - 1;
    assert f[|h| + 1..] == t;
    assert f[i..i + |u|] == t[j..j + |u|];
    assert OccursAt(t, u, j);
  }

  /** A type name cannot start within the hexadecimal part or on the dash. */
  lemma NoTagAcrossHex(h: string, t: string, u: string)
    requires forall i :: 0 <= i < |h| ==> IsHexDigit(h[i])
    requires u in LicenceTags
    ensures forall i :: 0 <= i <= |h| && i + |u| <= |h + "-" + t| ==> !OccursAt(h + "-" + t, u, i)
  {
    var f := h + "-" + t;
    var k :| 0 <= k < |u| && !IsHexDigit(u[k]);
    forall i | 0 <= i <= |h| && i + |u| <= |f| ensures !OccursAt(f, u, i) {
      if i + |u| <= |h| {
        assert f[i..i + |u|][k] != u[k];
      } else {
        assert f[i..i + |u|][|h| - i] != u[|h| - i];
      }
    }
  }

  /** The file of type `kind` is reported as that type. */
  lemma FirstTagOfFileName(user: ObjectId, kind: string)
    requires kind in LicenceTags
    ensures FirstTag(Hex(user) + "-" + kind) == Some(kind)
  {
    var f := Hex(user) + "-" + kind;
    assert OccursAt(f, kind, |Hex(user)| + 1);
    TagsDoNotNest();
    forall u | u in LicenceTags && u != kind ensures !Contains(f, u) {
      if Contains(f, u) {
        TagOccursInSuffix(Hex(user), kind, u);
      }
    }
  }

  /** `userID.Hex() + "-" + license_type` for one of the six types, or
      nothing (a 400) for any other type. */
  function LicenceFileName(user: ObjectId, kind: string): (r: Option<string>)
    ensures r.Some? <==> kind in LicenceTags
  {
    if kind in LicenceTags then Some(Hex(user) + "-" + kind) else None
  }

  /** The file stored for a type is reported as that type, and it matches
      the info handler's expression. */
  lemma LicenceFileNameReportsKind(user: ObjectId, kind: string)
    requires kind in LicenceTags
    ensures FirstTag(LicenceFileName(user, kind).value) == Some(kind)
    ensures IsDocumentOf(LicenceFileName(user, kind).value, user, LicenceTags)
  {
    var f := Hex(user) + "-" + kind;
    FirstTagOfFileName(user, kind);
    assert OccursAt(f, f, 0);
  }

  /** Two users' files, or two types' files, never share a name. */
  lemma LicenceFileNamesDistinct(u1: ObjectId, k1: string, u2: ObjectId, k2: string)
    requires ValidId(u1) && ValidId(u2)
    requires forall i :: 0 <= i < 12 ==> u1[i] as int < 256 && u2[i] as int < 256
    requires LicenceFileName(u1, k1).Some? && LicenceFileName(u2, k2).Some?
    requires (u1, k1) != (u2, k2)
    ensures LicenceFileName(u1, k1) != LicenceFileName(u2, k2)
  {
    if LicenceFileName(u1, k1) == LicenceFileName(u2, k2) {
      var f := LicenceFileName(u1, k1).value;
      assert f[..24] == Hex(u1) && f[..24] == Hex(u2);
      assert f[25..] == k1 && f[25..] == k2;
      HexRoundTrip(u1);
      HexRoundTrip(u2);
      assert false;
    }
  }

  /** `getUserDrivingLicensePicture`: the caller's own file of that type. */
  function LicencePicture(st: Store, c: Caller, kind: string): (r: Reply<string>)
    ensures r.Ok? || r.BadRequest? || r.NotFound?
    ensures r.BadRequest? <==> kind !in LicenceTags
    ensures r.BadRequest? ==> r.errors == []
    ensures r.NotFound? <==> kind in LicenceTags && LicenceFileName(c.userId, kind).value !in st.licenceFiles
    ensures r.Ok? ==> r.value in st.licenceFiles && Some(r.value) == LicenceFileName(c.userId, kind)
  {
    match LicenceFileName(c.userId, kind)
    case None => BadRequest([])
    case Some(name) => if name in st.licenceFiles then Ok(name) else NotFound
  }

  /** Every file but `name`. */
  function Except(name: string): string -> bool {
    (f: string) => f != name
  }

  /** `uploadUserDrivingLicense`: for the effective user, remove any file of
      that type and store the new one. `hasFile` says whether the multipart
      form carries a `file` part; the handler indexes that part before it
      looks at the type, so a request without one panics whatever its type. */
  function UploadLicence(st: Store, c: Caller, kind: string, hasFile: bool): (r: Reply<Store>)
    ensures r.Ok? || r.BadRequest? || r.ServerError?
    ensures r.ServerError? <==> !hasFile
    ensures r.BadRequest? <==> hasFile && kind !in LicenceTags
    ensures r.BadRequest? ==> r.errors == []
    ensures r.Ok? ==> r.value == st.(licenceFiles := r.value.licenceFiles)
    ensures r.Ok? ==> var name := LicenceFileName(EffectiveUser(c), kind).value;
      && Count(r.value.licenceFiles, (f: string) => f == name) == 1
      && forall f :: f != name ==> (f in r.value.licenceFiles <==> f in st.licenceFiles)
  {
    if !hasFile then ServerError
    else match LicenceFileName(EffectiveUser(c), kind)
    case None => BadRequest([])
    case Some(name) =>
      var kept := Filter(st.licenceFiles, Except(name));
      CountOthersThenOne(kept, name);
      Ok(st.(licenceFiles := kept + [name]))
  }

  lemma {:induction false} CountOthersThenOne(s: seq<string>, x: string)
    requires x !in s
    ensures Count(s + [x], (f: string) => f == x) == 1
  {
    if s != [] {
      assert (s + [x])[1..] == s[1..] + [x];
      CountOthersThenOne(s[1..], x);
    }
  }

  /** `deleteUserDrivingLicense`: remove the effective user's file of that type. */
  function DeleteLicence(st: Store, c: Caller, kind: string): (r: Reply<Store>)
    ensures r.Ok? || r.BadRequest?
    ensures r.BadRequest? <==> kind !in LicenceTags
    ensures r.Ok? ==> r.value == st.(licenceFiles := r.value.licenceFiles)
    ensures r.Ok? ==> var name := LicenceFileName(EffectiveUser(c), kind).value;
      && name !in r.value.licenceFiles
      && forall f :: f != name ==> (f in r.value.licenceFiles <==> f in st.licenceFiles)
  {
    match LicenceFileName(EffectiveUser(c), kind)
    case None => BadRequest([])
    case Some(name) => Ok(st.(licenceFiles := Filter(st.licenceFiles, Except(name))))
  }

  /** Deleting after an upload leaves the store as deleting alone would. */
  lemma DeleteUndoesUpload(st: Store, c: Caller, kind: string)
    requires kind in LicenceTags
    ensures DeleteLicence(UploadLicence(st, c, kind, true).value, c, kind) == DeleteLicence(st, c, kind)
  {
    var name := LicenceFileName(EffectiveUser(c), kind).value;
    var p := Except(name);
    var kept := Filter(st.licenceFiles, p);
    var st1 := st.(licenceFiles := kept + [name]);
    assert UploadLicence(st, c, kind, true) == Ok(st1);
    assert !p(name);
    FilterSnoc(kept, name, p);
    FilterIdempotent(st.licenceFiles, p);
    assert Filter(st1.licenceFiles, p) == kept;
  }

  lemma {:induction false} FilterIdempotent<T>(s: seq<T>, p: T -> bool)
    ensures Filter(Filter(s, p), p) == Filter(s, p)
  {
    if s != [] {
      FilterIdempotent(s[1..], p);
    }
  }

  /** Uploading the same type twice is uploading it once. */
  lemma UploadIdempotent(st: Store, c: Caller, kind: string)
    requires kind in LicenceTags
    ensures UploadLicence(UploadLicence(st, c, kind, true).value, c, kind, true) == UploadLicence(st, c, kind, true)
  {
    var name := LicenceFileName(EffectiveUser(c), kind).value;
    var p := Except(name);
    var kept := Filter(st.licenceFiles, p);
    var st1 := st.(licenceFiles := kept + [name]);
    assert UploadLicence(st, c, kind, true) == Ok(st1);
    assert !p(name);
    FilterSnoc(kept, name, p);
    FilterIdempotent(st.licenceFiles, p);
    assert Filter(st1.licenceFiles, p) == kept;
  }

  /** A driver's upload can be fetched back. */
  lemma UploadThenPicture(st: Store, c: Caller, kind: string)
    requires kind in LicenceTags && c.adminUser.None?
    ensures LicencePicture(UploadLicence(st, c, kind, true).value, c, kind).Ok?
  {
    var name := LicenceFileName(c.userId, kind).value;
    assert Count(UploadLicence(st, c, kind, true).value.licenceFiles, (f: string) => f == name) != 0;
  }

  /** The info handler's answer for type `t`: some file matching
      `<user hex>-(front|back|cbt|selfie|passport|utility)` has `t` as its
      first type in switch order. */
  predicate Reported(files: seq<string>, user: ObjectId, t: string) {
    exists f :: f in files && IsDocumentOf(f, user, LicenceTags) && FirstTag(f) == Some(t)
  }

  /** The files matching the info handler's expression. */
  function LicenceFilesOf(files: seq<string>, user: ObjectId): seq<string> {
    Filter(files, (f: string) => IsDocumentOf(f, user, LicenceTags))
  }

  /** Some file among the first `n` of `matched` has first type `t`. */
  predicate TaggedAmong(matched: seq<string>, n: int, t: string) {
    exists k :: 0 <= k < n && k < |matched| && FirstTag(matched[k]) == Some(t)
  }

  lemma ReportedIsTagged(files: seq<string>, user: ObjectId, t: string)
    requires Reported(files, user, t)
    ensures TaggedAmong(LicenceFilesOf(files, user), |LicenceFilesOf(files, user)|, t)
  {
    var matched := LicenceFilesOf(files, user);
    var f :| f in files && IsDocumentOf(f, user, LicenceTags) && FirstTag(f) == Some(t);
    assert f in matched;
    var k :| 0 <= k < |matched| && matched[k] == f;
    assert FirstTag(matched[k]) == Some(t);
  }

  lemma TaggedIsReported(files: seq<string>, user: ObjectId, t: string)
    requires TaggedAmong(LicenceFilesOf(files, user), |LicenceFilesOf(files, user)|, t)
    ensures Reported(files, user, t)
  {
    var matched := LicenceFilesOf(files, user);
    var k :| 0 <= k < |matched| && FirstTag(matched[k]) == Some(t);
    var f := matched[k];
    assert f in matched;
    assert f in files && IsDocumentOf(f, user, LicenceTags);
  }

  lemma TaggedAmongAllIffReported(files: seq<string>, user: ObjectId, t: string)
    ensures var matched := LicenceFilesOf(files, user);
      TaggedAmong(matched, |matched|, t) <==> Reported(files, user, t)
  {
    if Reported(files, user, t) {
      ReportedIsTagged(files, user, t);
    }
    if TaggedAmong(LicenceFilesOf(files, user), |LicenceFilesOf(files, user)|, t) {
      TaggedIsReported(files, user, t);
    }
  }

  /** A flag per key, all lowered, then raised for the key of each element
      in turn. */
  method RaiseFlags(xs: seq<string>, keys: set<string>, keyOf: string -> Option<string>) returns (flags: map<string, bool>)
    requires forall x :: keyOf(x).Some? ==> keyOf(x).value in keys
    ensures flags.Keys == keys
    ensures forall t :: t in flags ==> (flags[t] <==> exists k :: 0 <= k < |xs| && keyOf(xs[k]) == Some(t))
  {
    flags := map t | t in keys :: false;
    var i := 0;
    while i < |xs|
      invariant 0 <= i <= |xs|
      invariant flags.Keys == keys
      invariant forall t :: t in flags ==> (flags[t] <==> exists k :: 0 <= k < i && keyOf(xs[k]) == Some(t))
    {
      var key := keyOf(xs[i]);
      if key.Some? {
        flags := flags[key.value := true];
      }
      i := i + 1;
    }
  }

  /** `getUserDrivingLicenseInfo`: a flag for each of the six types. */
  method LicenceInfo(files: seq<string>, user: ObjectId) returns (info: map<string, bool>)
    ensures forall t :: t in info <==> t in LicenceTags
    ensures forall t :: t in info ==> (info[t] <==> Reported(files, user, t))
  {
    var matched := LicenceFilesOf(files, user);
    info := RaiseFlags(matched, (set t | t in LicenceTags), FirstTag);
    forall t | t in info ensures info[t] <==> Reported(files, user, t) {
      TaggedAmongAllIffReported(files, user, t);
    }
  }

  /** After a driver uploads a document, the info handler reports its type. */
  lemma UploadIsReported(st: Store, c: Caller, kind: string)
    requires kind in LicenceTags && c.adminUser.None?
    ensures Reported(UploadLicence(st, c, kind, true).value.licenceFiles, c.userId, kind)
  {
    var name := LicenceFileName(c.userId, kind).value;
    var files := UploadLicence(st, c, kind, true).value.licenceFiles;
    assert Count(files, (f: string) => f == name) != 0;
    LicenceFileNameReportsKind(c.userId, kind);
  }
}

=== FILE: payroll.dfy ===
/** Payroll (api/adminPayroll.go): the list of completed, unpaid shifts, and
    the payout that marks shifts paid or removes them. Amounts are whole
    numbers of the currency's smallest unit. */
module Payroll {
  import opened Wrappers
  import opened Seqs
  import opened Records
  import opened RequestContext
  import ShiftApi

  const PayrollReason := "Payroll"

  // ----- the list -----

  /** A payroll line: a shift with its driver and one of the driver's
      memberships (a driver with several memberships gives several lines). */
  datatype PayrollRow = PayrollRow(shift: Shift, user: User, membership: Membership)

  function RowDate(row: PayrollRow): int { row.shift.date }

  predicate AwaitsPayment(s: Shift) { !s.paid && s.status == Complete }

  function MembershipRows(s: Shift, u: User, memberships: seq<Membership>): (r: seq<PayrollRow>)
    ensures forall row :: row in r <==> row.shift == s && row.user == u && row.membership in memberships && row.membership.user == u.id
  {
    var ms := Filter(memberships, (m: Membership) => m.user == u.id);
    var r := seq(|ms|, i requires 0 <= i < |ms| => PayrollRow(s, u, ms[i]));
    assert forall i :: 0 <= i < |ms| ==> r[i] == PayrollRow(s, u, ms[i]);
    forall row: PayrollRow | row.shift == s && row.user == u && row.membership in ms ensures row in r {
      var i :| 0 <= i < |ms| && ms[i] == row.membership;
      assert r[i] == row;
    }
    r
  }

  function ShiftRows(s: Shift, st: Store): (r: seq<PayrollRow>)
    ensures forall row :: row in r <==>
      && row.shift == s && row.user in st.users && row.user.id == s.user
      && row.membership in st.memberships && row.membership.user == s.user
  {
    var r := FlatMap(Filter(st.users, (u: User) => u.id == s.user), (u: User) => MembershipRows(s, u, st.memberships));
    forall row: PayrollRow | row.shift == s && row.user in st.users && row.user.id == s.user
      && row.membership in st.memberships && row.membership.user == s.user
      ensures row in r
    {
      assert row in MembershipRows(s, row.user, st.memberships);
    }
    r
  }

  /** The rows of the shifts awaiting payment, in store order. */
  function DueRows(st: Store): (r: seq<PayrollRow>)
    ensures forall row :: row in r <==>
      && row.shift in st.shifts && AwaitsPayment(row.shift)
      && row.user in st.users && row.user.id == row.shift.user
      && row.membership in st.memberships && row.membership.user == row.user.id
  {
    var due := Filter(st.shifts, AwaitsPayment);
    var rowsOf := (s: Shift) => ShiftRows(s, st);
    var rows := FlatMap(due, rowsOf);
    forall row | row in rows
      ensures && row.shift in st.shifts && AwaitsPayment(row.shift)
              && row.user in st.users && row.user.id == row.shift.user
              && row.membership in st.memberships && row.membership.user == row.user.id
    {
      var s :| s in due && row in rowsOf(s);
      assert row in ShiftRows(s, st);
    }
    forall row: PayrollRow | row.shift in due && row.user in st.users && row.user.id == row.shift.user
      && row.membership in st.memberships && row.membership.user == row.user.id
      ensures row in rows
    {
      assert row in rowsOf(row.shift);
    }
    rows
  }

  /** `adminPayroll`: every unpaid complete shift joined with its driver and
      the driver's memberships, by date. A shift whose driver or membership
      is missing drops out. */
  function PayrollList(st: Store): (r: seq<PayrollRow>)
    ensures SortedBy(r, RowDate)
    ensures multiset(r) == multiset(DueRows(st))
    ensures forall row :: row in r <==>
      && row.shift in st.shifts && AwaitsPayment(row.shift)
      && row.user in st.users && row.user.id == row.shift.user
      && row.membership in st.memberships && row.membership.user == row.user.id
  {
    var rows := DueRows(st);
    var sorted := SortBy(rows, RowDate);
    assert forall row :: row in sorted <==> row in rows by {
      forall row ensures row in sorted <==> row in rows { SortByMembers(rows, RowDate, row); }
    }
    sorted
  }

  // ----- the payout -----

  /** One entry of a payout: the shift, the amount, and whether the shift is
      removed from the payroll instead of paid. */
  datatype PayoutItem = PayoutItem(shift: ObjectId, total: int, removed: bool)

  /** The `$set` document of one entry. */
  function MarkPaid(x: Shift, item: PayoutItem, now: int, operator: ObjectId): Shift {
    var paid := x.(paid := true, paidAmount := item.total, paidBy := Some(operator), paidAt := Some(now));
    if item.removed then
      paid.(paidAmount := 0, deleted := true, deletedReason := PayrollReason, deletedDate := Some(now), deletedBy := Some(operator))
    else paid
  }

  /** A shift after the entries `items` were applied to it in order: the
      reference the payout loop is checked against. */
  function Settle(x: Shift, items: seq<PayoutItem>, now: int, operator: ObjectId): Shift
  {
    if items == [] then x
    else
      var y := Settle(x, items[..|items| - 1], now, operator);
      var item := items[|items| - 1];
      if item.shift == y.id then MarkPaid(y, item, now, operator) else y
  }

  /** The last entry for shift `id`, which decides its amount. */
  function LastItemFor(items: seq<PayoutItem>, id: ObjectId): (r: Option<PayoutItem>)
    ensures r.Some? ==> r.value in items && r.value.shift == id
    ensures r.None? <==> forall it :: it in items ==> it.shift != id
  {
    if items == [] then None
    else if items[|items| - 1].shift == id then Some(items[|items| - 1])
    else
      assert forall it :: it in items <==> it in items[..|items| - 1] || it == items[|items| - 1] by {
        assert items == items[..|items| - 1] + [items[|items| - 1]];
      }
      LastItemFor(items[..|items| - 1], id)
  }

  /** Settling unfolds on the last entry. */
  lemma SettleStep(x: Shift, items: seq<PayoutItem>, now: int, operator: ObjectId)
    requires items != []
    ensures var init, last := items[..|items| - 1], items[|items| - 1];
      && (forall it :: it in items <==> it in init || it == last)
      && Settle(x, items, now, operator) ==
         var y := Settle(x, init, now, operator);
         if last.shift == y.id then MarkPaid(y, last, now, operator) else y
  {
    assert items == items[..|items| - 1] + [items[|items| - 1]];
  }

  /** Settling never changes a shift's id. */
  lemma {:induction false} SettleKeepsId(x: Shift, items: seq<PayoutItem>, now: int, operator: ObjectId)
    ensures Settle(x, items, now, operator).id == x.id
  {
    if items != [] {
      SettleKeepsId(x, items[..|items| - 1], now, operator);
    }
  }

  /** A shift no entry names is untouched. */
  lemma {:induction false} SettleUnlisted(x: Shift, items: seq<PayoutItem>, now: int, operator: ObjectId)
    requires forall it :: it in items ==> it.shift != x.id
    ensures Settle(x, items, now, operator) == x
  {
    if items != [] {
      SettleStep(x, items, now, operator);
      SettleUnlisted(x, items[..|items| - 1], now, operator);
    }
  }

  /** A listed shift is paid by the operator, at `now`, with the amount of
      its last entry (0 when that entry removes it). */
  lemma {:induction false} SettlePaid(x: Shift, items: seq<PayoutItem>, now: int, operator: ObjectId)
    requires LastItemFor(items, x.id).Some?
    ensures var y, last := Settle(x, items, now, operator), LastItemFor(items, x.id).value;
      && y.paid && y.paidBy == Some(operator) && y.paidAt == Some(now)
      && y.paidAmount == (if last.removed then 0 else last.total)
  {
    var init := items[..|items| - 1];
    SettleStep(x, items, now, operator);
    SettleKeepsId(x, init, now, operator);
    if items[|items| - 1].shift != x.id {
      SettlePaid(x, init, now, operator);
    }
  }

  /** A shift is deleted after settling exactly when it was before or some
      entry removes it; a later entry paying it does not undo the removal. */
  lemma {:induction false} SettleDeleted(x: Shift, items: seq<PayoutItem>, now: int, operator: ObjectId)
    ensures var y := Settle(x, items, now, operator);
      && (y.deleted <==> x.deleted || exists it :: it in items && it.shift == x.id && it.removed)
      && ((exists it :: it in items && it.shift == x.id && it.removed) ==>
          y.deletedReason == PayrollReason && y.deletedBy == Some(operator) && y.deletedDate == Some(now))
  {
    if items != [] {
      SettleStep(x, items, now, operator);
      SettleKeepsId(x, items[..|items| - 1], now, operator);
      SettleDeleted(x, items[..|items| - 1], now, operator);
    }
  }

  /** Settling touches only the payment and deletion fields. */
  lemma {:induction false} SettleFrame(x: Shift, items: seq<PayoutItem>, now: int, operator: ObjectId)
    ensures var y := Settle(x, items, now, operator);
      y.(paid := x.paid, paidAmount := x.paidAmount, paidBy := x.paidBy, paidAt := x.paidAt,
         deleted := x.deleted, deletedReason := x.deletedReason, deletedDate := x.deletedDate, deletedBy := x.deletedBy) == x
  {
    if items != [] {
      SettleStep(x, items, now, operator);
      SettleFrame(x, items[..|items| - 1], now, operator);
    }
  }

  /** The promise of a payout for one shift: unlisted means untouched, listed
      means paid by the operator, and removed means deleted with no amount. */
  predicate PayoutEffect(before: Shift, after: Shift, items: seq<PayoutItem>, operator: ObjectId) {
    && ((forall it :: it in items ==> it.shift != before.id) ==> after == before)
    && ((exists it :: it in items && it.shift == before.id) ==> after.paid && after.paidBy == Some(operator))
    && ((exists it :: it in items && it.shift == before.id && it.removed) ==>
          after.deleted && after.deletedReason == PayrollReason && after.deletedBy == Some(operator))
    && ((exists it :: it in items && it.shift == before.id) && (forall it :: it in items && it.shift == before.id ==> it.removed) ==>
          after.paidAmount == 0)
  }

  lemma SettleSummary(x: Shift, items: seq<PayoutItem>, now: int, operator: ObjectId)
    ensures PayoutEffect(x, Settle(x, items, now, operator), items, operator)
  {
    if forall it :: it in items ==> it.shift != x.id {
      SettleUnlisted(x, items, now, operator);
    } else {
      SettlePaid(x, items, now, operator);
      SettleDeleted(x, items, now, operator);
    }
  }

  /** `adminPayout`: apply every entry, in order, to the shift it names
      (entries naming no shift change nothing). The payee must exist. */
  method Payout(st: Store, payee: ObjectId, items: seq<PayoutItem>, now: int, operator: ObjectId) returns (r: Reply<Store>)
    ensures r.Ok? <==> FindUser(st.users, payee).Some?
    ensures !r.Ok? ==> r.ServerError?
    ensures r.Ok? ==>
      && r.value == st.(shifts := r.value.shifts)
      && |r.value.shifts| == |st.shifts|
      && forall i :: 0 <= i < |st.shifts| ==> r.value.shifts[i] == Settle(st.shifts[i], items, now, operator)
    ensures r.Ok? ==> forall i :: 0 <= i < |st.shifts| ==> PayoutEffect(st.shifts[i], r.value.shifts[i], items, operator)
  {
    if FindUser(st.users, payee).None? {
      return ServerError;
    }
    var shifts := st.shifts;
    for k := 0 to |items|
      invariant |shifts| == |st.shifts|
      invariant forall i :: 0 <= i < |shifts| ==> shifts[i] == Settle(st.shifts[i], items[..k], now, operator)
    {
      var item := items[k];
      shifts := UpdateShift(shifts, item.shift, (x: Shift) => MarkPaid(x, item, now, operator));
      assert items[..k + 1][..k] == items[..k];
      forall i | 0 <= i < |shifts| ensures shifts[i] == Settle(st.shifts[i], items[..k + 1], now, operator) {
        SettleStep(st.shifts[i], items[..k + 1], now, operator);
        SettleKeepsId(st.shifts[i], items[..k], now, operator);
      }
    }
    assert items[..|items|] == items;
    forall i | 0 <= i < |st.shifts|
      ensures PayoutEffect(st.shifts[i], Settle(st.shifts[i], items, now, operator), items, operator)
    {
      SettleSummary(st.shifts[i], items, now, operator);
    }
    r := Ok(st.(shifts := shifts));
  }

  /** Two entries for one shift, the first removing it and the second paying
      it: the shift ends paid with the second amount but still deleted. */
  lemma RemovalSticks(x: Shift, amount: int, now: int, operator: ObjectId)
    ensures var y := Settle(x, [PayoutItem(x.id, 0, true), PayoutItem(x.id, amount, false)], now, operator);
      y.paid && y.paidAmount == amount && y.deleted && y.deletedReason == PayrollReason
  {
    var items := [PayoutItem(x.id, 0, true), PayoutItem(x.id, amount, false)];
    assert items[..1] == [PayoutItem(x.id, 0, true)];
    SettleStep(x, items, now, operator);
    SettleStep(x, items[..1], now, operator);
    assert items[..1][..0] == [];
  }

  /** A settled shift no longer awaits payment, so it leaves the payroll list. */
  lemma PaidShiftsLeaveTheList(st: Store, payee: ObjectId, items: seq<PayoutItem>, now: int, operator: ObjectId, x: Shift)
    requires x in st.shifts
    requires exists it :: it in items && it.shift == x.id
    ensures !AwaitsPayment(Settle(x, items, now, operator))
  {
    SettlePaid(x, items, now, operator);
  }

  /** A complete shift of the driver that a payout pays without removing it
      shows in the driver's paid-only history afterwards. `after` is the
      store `Payout` returns: every shift settled in place. */
  lemma PaidShiftInHistory(st: Store, after: Store, c: Caller, items: seq<PayoutItem>, now: int, operator: ObjectId, i: int)
    requires after == st.(shifts := after.shifts) && |after.shifts| == |st.shifts|
    requires forall j :: 0 <= j < |st.shifts| ==> after.shifts[j] == Settle(st.shifts[j], items, now, operator)
    requires 0 <= i < |st.shifts|
    requires st.shifts[i].user == EffectiveUser(c) && st.shifts[i].status == Complete && !st.shifts[i].deleted
    requires exists it :: it in items && it.shift == st.shifts[i].id
    requires forall it :: it in items && it.shift == st.shifts[i].id ==> !it.removed
    ensures after.shifts[i] in ShiftApi.ShiftHistory(after, c, true)
  {
    var x := st.shifts[i];
    SettlePaid(x, items, now, operator);
    SettleDeleted(x, items, now, operator);
    SettleFrame(x, items, now, operator);
    assert after.shifts[i] in after.shifts;
  }
}

=== FILE: profile.dfy ===
/** The profile update (package `api`, user.go, `updateUserProfile`): the
    checks on the submitted name, email, PayPal email and address, and the
    all-or-nothing update of the user and its membership. `parse` stands
    for `mail.ParseAddress` applied to the lower-cased text: the address
    part, or `None` when it does not parse. */
module Profile {
  import opened Wrappers
  import opened Seqs
  import opened Text
  import opened Records
  import AdminMemberships

  /** The request body; the phone number is bound but never used. */
  datatype ProfileForm = ProfileForm(
    address: string,
    city: string,
    postcode: string,
    phone: string,
    name: string,
    email: string,
    paypalEmail: string)

  /** At most one of the two presence errors, the name checked first. */
  function PresenceErrors(f: ProfileForm): (errs: seq<string>)
    ensures "Name cannot be empty" in errs <==> |f.name| == 0
    ensures "Email cannot be empty" in errs <==> |f.name| > 0 && |f.email| == 0
    ensures |errs| <= 1
    ensures forall x :: x in errs ==> x == "Name cannot be empty" || x == "Email cannot be empty"
  {
    if |f.name| == 0 then ["Name cannot be empty"]
    else if |f.email| == 0 then ["Email cannot be empty"]
    else []
  }

  function OtherWithEmail(email: string, user: ObjectId): User -> bool {
    (u: User) => u.email == email && u.id != user
  }

  /** The address belongs to a user other than `user`. */
  predicate TakenByOther(users: seq<User>, email: string, user: ObjectId) {
    exists u :: u in users && u.email == email && u.id != user
  }

  /** The checks on a non-empty email: it must parse and must not belong to
      another user; the caller's own address is allowed. */
  function EmailErrors(users: seq<User>, user: ObjectId, f: ProfileForm, parse: string -> Option<string>): (errs: seq<string>)
    ensures "Email address invalid" in errs <==> |f.email| > 0 && parse(ToLower(f.email)).None?
    ensures "Email address in use" in errs <==>
      |f.email| > 0 && parse(ToLower(f.email)).Some? && TakenByOther(users, parse(ToLower(f.email)).value, user)
    ensures forall x :: x in errs ==> x == "Email address invalid" || x == "Email address in use"
  {
    if |f.email| == 0 then []
    else match parse(ToLower(f.email))
      case None => ["Email address invalid"]
      case Some(a) => if Count(users, OtherWithEmail(a, user)) > 0 then ["Email address in use"] else []
  }

  /** A non-empty PayPal email must parse. */
  function PaypalErrors(f: ProfileForm, parse: string -> Option<string>): (errs: seq<string>)
    ensures errs == [] <==> |f.paypalEmail| == 0 || parse(ToLower(f.paypalEmail)).Some?
    ensures forall x :: x in errs ==> x == "Paypal Email address invalid"
  {
    if |f.paypalEmail| > 0 && parse(ToLower(f.paypalEmail)).None? then ["Paypal Email address invalid"] else []
  }

  /** For a user with a membership, the first of address, city and postcode
      that is empty. */
  function AddressErrors(hasMembership: bool, f: ProfileForm): (errs: seq<string>)
    ensures errs == [] <==> !hasMembership || (|f.address| > 0 && |f.city| > 0 && |f.postcode| > 0)
    ensures "Address cannot be empty" in errs <==> hasMembership && |f.address| == 0
    ensures "City cannot be empty" in errs <==> hasMembership && |f.address| > 0 && |f.city| == 0
    ensures "Postcode cannot be empty" in errs <==> hasMembership && |f.address| > 0 && |f.city| > 0 && |f.postcode| == 0
    ensures |errs| <= 1
  {
    if !hasMembership then []
    else if |f.address| == 0 then ["Address cannot be empty"]
    else if |f.city| == 0 then ["City cannot be empty"]
    else if |f.postcode| == 0 then ["Postcode cannot be empty"]
    else []
  }

  /** Every error of the profile update, in the order the handler appends them. */
  function ProfileErrors(st: Store, user: ObjectId, f: ProfileForm, parse: string -> Option<string>): (errs: seq<string>)
    ensures errs == [] <==>
      && |f.name| > 0 && |f.email| > 0
      && parse(ToLower(f.email)).Some? && !TakenByOther(st.users, parse(ToLower(f.email)).value, user)
      && (|f.paypalEmail| == 0 || parse(ToLower(f.paypalEmail)).Some?)
      && (MembershipOf(st.memberships, user).None? || (|f.address| > 0 && |f.city| > 0 && |f.postcode| > 0))
  {
    PresenceErrors(f) + EmailErrors(st.users, user, f, parse) + PaypalErrors(f, parse) +
    AddressErrors(MembershipOf(st.memberships, user).Some?, f)
  }

  /** The PayPal address stored: the parsed address, or empty. */
  function PaypalAddress(f: ProfileForm, parse: string -> Option<string>): string {
    if |f.paypalEmail| > 0 && parse(ToLower(f.paypalEmail)).Some? then parse(ToLower(f.paypalEmail)).value else f.paypalEmail
  }

  /** The membership fields the profile sets. */
  function SetAddress(f: ProfileForm): Membership -> Membership {
    (x: Membership) => x.(address := f.address, city := f.city, postcode := f.postcode)
  }

  /** The profile fields the update sets. */
  function SetProfile(f: ProfileForm, email: string, paypal: string): User -> User {
    (u: User) => u.(name := f.name, email := email, paypalEmail := paypal)
  }

  /** The writes of a successful profile update: the user's name, email
      and PayPal email, and the address fields of the membership the
      middleware loaded, if any. */
  function ApplyProfile(st: Store, user: ObjectId, f: ProfileForm, parse: string -> Option<string>): (r: Store)
    requires parse(ToLower(f.email)).Some?
    ensures r == st.(users := r.users, memberships := r.memberships)
    ensures |r.users| == |st.users| && forall i :: 0 <= i < |st.users| ==>
      (st.users[i].id != user ==> r.users[i] == st.users[i]) &&
      (st.users[i].id == user ==>
        r.users[i] == st.users[i].(name := f.name, email := parse(ToLower(f.email)).value, paypalEmail := PaypalAddress(f, parse)))
    ensures MembershipOf(st.memberships, user).None? ==> r.memberships == st.memberships
    ensures MembershipOf(st.memberships, user).Some? && UniqueMembershipIds(st.memberships) ==>
      MembershipOf(r.memberships, user) == Some(SetAddress(f)(MembershipOf(st.memberships, user).value))
    ensures UniqueMembershipIds(st.memberships) ==>
      forall u :: u != user ==> MembershipOf(r.memberships, u) == MembershipOf(st.memberships, u)
  {
    var email := parse(ToLower(f.email)).value;
    var users := UpdateUser(st.users, user, SetProfile(f, email, PaypalAddress(f, parse)));
    match MembershipOf(st.memberships, user)
    case None => st.(users := users)
    case Some(m) =>
      AdminMemberships.ReplaceMembershipInPlace(st.memberships, user, SetAddress(f));
      st.(users := users, memberships := UpdateMembership(st.memberships, m.mid, SetAddress(f)))
  }

  /** `updateUserProfile` as it is meant to work: a rejected email or PayPal
      email is reported like every other error. Any error leaves both the
      user and the membership as they were; otherwise the user's name, email
      and PayPal email are set, and so are the address fields of the
      membership the middleware loaded, if any. */
  function UpdateProfile(st: Store, user: ObjectId, f: ProfileForm, parse: string -> Option<string>): (r: Reply<Store>)
    ensures r.Ok? || r.BadRequest?
    ensures r.BadRequest? <==> ProfileErrors(st, user, f, parse) != []
    ensures r.BadRequest? ==> r.errors == ProfileErrors(st, user, f, parse)
    ensures r.Ok? ==> parse(ToLower(f.email)).Some? && r.value == ApplyProfile(st, user, f, parse)
  {
    var errs := ProfileErrors(st, user, f, parse);
    if errs != [] then BadRequest(errs)
    else Ok(ApplyProfile(st, user, f, parse))
  }

  /** `updateUserProfile` as written: it reads the parsed address before
      looking at the parse error, so a non-empty email or PayPal email that
      does not parse dereferences a nil address and the request fails with a
      server error; every other input behaves as `UpdateProfile`. */
  function UpdateProfileAsWritten(st: Store, user: ObjectId, f: ProfileForm, parse: string -> Option<string>): (r: Reply<Store>)
    ensures r == ServerError <==>
      (|f.email| > 0 && parse(ToLower(f.email)).None?) || (|f.paypalEmail| > 0 && parse(ToLower(f.paypalEmail)).None?)
    ensures r != ServerError ==> r == UpdateProfile(st, user, f, parse)
  {
    if |f.email| > 0 && parse(ToLower(f.email)).None? then ServerError
    else if |f.paypalEmail| > 0 && parse(ToLower(f.paypalEmail)).None? then ServerError
    else UpdateProfile(st, user, f, parse)
  }

  function RejectAll(s: string): Option<string> { None }

  /** The discrepancy on a concrete input: with an email the parser rejects,
      the handler as written fails with a server error where the intended
      behaviour is a 400 saying "Email address invalid". */
  lemma UnparsableEmailPanics(st: Store, user: ObjectId)
    ensures var f := ProfileForm("1 High St", "London", "E1", "", "Ann", "not an address", "");
      && UpdateProfileAsWritten(st, user, f, RejectAll) == ServerError
      && UpdateProfile(st, user, f, RejectAll).BadRequest?
      && "Email address invalid" in UpdateProfile(st, user, f, RejectAll).errors
  {
  }

  /** Submitting the same profile again changes nothing more: the second
      update succeeds and leaves the store as the first one left it. */
  lemma ProfileUpdateIdempotent(st: Store, user: ObjectId, f: ProfileForm, parse: string -> Option<string>)
    requires UniqueMembershipIds(st.memberships)
    requires UpdateProfile(st, user, f, parse).Ok?
    ensures var st1 := UpdateProfile(st, user, f, parse).value;
      UpdateProfile(st1, user, f, parse) == Ok(st1)
  {
    SecondCheckPasses(st, user, f, parse);
    ApplyProfileTwice(st, user, f, parse);
  }

  /** Writing the same profile twice is writing it once. */
  lemma ApplyProfileTwice(st: Store, user: ObjectId, f: ProfileForm, parse: string -> Option<string>)
    requires UniqueMembershipIds(st.memberships)
    requires parse(ToLower(f.email)).Some?
    ensures ApplyProfile(ApplyProfile(st, user, f, parse), user, f, parse) == ApplyProfile(st, user, f, parse)
  {
    var st1 := ApplyProfile(st, user, f, parse);
    var email := parse(ToLower(f.email)).value;
    UpdateUserTwice(st.users, user, SetProfile(f, email, PaypalAddress(f, parse)));
    match MembershipOf(st.memberships, user)
    case None =>
    case Some(m) =>
      assert MembershipOf(st1.memberships, user).value == SetAddress(f)(m);
      UpdateMembershipTwice(st.memberships, m.mid, SetAddress(f));
  }

  /** After a successful update the same form passes every check again:
      other users' addresses are untouched, so the address is still free. */
  lemma SecondCheckPasses(st: Store, user: ObjectId, f: ProfileForm, parse: string -> Option<string>)
    requires UniqueMembershipIds(st.memberships)
    requires ProfileErrors(st, user, f, parse) == []
    ensures ProfileErrors(ApplyProfile(st, user, f, parse), user, f, parse) == []
  {
    var st1 := ApplyProfile(st, user, f, parse);
    var email := parse(ToLower(f.email)).value;
    forall u | u in st1.users && u.id != user ensures u.email != email {
      var i :| 0 <= i < |st1.users| && st1.users[i] == u;
      assert st.users[i] in st.users;
    }
    assert !TakenByOther(st1.users, email, user);
    assert MembershipOf(st1.memberships, user).Some? ==> MembershipOf(st.memberships, user).Some?;
  }

  /** Applying an idempotent, id-preserving change to a user twice is
      applying it once. */
  lemma UpdateUserTwice(users: seq<User>, id: ObjectId, g: User -> User)
    requires forall x :: g(x).id == x.id && g(g(x)) == g(x)
    ensures UpdateUser(UpdateUser(users, id, g), id, g) == UpdateUser(users, id, g)
  {
  }

  /** Applying an idempotent, id-preserving change to a membership twice is
      applying it once. */
  lemma UpdateMembershipTwice(ms: seq<Membership>, mid: ObjectId, g: Membership -> Membership)
    requires forall x :: g(x).mid == x.mid && g(g(x)) == g(x)
    ensures UpdateMembership(UpdateMembership(ms, mid, g), mid, g) == UpdateMembership(ms, mid, g)
  {
  }
}

=== FILE: records.dfy ===
/** The documents of the fleet database (package `db`) and the store that
    holds one sequence per collection, in natural (insertion) order. */
module Records {
  import opened Wrappers
  import opened Seqs

  /** `bson.ObjectId`: a Go string holding the id's raw bytes. */
  type ObjectId = string

  /** `ObjectId.Valid`: exactly twelve bytes. */
  predicate ValidId(id: ObjectId) { |id| == 12 }

  predicate IsHexDigit(c: char) {
    '0' <= c <= '9' || 'a' <= c <= 'f' || 'A' <= c <= 'F'
  }

  function HexValue(c: char): (v: int)
    requires IsHexDigit(c)
    ensures 0 <= v < 16
  {
    if '0' <= c <= '9' then c as int - '0' as int
    else if 'a' <= c <= 'f' then c as int - 'a' as int + 10
    else c as int - 'A' as int + 10
  }

  function HexDigit(v: int): (c: char)
    requires 0 <= v < 16
    ensures IsHexDigit(c) && HexValue(c) == v
  {
    if v < 10 then ('0' as int + v) as char else ('a' as int + v - 10) as char
  }

  /** `bson.IsObjectIdHex`: twenty-four hexadecimal digits. */
  predicate IsObjectIdHex(s: string) {
    |s| == 24 && forall i :: 0 <= i < |s| ==> IsHexDigit(s[i])
  }

  /** Decode pairs of hexadecimal digits into bytes. */
  function HexDecode(s: string): (r: string)
    requires |s| % 2 == 0
    requires forall i :: 0 <= i < |s| ==> IsHexDigit(s[i])
    ensures |r| == |s| / 2
  {
    if s == [] then []
    else [(HexValue(s[0]) * 16 + HexValue(s[1])) as char] + HexDecode(s[2..])
  }

  /** `ObjectId.Hex`: two lower-case digits per byte (a character stands
      for a byte, so only its low eight bits count). */
  function Hex(id: ObjectId): (r: string)
    ensures |r| == 2 * |id|
    ensures forall i :: 0 <= i < |r| ==> IsHexDigit(r[i])
  {
    if id == [] then [] else [HexDigit(id[0] as int % 256 / 16), HexDigit(id[0] as int % 16)] + Hex(id[1..])
  }

  /** `bson.ObjectIdHex`: the id written by `s`, or `None` where the Go
      function panics (anything but twenty-four hexadecimal digits). */
  function ObjectIdHex(s: string): (r: Option<ObjectId>)
    ensures r.Some? <==> IsObjectIdHex(s)
    ensures r.Some? ==> ValidId(r.value)
  {
    if IsObjectIdHex(s) then Some(HexDecode(s)) else None
  }

  /** Decoding the hexadecimal form of an id gives the id back. */
  lemma {:induction false} HexRoundTrip(id: ObjectId)
    requires forall i :: 0 <= i < |id| ==> id[i] as int < 256
    ensures HexDecode(Hex(id)) == id
  {
    if id != [] {
      HexRoundTrip(id[1..]);
      assert Hex(id)[2..] == Hex(id[1..]);
    }
  }

  /** The hexadecimal form of a valid id is accepted by `ObjectIdHex` and
      names that id again, so comparing `Hex()` strings compares ids. */
  lemma ObjectIdHexOfHex(id: ObjectId)
    requires ValidId(id)
    requires forall i :: 0 <= i < |id| ==> id[i] as int < 256
    ensures ObjectIdHex(Hex(id)) == Some(id)
  {
    HexRoundTrip(id);
  }

  /** A shift's `status` field; the handlers only ever write these five values. */
  datatype Status = Created | Confirmed | Cancelled | Running | Complete

  datatype Garage = Garage(id: ObjectId, name: string, capacity: int)

  datatype Bike = Bike(
    id: ObjectId,
    garage: ObjectId,
    registration: string,
    number: int,
    available: bool,
    engineSize: int,
    created: int,
    createdBy: Option<ObjectId>,
    archived: bool,
    archivedReason: string,
    archivedBy: Option<ObjectId>)

  function BikeNumber(b: Bike): int { b.number }

  datatype Shift = Shift(
    id: ObjectId,
    garage: ObjectId,
    bike: ObjectId,
    user: ObjectId,
    date: int,
    status: Status,
    checkInOperator: Option<ObjectId>,
    checkIn: Option<int>,
    checkOutOperator: Option<ObjectId>,
    checkOut: Option<int>,
    paid: bool,
    paidAmount: int,
    paidBy: Option<ObjectId>,
    paidAt: Option<int>,
    added: int,
    addedBy: ObjectId,
    deleted: bool,
    deletedReason: string,
    deletedDate: Option<int>,
    deletedBy: Option<ObjectId>)

  function ShiftDate(s: Shift): int { s.date }

  /** The operator's report on a bike at the end of a shift. */
  datatype BikeHistory = BikeHistory(
    id: ObjectId,
    bike: ObjectId,
    shift: ObjectId,
    checkedBy: ObjectId,
    checkedAt: int,
    condition: string,
    notes: string,
    fuelLevel: int,
    mechanicRequired: bool)

  datatype User = User(
    id: ObjectId,
    email: string,
    name: string,
    passwordHash: Option<string>,
    paypalEmail: string,
    created: int,
    lastLogin: Option<int>,
    noUnspentCriminal: bool,
    blocked: bool,
    protected: bool)

  /** A driver's membership application; `number` is the membership number
      (0 until approved). */
  datatype Membership = Membership(
    mid: ObjectId,
    number: int,
    user: ObjectId,
    dob: Option<int>,
    phone: string,
    paypalEmail: string,
    address: string,
    city: string,
    postcode: string,
    workCity: string,
    nationality: string,
    driverLicense: string,
    driverLicenseExpiry: Option<int>,
    cbtExpiry: Option<int>,
    workDeclaration: string,
    licence: string,
    useOwnBike: bool,
    nextOfKin: string,
    checkCode: string,
    utr: string,
    nationalInsurance: string,
    submitted: bool,
    submittedDate: Option<int>,
    approved: bool,
    approvedDate: Option<int>,
    approvedBy: Option<ObjectId>,
    interviewDate: Option<int>,
    privateNotes: string,
    rating: int)

  /** A membership with every field at its zero value. */
  function EmptyMembership(mid: ObjectId, user: ObjectId): Membership {
    Membership(mid, 0, user, None, "", "", "", "", "", "", "", "", None, None, "", "", false, "", "", "", "",
      false, None, false, None, None, None, "", 0)
  }

  datatype Privilege = Privilege(user: ObjectId, kind: string)

  /** A settings document: its `_id` when the submitted document carries
      one (the database generates a fresh one otherwise), its `name`, and
      the rest of the document. */
  datatype Setting = Setting(id: Option<string>, name: Option<string>, body: string)

  /** A password reset request and its expiry instant. */
  datatype ResetToken = ResetToken(user: ObjectId, token: string, expire: int)

  /** The database: one sequence per collection, plus the names of the files
      in the driving-licence file store. */
  datatype Store = Store(
    garages: seq<Garage>,
    bikes: seq<Bike>,
    shifts: seq<Shift>,
    history: seq<BikeHistory>,
    users: seq<User>,
    memberships: seq<Membership>,
    privileges: seq<Privilege>,
    settings: seq<Setting>,
    resets: seq<ResetToken>,
    licenceFiles: seq<string>)

  /** Document ids are unique within each collection, as the database's
      primary key guarantees. */
  predicate UniqueShiftIds(shifts: seq<Shift>) {
    forall i, j :: 0 <= i < j < |shifts| ==> shifts[i].id != shifts[j].id
  }

  predicate UniqueBikeIds(bikes: seq<Bike>) {
    forall i, j :: 0 <= i < j < |bikes| ==> bikes[i].id != bikes[j].id
  }

  /** A valid id of an existing garage. */
  predicate GarageExists(garages: seq<Garage>, id: ObjectId) {
    ValidId(id) && exists g <- garages :: g.id == id
  }

  /** `FindGarageByID`: nothing for an invalid id or a missing garage. */
  function FindGarageById(garages: seq<Garage>, id: ObjectId): (r: Option<Garage>)
    ensures r.Some? <==> GarageExists(garages, id)
    ensures r.Some? ==> r.value in garages && r.value.id == id
  {
    if !ValidId(id) then None else FindFirst(garages, (g: Garage) => g.id == id)
  }

  function FindShift(shifts: seq<Shift>, id: ObjectId): Option<Shift> {
    FindFirst(shifts, (s: Shift) => s.id == id)
  }

  /** `UpdateId` on the shifts collection. */
  function UpdateShift(shifts: seq<Shift>, id: ObjectId, f: Shift -> Shift): (r: seq<Shift>)
    ensures |r| == |shifts|
    ensures forall i :: 0 <= i < |shifts| ==> r[i] == if shifts[i].id == id then f(shifts[i]) else shifts[i]
  {
    Update(shifts, (s: Shift) => s.id == id, f)
  }

  function FindUser(users: seq<User>, id: ObjectId): Option<User> {
    FindFirst(users, (u: User) => u.id == id)
  }

  function UpdateUser(users: seq<User>, id: ObjectId, f: User -> User): (r: seq<User>)
    ensures |r| == |users|
    ensures forall i :: 0 <= i < |users| ==> r[i] == if users[i].id == id then f(users[i]) else users[i]
  {
    Update(users, (u: User) => u.id == id, f)
  }

  function BelongsTo(user: ObjectId): Membership -> bool {
    (m: Membership) => m.user == user
  }

  /** The first membership of a user: `Find({"user_id": id}).One(&m)`. */
  function MembershipOf(memberships: seq<Membership>, user: ObjectId): (r: Option<Membership>)
    ensures r.Some? ==> r.value in memberships && r.value.user == user
    ensures r.None? <==> forall m :: m in memberships ==> m.user != user
  {
    FindFirst(memberships, BelongsTo(user))
  }

  predicate UniqueMembershipIds(memberships: seq<Membership>) {
    forall i, j :: 0 <= i < j < |memberships| ==> memberships[i].mid != memberships[j].mid
  }

  /** Rewriting a user's membership by its id, keeping the owner, makes the
      rewritten document that user's membership. */
  lemma MembershipOfUpdate(memberships: seq<Membership>, user: ObjectId, f: Membership -> Membership)
    requires UniqueMembershipIds(memberships)
    requires MembershipOf(memberships, user).Some?
    requires f(MembershipOf(memberships, user).value).user == user
    ensures var m := MembershipOf(memberships, user).value;
      MembershipOf(UpdateMembership(memberships, m.mid, f), user) == Some(f(m))
  {
    var m := MembershipOf(memberships, user).value;
    var j := FirstIndex(memberships, BelongsTo(user)).value;
    var after := UpdateMembership(memberships, m.mid, f);
    assert after[j] == f(m);
    forall k | 0 <= k < j ensures !BelongsTo(user)(after[k]) {
      assert memberships[k].mid != m.mid;
    }
    assert FirstIndex(after, BelongsTo(user)) == Some(j);
  }

  /** Appending a membership changes a user's membership only when the user
      had none and the new document is theirs. */
  lemma MembershipOfSnoc(memberships: seq<Membership>, x: Membership, user: ObjectId)
    ensures MembershipOf(memberships + [x], user) ==
      if MembershipOf(memberships, user).Some? then MembershipOf(memberships, user)
      else if x.user == user then Some(x) else None
  {
    var after := memberships + [x];
    var p := BelongsTo(user);
    match FirstIndex(memberships, p)
    case Some(i) =>
      assert after[i] == memberships[i];
      assert FirstIndex(after, p) == Some(i);
    case None =>
      if x.user == user {
        assert forall k :: 0 <= k < |memberships| ==> after[k] == memberships[k];
        assert p(after[|memberships|]);
        var i := FirstIndex(after, p).value;
        assert i == |memberships|;
      } else {
        assert FirstIndex(after, p).None?;
      }
  }

  /** Rewriting documents that belong to someone else, before and after,
      leaves a user's membership alone. */
  lemma MembershipOfOthersUpdate(memberships: seq<Membership>, mid: ObjectId, f: Membership -> Membership, user: ObjectId)
    requires forall k :: 0 <= k < |memberships| && memberships[k].mid == mid ==>
      memberships[k].user != user && f(memberships[k]).user != user
    ensures MembershipOf(UpdateMembership(memberships, mid, f), user) == MembershipOf(memberships, user)
  {
    var after := UpdateMembership(memberships, mid, f);
    var p := BelongsTo(user);
    assert forall k :: 0 <= k < |after| ==> p(after[k]) == p(memberships[k]);
    match FirstIndex(memberships, p)
    case Some(i) =>
      assert FirstIndex(after, p) == Some(i);
    case None =>
      assert FirstIndex(after, p).None?;
  }

  /** Removing a user's first membership leaves every other user's
      membership as it was. */
  lemma MembershipOfRemoveOther(memberships: seq<Membership>, target: ObjectId, user: ObjectId)
    requires user != target
    ensures MembershipOf(RemoveFirst(memberships, BelongsTo(target)), user) == MembershipOf(memberships, user)
  {
    var p := BelongsTo(user);
    match FirstIndex(memberships, BelongsTo(target))
    case None =>
    case Some(i) =>
      var after := memberships[..i] + memberships[i + 1..];
      assert forall k :: 0 <= k < i ==> after[k] == memberships[k];
      assert forall k :: i <= k < |after| ==> after[k] == memberships[k + 1];
      match FirstIndex(memberships, p)
      case None =>
        assert forall k :: 0 <= k < |after| ==> !p(after[k]);
      case Some(j) =>
        var j' := if j < i then j else j - 1;
        assert after[j'] == memberships[j];
        assert forall k :: 0 <= k < j' ==> !p(after[k]);
        assert FirstIndex(after, p) == Some(j');
  }

  /** Replacing a user's membership by a document of the same owner: with
      unique ids, the user's membership becomes the replacement and every
      other user's membership stays as it was. */
  lemma ReplaceMembership(memberships: seq<Membership>, user: ObjectId, f: Membership -> Membership)
    requires MembershipOf(memberships, user).Some?
    requires f(MembershipOf(memberships, user).value).user == user
    ensures UniqueMembershipIds(memberships) ==>
      var m := MembershipOf(memberships, user).value;
      var after := UpdateMembership(memberships, m.mid, f);
      && MembershipOf(after, user) == Some(f(m))
      && forall u :: u != user ==> MembershipOf(after, u) == MembershipOf(memberships, u)
  {
    if UniqueMembershipIds(memberships) {
      var m := MembershipOf(memberships, user).value;
      MembershipOfUpdate(memberships, user, f);
      forall u | u != user ensures MembershipOf(UpdateMembership(memberships, m.mid, f), u) == MembershipOf(memberships, u) {
        forall k | 0 <= k < |memberships| && memberships[k].mid == m.mid ensures memberships[k].user != u {
          var j := FirstIndex(memberships, BelongsTo(user)).value;
          assert memberships[j] == m;
        }
        MembershipOfOthersUpdate(memberships, m.mid, f, u);
      }
    }
  }

  function UpdateMembership(memberships: seq<Membership>, mid: ObjectId, f: Membership -> Membership): (r: seq<Membership>)
    ensures |r| == |memberships|
    ensures forall i :: 0 <= i < |memberships| ==> r[i] == if memberships[i].mid == mid then f(memberships[i]) else memberships[i]
  {
    Update(memberships, (m: Membership) => m.mid == mid, f)
  }
}

=== FILE: seqs.dfy ===
/** Generic sequence operations that stand in for the database's query
    primitives: a `find` with a filter, a `sort` on an integer key, and
    order-preserving selection. */
module Seqs {
  import opened Wrappers

  /** Keep the elements satisfying `p`, in their original order. */
  function Filter<T>(s: seq<T>, p: T -> bool): (r: seq<T>)
    ensures |r| <= |s|
    ensures forall x :: x in r ==> x in s && p(x)
    ensures forall x :: x in s && p(x) ==> x in r
  {
    if s == [] then []
    else if p(s[0]) then [s[0]] + Filter(s[1..], p)
    else Filter(s[1..], p)
  }

  /** A filter that rejects some element is strictly shorter than its input. */
  lemma {:induction false} FilterDropsSome<T>(s: seq<T>, p: T -> bool, x: T)
    requires x in s && !p(x)
    ensures |Filter(s, p)| < |s|
  {
    if s[0] != x {
      FilterDropsSome(s[1..], p, x);
    }
  }

  /** Filtering a sequence extended by one element extends the filtered
      sequence by that element exactly when it is kept. */
  lemma {:induction false} FilterSnoc<T>(s: seq<T>, x: T, p: T -> bool)
    ensures Filter(s + [x], p) == Filter(s, p) + (if p(x) then [x] else [])
  {
    if s != [] {
      assert (s + [x])[1..] == s[1..] + [x];
      FilterSnoc(s[1..], x, p);
    }
  }

  /** `a` can be obtained from `b` by deleting elements. */
  predicate IsSubsequence<T(==)>(a: seq<T>, b: seq<T>)
    decreases |b|
  {
    if a == [] then true
    else if b == [] then false
    else if a[0] == b[0] then IsSubsequence(a[1..], b[1..])
    else IsSubsequence(a, b[1..])
  }

  /** A last element can always be matched against a last element. */
  lemma {:induction false} SingletonAtEnd<T>(b: seq<T>, x: T)
    ensures IsSubsequence([x], b + [x])
    decreases |b|
  {
    if b != [] && b[0] != x {
      SingletonAtEnd(b[1..], x);
      assert (b + [x])[1..] == b[1..] + [x];
    }
  }

  /** Extending the longer sequence keeps a subsequence, and extending both
      by the same element does too. */
  lemma {:induction false} SubsequenceSnoc<T>(a: seq<T>, b: seq<T>, x: T)
    requires IsSubsequence(a, b)
    ensures IsSubsequence(a, b + [x]) && IsSubsequence(a + [x], b + [x])
    decreases |b|
  {
    if a == [] {
      SingletonAtEnd(b, x);
      assert a + [x] == [x];
    } else if a[0] == b[0] {
      SubsequenceSnoc(a[1..], b[1..], x);
      assert (b + [x])[1..] == b[1..] + [x];
      assert (a + [x])[1..] == a[1..] + [x];
    } else {
      SubsequenceSnoc(a, b[1..], x);
      assert (b + [x])[1..] == b[1..] + [x];
    }
  }

  /** Ascending by `key` (ties allowed). */
  predicate SortedBy<T>(s: seq<T>, key: T -> int) {
    forall i, j :: 0 <= i < j < |s| ==> key(s[i]) <= key(s[j])
  }

  /** A filter keeps every copy of a selected element and no copy of a
      rejected one. */
  lemma {:induction false} FilterMultiplicity<T>(s: seq<T>, p: T -> bool, x: T)
    ensures multiset(Filter(s, p))[x] == if p(x) then multiset(s)[x] else 0
  {
    if s != [] {
      FilterMultiplicity(s[1..], p, x);
      assert s == [s[0]] + s[1..];
      assert multiset(s) == multiset([s[0]]) + multiset(s[1..]);
      if p(s[0]) {
        assert multiset(Filter(s, p)) == multiset([s[0]]) + multiset(Filter(s[1..], p));
      }
    }
  }

  /** A filter selects a subsequence of its input. */
  lemma {:induction false} FilterIsSubsequence<T>(s: seq<T>, p: T -> bool)
    ensures IsSubsequence(Filter(s, p), s)
  {
    if s != [] {
      FilterIsSubsequence(s[1..], p);
      var r := Filter(s, p);
      if p(s[0]) {
        assert r[1..] == Filter(s[1..], p);
      } else if r != [] {
        // the first kept element satisfies p, so it is not the dropped s[0]
        assert r[0] in r;
        assert r[0] != s[0];
      }
    }
  }

  /** A filter of a sorted sequence is sorted. */
  lemma {:induction false} FilterKeepsSorted<T>(s: seq<T>, p: T -> bool, key: T -> int)
    requires SortedBy(s, key)
    ensures SortedBy(Filter(s, p), key)
  {
    if s != [] {
      assert SortedBy(s[1..], key);
      FilterKeepsSorted(s[1..], p, key);
      var tail := Filter(s[1..], p);
      forall x | x in tail ensures key(s[0]) <= key(x) {
        var j :| 0 <= j < |s[1..]| && s[1..][j] == x;
        assert s[j + 1] == x;
      }
    }
  }

  /** Putting an element no larger than all of a sorted sequence in front keeps it sorted. */
  lemma PrependSorted<T>(h: T, t: seq<T>, key: T -> int)
    requires SortedBy(t, key)
    requires forall y :: y in t ==> key(h) <= key(y)
    ensures SortedBy([h] + t, key)
  {
    var r := [h] + t;
    forall i, j | 0 <= i < j < |r| ensures key(r[i]) <= key(r[j]) {
      if i == 0 {
        assert r[j] == t[j - 1];
        assert r[j] in t;
      } else {
        assert r[i] == t[i - 1] && r[j] == t[j - 1];
      }
    }
  }

  /** Insert `x` before the first element whose key is not smaller. */
  function InsertBy<T>(x: T, s: seq<T>, key: T -> int): (r: seq<T>)
    requires SortedBy(s, key)
    ensures SortedBy(r, key)
    ensures multiset(r) == multiset(s) + multiset{x}
  {
    if s == [] then [x]
    else if key(x) <= key(s[0]) then
      PrependSorted(x, s, key);
      [x] + s
    else
      var tail := InsertBy(x, s[1..], key);
      InsertBehindHead(x, s, tail, key);
      [s[0]] + tail
  }

  /** Inserting behind the head: the head stays in front when `x` is larger. */
  lemma InsertBehindHead<T>(x: T, s: seq<T>, tail: seq<T>, key: T -> int)
    requires SortedBy(s, key) && |s| > 0 && key(s[0]) < key(x)
    requires SortedBy(tail, key) && multiset(tail) == multiset(s[1..]) + multiset{x}
    ensures SortedBy([s[0]] + tail, key)
    ensures multiset([s[0]] + tail) == multiset(s) + multiset{x}
  {
    assert s == [s[0]] + s[1..];
    forall y | y in tail ensures key(s[0]) <= key(y) {
      assert y in multiset(tail);
      if y != x {
        assert y in multiset(s[1..]);
        var k :| 0 <= k < |s[1..]| && s[1..][k] == y;
        assert s[k + 1] == y;
      }
    }
    PrependSorted(s[0], tail, key);
  }

  /** A stable insertion sort, ascending by `key`; the stand-in for the
      database's `Sort("field")`. A descending sort uses the negated key. */
  function SortBy<T>(s: seq<T>, key: T -> int): (r: seq<T>)
    ensures SortedBy(r, key)
    ensures multiset(r) == multiset(s)
  {
    if s == [] then []
    else
      assert s == [s[0]] + s[1..];
      InsertBy(s[0], SortBy(s[1..], key), key)
  }

  /** Sorting keeps exactly the same elements. */
  lemma SortByMembers<T>(s: seq<T>, key: T -> int, x: T)
    ensures x in SortBy(s, key) <==> x in s
  {
    assert x in SortBy(s, key) <==> x in multiset(SortBy(s, key));
  }

  /** Apply `f` to every element satisfying `p`; the others stay as they were.
      The stand-in for an update by key. */
  function Update<T>(s: seq<T>, p: T -> bool, f: T -> T): (r: seq<T>)
    ensures |r| == |s|
    ensures forall i :: 0 <= i < |s| ==> r[i] == if p(s[i]) then f(s[i]) else s[i]
  {
    seq(|s|, i requires 0 <= i < |s| => if p(s[i]) then f(s[i]) else s[i])
  }

  /** The position of the first element satisfying `p`. */
  function FirstIndex<T>(s: seq<T>, p: T -> bool): (r: Option<nat>)
    ensures r.Some? ==> r.value < |s| && p(s[r.value])
    ensures r.Some? ==> forall j :: 0 <= j < r.value ==> !p(s[j])
    ensures r.None? ==> forall j :: 0 <= j < |s| ==> !p(s[j])
  {
    if s == [] then None
    else if p(s[0]) then Some(0)
    else match FirstIndex(s[1..], p)
      case None => None
      case Some(i) => Some(i + 1)
  }

  /** Index `i` holds the first element of `s` satisfying `p`. */
  predicate IsFirst<T>(s: seq<T>, p: T -> bool, i: int) {
    0 <= i < |s| && p(s[i]) && forall j :: 0 <= j < i ==> !p(s[j])
  }

  /** The search finds exactly the first match. */
  lemma FirstIndexIsFirst<T>(s: seq<T>, p: T -> bool)
    ensures forall i :: IsFirst(s, p, i) <==> FirstIndex(s, p) == Some(i)
  {
  }

  /** The first element satisfying `p`: `Find(q).One(&x)`. */
  function FindFirst<T>(s: seq<T>, p: T -> bool): (r: Option<T>)
    ensures r.Some? ==> r.value in s && p(r.value)
    ensures r.None? ==> forall x :: x in s ==> !p(x)
  {
    match FirstIndex(s, p)
    case None => None
    case Some(i) => Some(s[i])
  }

  /** How many elements satisfy `p`: `Find(q).Count()`. */
  function Count<T>(s: seq<T>, p: T -> bool): (n: nat)
    ensures n == 0 <==> forall x :: x in s ==> !p(x)
    ensures n <= |s|
  {
    if s == [] then 0 else (if p(s[0]) then 1 else 0) + Count(s[1..], p)
  }

  /** A filter keeps as many elements as satisfy `p`. */
  lemma {:induction false} FilterCount<T>(s: seq<T>, p: T -> bool)
    ensures |Filter(s, p)| == Count(s, p)
  {
    if s != [] {
      FilterCount(s[1..], p);
    }
  }

  /** When every element satisfies `p`, all of them are counted. */
  lemma {:induction false} CountAll<T>(s: seq<T>, p: T -> bool)
    requires forall x :: x in s ==> p(x)
    ensures Count(s, p) == |s|
  {
    if s != [] {
      assert forall x :: x in s[1..] ==> x in s;
      CountAll(s[1..], p);
    }
  }

  /** Two filters that agree on every element select the same sequence. */
  lemma {:induction false} FilterCongruent<T>(s: seq<T>, p: T -> bool, q: T -> bool)
    requires forall x :: x in s ==> p(x) == q(x)
    ensures Filter(s, p) == Filter(s, q)
  {
    if s != [] {
      FilterCongruent(s[1..], p, q);
    }
  }

  /** No element occurs twice. */
  predicate NoDuplicates<K(==)>(s: seq<K>) {
    forall i, j :: 0 <= i < j < |s| ==> s[i] != s[j]
  }

  /** The distinct keys of `s`, in order of first appearance. */
  function DistinctKeys<T(!new), K(==,!new)>(s: seq<T>, key: T -> K): (r: seq<K>)
    ensures NoDuplicates(r)
    ensures forall k :: k in r <==> exists x :: x in s && key(x) == k
  {
    if s == [] then []
    else
      var init := DistinctKeys(s[..|s| - 1], key);
      var last := s[|s| - 1];
      assert forall x :: x in s <==> x in s[..|s| - 1] || x == last by {
        assert s == s[..|s| - 1] + [last];
      }
      if key(last) in init then init else init + [key(last)]
  }

  /** Concatenate `f(x)` for every `x`, in order: a database `$unwind`. */
  function FlatMap<T, U>(s: seq<T>, f: T -> seq<U>): (r: seq<U>)
    ensures forall x, y :: x in s && y in f(x) ==> y in r
    ensures forall y :: y in r ==> exists x :: x in s && y in f(x)
  {
    if s == [] then [] else f(s[0]) + FlatMap(s[1..], f)
  }

  /** A filter that every element passes keeps the whole sequence. */
  lemma {:induction false} FilterAll<T>(s: seq<T>, p: T -> bool)
    requires forall x :: x in s ==> p(x)
    ensures Filter(s, p) == s
  {
    if s != [] {
      assert forall x :: x in s[1..] ==> x in s;
      FilterAll(s[1..], p);
      assert s == [s[0]] + s[1..];
    }
  }

  /** Filtering a concatenation filters each part. */
  lemma {:induction false} FilterConcat<T>(s: seq<T>, t: seq<T>, p: T -> bool)
    ensures Filter(s + t, p) == Filter(s, p) + Filter(t, p)
  {
    if s != [] {
      assert (s + t)[0] == s[0];
      assert (s + t)[1..] == s[1..] + t;
      FilterConcat(s[1..], t, p);
    } else {
      assert s + t == t;
    }
  }

  /** Remove the first element satisfying `p`: `Remove(q)`, which deletes
      one matching document. */
  function RemoveFirst<T>(s: seq<T>, p: T -> bool): seq<T> {
    match FirstIndex(s, p)
    case None => s
    case Some(i) => s[..i] + s[i + 1..]
  }

  /** A filter that no element passes is empty. */
  lemma {:induction false} FilterNone<T>(s: seq<T>, p: T -> bool)
    requires forall x :: x in s ==> !p(x)
    ensures Filter(s, p) == []
  {
    if s != [] {
      assert forall x :: x in s[1..] ==> x in s;
      FilterNone(s[1..], p);
    }
  }

  /** At most one element satisfies `p`. */
  predicate AtMostOne<T>(s: seq<T>, p: T -> bool) {
    forall i, j :: 0 <= i < j < |s| && p(s[i]) ==> !p(s[j])
  }

  /** Removing the first match drops exactly one element when there is a
      match, keeps only elements of the input, and leaves no match when at
      most one element matched. */
  lemma RemoveFirstFacts<T>(s: seq<T>, p: T -> bool)
    ensures FirstIndex(s, p).Some? ==> |RemoveFirst(s, p)| == |s| - 1
    ensures forall x :: x in RemoveFirst(s, p) ==> x in s
    ensures AtMostOne(s, p) ==> forall x :: x in RemoveFirst(s, p) ==> !p(x)
    ensures forall x :: x in s && !p(x) ==> x in RemoveFirst(s, p)
  {
    var r := RemoveFirst(s, p);
    match FirstIndex(s, p)
    case None =>
    case Some(i) =>
      forall x | x in r ensures x in s && (AtMostOne(s, p) ==> !p(x)) {
        var k :| 0 <= k < |r| && r[k] == x;
        if k < i { assert r[k] == s[k]; } else { assert r[k] == s[k + 1]; }
      }
      forall x | x in s && !p(x) ensures x in r {
        var k :| 0 <= k < |s| && s[k] == x;
        if k < i { assert r[k] == s[k]; } else { assert r[k - 1] == s[k]; }
      }
  }

  /** What is in a concatenation of three lists is in one of them. */
  lemma InConcatThree<T>(a: seq<T>, b: seq<T>, c: seq<T>)
    ensures forall x :: x in a + b + c <==> x in a || x in b || x in c
    ensures a + b + c == [] <==> a == [] && b == [] && c == []
  {
  }

  /** An element of a list made of three parts that only the part `home`
      can hold is in the list exactly when it is in `home`. */
  lemma OnlyIn<T>(s: seq<T>, m: T, home: seq<T>, other1: seq<T>, other2: seq<T>)
    requires forall x :: x in s <==> x in home || x in other1 || x in other2
    requires m !in other1 && m !in other2
    ensures m in s <==> m in home
  {
  }
}

=== FILE: settings.dfy ===
/** The shift settings documents (package `api`, adminSettings.go): who sees
    which settings, and the replace-all write. */
module Settings {
  import opened Wrappers
  import opened Seqs
  import opened Records
  import opened RequestContext

  /** The settings a caller without the administrator flag may read. */
  const PublicSettings: set<string> := {"shift_description", "days"}

  predicate IsPublic(s: Setting) {
    s.name.Some? && s.name.value in PublicSettings
  }

  /** `adminGetSettings`: every setting for a caller the supervisor guard
      admitted, otherwise only the public ones, in stored order. */
  function VisibleSettings(settings: seq<Setting>, c: Caller): (r: seq<Setting>)
    ensures c.isAdmin ==> r == settings
    ensures forall x :: x in r <==> x in settings && (c.isAdmin || IsPublic(x))
    ensures !c.isAdmin ==> IsSubsequence(r, settings)
  {
    if c.isAdmin then settings
    else
      FilterIsSubsequence(settings, IsPublic);
      Filter(settings, IsPublic)
  }

  /** Document `i` of `docs` is the first to carry its `_id`, or has none. */
  predicate FirstOfItsId(docs: seq<Setting>, i: int)
    requires 0 <= i < |docs|
  {
    docs[i].id.None? || forall j :: 0 <= j < i ==> docs[j].id != docs[i].id
  }

  /** The documents of `docs` that are first with their `_id`, in order. */
  function Firsts(docs: seq<Setting>): (r: seq<Setting>)
    ensures IsSubsequence(r, docs)
  {
    if docs == [] then []
    else
      var n := |docs| - 1;
      var rest := Firsts(docs[..n]);
      SubsequenceSnoc(rest, docs[..n], docs[n]);
      assert docs[..n] + [docs[n]] == docs;
      if FirstOfItsId(docs, n) then rest + [docs[n]] else rest
  }

  /** A document is kept by `Firsts` exactly when it is first with its id. */
  lemma {:induction false} FirstsMembers(docs: seq<Setting>)
    ensures forall x :: x in Firsts(docs) <==> exists i :: 0 <= i < |docs| && docs[i] == x && FirstOfItsId(docs, i)
  {
    if docs != [] {
      var n := |docs| - 1;
      var p := docs[..n];
      FirstsMembers(p);
      forall i | 0 <= i < n ensures FirstOfItsId(p, i) == FirstOfItsId(docs, i) && p[i] == docs[i] {
      }
    }
  }

  /** An id is stored in `Firsts(docs)` exactly when some document of `docs`
      carries it. */
  lemma {:induction false} FirstsIds(docs: seq<Setting>, k: string)
    ensures (exists x <- Firsts(docs) :: x.id == Some(k)) <==> exists j :: 0 <= j < |docs| && docs[j].id == Some(k)
  {
    if docs != [] {
      var n := |docs| - 1;
      var p := docs[..n];
      FirstsIds(p, k);
      assert forall j :: 0 <= j < n ==> p[j] == docs[j];
      if docs[n].id == Some(k) && !FirstOfItsId(docs, n) {
        var j :| 0 <= j < n && docs[j].id == docs[n].id;
        assert p[j].id == Some(k);
      }
    }
  }

  /** Ids among the kept documents are pairwise different. */
  predicate UniqueSettingIds(docs: seq<Setting>) {
    forall i, j :: 0 <= i < j < |docs| && docs[i].id.Some? ==> docs[i].id != docs[j].id
  }

  /** `Insert` into the settings collection: a document whose `_id` is
      already stored is refused by the primary key, and the handler ignores
      the error. */
  function InsertOne(stored: seq<Setting>, doc: Setting): seq<Setting> {
    if doc.id.Some? && exists s <- stored :: s.id == doc.id then stored else stored + [doc]
  }

  /** The handler's loop: each document inserted in turn. */
  function InsertEach(stored: seq<Setting>, docs: seq<Setting>): seq<Setting>
    decreases |docs|
  {
    if docs == [] then stored else InsertEach(InsertOne(stored, docs[0]), docs[1..])
  }

  /** Inserting one more document into the firsts of `p` gives the firsts
      of `p` extended by it. */
  lemma InsertOneFirsts(p: seq<Setting>, x: Setting)
    ensures InsertOne(Firsts(p), x) == Firsts(p + [x])
  {
    var q := p + [x];
    assert q[..|p|] == p;
    if x.id.Some? {
      FirstsIds(p, x.id.value);
      if exists j :: 0 <= j < |p| && p[j].id == x.id {
        var j :| 0 <= j < |p| && p[j].id == x.id;
        assert q[j].id == q[|p|].id;
      } else {
        assert forall j :: 0 <= j < |p| ==> q[j].id != q[|p|].id;
      }
    }
  }

  /** Inserting documents one by one keeps exactly the first document of
      each id: the loop computes `Firsts`. */
  lemma {:induction false} InsertEachIsFirsts(p: seq<Setting>, q: seq<Setting>)
    ensures InsertEach(Firsts(p), q) == Firsts(p + q)
    decreases |q|
  {
    if q == [] {
      assert p + q == p;
    } else {
      InsertOneFirsts(p, q[0]);
      InsertEachIsFirsts(p + [q[0]], q[1..]);
      assert p + [q[0]] + q[1..] == p + q;
    }
  }

  /** The kept documents carry pairwise different ids. */
  lemma {:induction false} FirstsUnique(docs: seq<Setting>)
    ensures UniqueSettingIds(Firsts(docs))
  {
    if docs != [] {
      var n := |docs| - 1;
      var p := docs[..n];
      var rest := Firsts(p);
      FirstsUnique(p);
      if FirstOfItsId(docs, n) {
        var r := rest + [docs[n]];
        FirstsMembers(p);
        forall i | 0 <= i < |rest| && rest[i].id.Some? ensures rest[i].id != docs[n].id {
          assert rest[i] in rest;
          var k :| 0 <= k < |p| && p[k] == rest[i] && FirstOfItsId(p, k);
          assert docs[k] == p[k];
        }
        assert forall i, j :: 0 <= i < j < |r| && r[i].id.Some? ==> r[i].id != r[j].id by {
          forall i, j | 0 <= i < j < |r| && r[i].id.Some? ensures r[i].id != r[j].id {
            if j == |rest| {
              assert r[i] == rest[i];
            } else {
              assert r[i] == rest[i] && r[j] == rest[j];
            }
          }
        }
      }
    }
  }

  /** `adminSetSettings`: every stored setting is removed, then the submitted
      documents are inserted in order; a document whose `_id` an earlier one
      already used is dropped. Nothing but the settings changes. */
  function SetSettings(st: Store, body: seq<Setting>): (r: Store)
    ensures r == st.(settings := r.settings)
    ensures r.settings == Firsts(body)
    ensures IsSubsequence(r.settings, body)
    ensures UniqueSettingIds(r.settings)
    ensures forall x :: x in r.settings <==> exists i :: 0 <= i < |body| && body[i] == x && FirstOfItsId(body, i)
  {
    InsertEachIsFirsts([], body);
    assert [] + body == body;
    FirstsUnique(body);
    FirstsMembers(body);
    st.(settings := InsertEach([], body))
  }

  /** Replacing is total: after a write, what any caller reads depends only
      on the submitted documents and not on what was stored before; an
      administrator reads back the kept documents, anyone else their public
      part. */
  lemma ReadAfterWrite(st1: Store, st2: Store, body: seq<Setting>, c: Caller)
    ensures VisibleSettings(SetSettings(st1, body).settings, c) == VisibleSettings(SetSettings(st2, body).settings, c)
    ensures c.isAdmin ==> VisibleSettings(SetSettings(st1, body).settings, c) == Firsts(body)
    ensures !c.isAdmin ==> forall x :: x in VisibleSettings(SetSettings(st1, body).settings, c) <==> x in Firsts(body) && IsPublic(x)
  {
  }

  /** Documents with pairwise different ids are all stored, in order. */
  lemma {:induction false} DistinctIdsAllKept(body: seq<Setting>)
    requires UniqueSettingIds(body)
    ensures Firsts(body) == body
  {
    if body != [] {
      var n := |body| - 1;
      var p := body[..n];
      assert UniqueSettingIds(p);
      DistinctIdsAllKept(p);
      assert body == p + [body[n]];
    }
  }

  /** Two documents with one id: only the first is stored. */
  lemma DuplicateIdKeepsFirst(a: Setting, b: Setting)
    requires a.id.Some? && a.id == b.id
    ensures Firsts([a, b]) == [a]
  {
    assert [a, b][..1] == [a];
    assert [a][..0] == [];
  }

  /** The public view shows nothing an administrator would not see, and
      taking it twice shows no less than taking it once. */
  lemma {:induction false} PublicViewIsStable(settings: seq<Setting>, c: Caller)
    requires !c.isAdmin
    ensures VisibleSettings(VisibleSettings(settings, c), c) == VisibleSettings(settings, c)
  {
    FilterAll(Filter(settings, IsPublic), IsPublic);
  }
}

=== FILE: shifts.dfy ===
/** The driver-facing shift handlers (api/shifts.go): booking, cancelling,
    searching for bikes, the month view and the history of completed shifts. */
module ShiftApi {
  import opened Wrappers
  import opened Seqs
  import opened Civil
  import opened Records
  import opened Availability
  import opened RequestContext

  const GarageMissing := "Garage does not exist"
  const DateFormatError := "Date: invalid format (must be DD-MM-YYYY)"
  const DateNotFuture := "Date: must be in the future"
  const DatePast := "Date: cannot book a past shift"
  const AlreadyDeleted := "Shift already deleted"
  const AlreadyStarted := "Shift in the past or you have been checked in"

  /** Go's zero `time.Time` (0001-01-01 00:00), used when an unparsable date
      is let through for administrators. */
  const GoZeroTime := Midnight(DayNumber(1, 1, 1))

  /** The engine size a learner (CBT) licence allows. */
  const LearnerMaxCC := 125

  /** The body of a booking request; `date` is `DD-MM-YYYY` text. */
  datatype Booking = Booking(garage: ObjectId, bike: ObjectId, date: string, hour: int)

  /** The date checks of a booking, with the shift's start instant. The two
      "past" checks are skipped for administrators, and the second is only
      made when the first passes. */
  function DateChecks(text: string, hour: int, isAdmin: bool, now: int): (r: (seq<string>, int))
    ensures |r.0| <= 1
    ensures DateFormatError in r.0 <==> ParseDate(text).None?
    ensures DateNotFuture in r.0 <==> !isAdmin && ParseDate(text).Some? && ParseDate(text).value + SecondsPerDay < now
    ensures DatePast in r.0 <==>
      && !isAdmin && ParseDate(text).Some? && ParseDate(text).value + SecondsPerDay >= now
      && ParseDate(text).value + hour * SecondsPerHour < now
    ensures forall e :: e in r.0 ==> e == DateFormatError || e == DateNotFuture || e == DatePast
    ensures r.0 == [] ==> ParseDate(text).Some? && r.1 == ParseDate(text).value + hour * SecondsPerHour
  {
    match ParseDate(text)
    case None => ([DateFormatError], 0)
    case Some(day) =>
      if day + SecondsPerDay < now && !isAdmin then ([DateNotFuture], 0)
      else
        var start := day + hour * SecondsPerHour;
        (if start < now && !isAdmin then [DatePast] else [], start)
  }

  /** Every check of a booking, garage first. */
  function BookingErrors(garages: seq<Garage>, b: Booking, isAdmin: bool, now: int): (errs: seq<string>)
    ensures GarageMissing in errs <==> !GarageExists(garages, b.garage)
    ensures forall e :: e in DateChecks(b.date, b.hour, isAdmin, now).0 ==> e in errs
    ensures forall e :: e in errs ==> e == GarageMissing || e in DateChecks(b.date, b.hour, isAdmin, now).0
    ensures errs == [] <==> GarageExists(garages, b.garage) && DateChecks(b.date, b.hour, isAdmin, now).0 == []
  {
    (if GarageExists(garages, b.garage) then [] else [GarageMissing])
      + DateChecks(b.date, b.hour, isAdmin, now).0
  }

  /** The instant a booking starts: its day plus its hour. */
  function StartOf(b: Booking): int
    requires ParseDate(b.date).Some?
  {
    ParseDate(b.date).value + b.hour * SecondsPerHour
  }

  /** The booked bike is among those offered for the booking's garage and
      start, with no engine-size limit. */
  predicate Offered(st: Store, b: Booking)
    requires ParseDate(b.date).Some?
  {
    exists bk :: bk in AvailableBikes(st.bikes, st.shifts, b.garage, StartOf(b), 0) && bk.id == b.bike
  }

  /** The shift a booking inserts. */
  predicate IsBookedShift(ns: Shift, b: Booking, c: Caller, now: int, newId: ObjectId)
    requires ParseDate(b.date).Some?
  {
    && ns.id == newId && ns.garage == b.garage && ns.bike == b.bike && ns.date == StartOf(b)
    && ns.status == Created && ns.user == EffectiveUser(c) && ns.addedBy == c.userId && ns.added == now
    && !ns.deleted && !ns.paid && ns.checkIn.None? && ns.checkOut.None?
  }

  /** The insert after every check has passed: a Conflict when the bike is
      not offered, otherwise one new created shift at the end. */
  function Book(st: Store, b: Booking, c: Caller, now: int, newId: ObjectId): (r: Reply<Store>)
    requires ParseDate(b.date).Some?
    ensures r.Ok? || r.Conflict?
    ensures r.Ok? <==> Offered(st, b)
    ensures r.Ok? ==>
      && |r.value.shifts| == |st.shifts| + 1
      && r.value == st.(shifts := st.shifts + [r.value.shifts[|st.shifts|]])
      && IsBookedShift(r.value.shifts[|st.shifts|], b, c, now, newId)
  {
    var offered := AvailableBikes(st.bikes, st.shifts, b.garage, StartOf(b), 0);
    match FindFirst(offered, (bk: Bike) => bk.id == b.bike)
    case None => Conflict
    case Some(found) =>
      var ns := Shift(newId, b.garage, found.id, EffectiveUser(c), StartOf(b), Created,
        None, None, None, None, false, 0, None, None, now, c.userId, false, "", None, None);
      var shifts := st.shifts + [ns];
      assert shifts[|st.shifts|] == ns;
      Ok(st.(shifts := shifts))
  }

  /** `createShift`: every check of the booking is reported in a 400 and
      nothing is inserted; otherwise the booking is made or refused as
      `Book` says. */
  function CreateShift(st: Store, b: Booking, c: Caller, now: int, newId: ObjectId): (r: Reply<Store>)
    ensures r.Ok? || r.BadRequest? || r.Conflict?
    ensures r.BadRequest? <==> BookingErrors(st.garages, b, c.isAdmin, now) != []
    ensures r.BadRequest? ==> r.errors == BookingErrors(st.garages, b, c.isAdmin, now)
    ensures !r.BadRequest? ==> GarageExists(st.garages, b.garage) && ParseDate(b.date).Some?
    ensures !r.BadRequest? ==> r == Book(st, b, c, now, newId)
  {
    var errs := BookingErrors(st.garages, b, c.isAdmin, now);
    if |errs| > 0 then BadRequest(errs)
    else Book(st, b, c, now, newId)
  }

  /** An administrator (any caller admitted by the supervisor guard) can book
      a past day, as long as the garage exists, the date parses and the bike
      is offered. */
  lemma AdminBooksPastDays(st: Store, b: Booking, c: Caller, now: int, newId: ObjectId)
    requires c.isAdmin
    requires GarageExists(st.garages, b.garage) && ParseDate(b.date).Some?
    requires Offered(st, b)
    ensures CreateShift(st, b, c, now, newId).Ok?
  {
  }

  /** A non-administrator cannot book a day that ended or an hour that has
      passed: the request is a 400 naming the date. */
  lemma DriverCannotBookThePast(st: Store, b: Booking, c: Caller, now: int, newId: ObjectId)
    requires !c.isAdmin && ParseDate(b.date).Some? && StartOf(b) < now
    ensures var r := CreateShift(st, b, c, now, newId);
      r.BadRequest? && (DateNotFuture in r.errors || DatePast in r.errors)
  {
  }

  /** The two-bookings scenario: two drivers book the same bike for the same
      day; the second booking still succeeds because the first is only
      `created`. */
  lemma DoubleBookingAtCreatedStage(st: Store, b1: Booking, b2: Booking, c1: Caller, c2: Caller, now: int, id1: ObjectId, id2: ObjectId)
    requires b1.garage == b2.garage && b1.bike == b2.bike && b1.date == b2.date && b1.hour == b2.hour
    requires CreateShift(st, b1, c1, now, id1).Ok?
    requires c2.isAdmin == c1.isAdmin
    ensures CreateShift(CreateShift(st, b1, c1, now, id1).value, b2, c2, now, id2).Ok?
  {
    var st1 := CreateShift(st, b1, c1, now, id1).value;
    var ns := st1.shifts[|st.shifts|];
    assert st1.garages == st.garages && st1.bikes == st.bikes;
    assert BookingErrors(st1.garages, b2, c2.isAdmin, now) == BookingErrors(st.garages, b1, c1.isAdmin, now);
    var start := StartOf(b1);
    NonBlockingShiftIsIgnored(st.bikes, st.shifts, ns, b1.garage, start, 0);
    var bk :| bk in AvailableBikes(st.bikes, st.shifts, b1.garage, start, 0) && bk.id == b1.bike;
    assert bk in AvailableBikes(st1.bikes, st1.shifts, b2.garage, StartOf(b2), 0);
  }

  /** `shiftMiddleware`: the shift named by the route, which must belong to
      the effective user. An unparsable id or someone else's shift ends the
      request (the Go code panics). */
  function OwnedShift(st: Store, c: Caller, idText: string): (r: Reply<Shift>)
    ensures r.Ok? || r.ServerError?
    ensures r.Ok? ==>
      r.value in st.shifts && r.value.user == EffectiveUser(c) && ObjectIdHex(idText) == Some(r.value.id)
    ensures (ObjectIdHex(idText).Some? && exists s <- st.shifts :: s.id == ObjectIdHex(idText).value && s.user == EffectiveUser(c))
      ==> r.Ok?
  {
    match ObjectIdHex(idText)
    case None => ServerError
    case Some(id) =>
      match FindFirst(st.shifts, (s: Shift) => s.id == id && s.user == EffectiveUser(c))
      case None => ServerError
      case Some(s) => Ok(s)
  }

  /** Every shift but the one with id `id`: the hard delete's filter. */
  function OtherThan(id: ObjectId): Shift -> bool {
    (x: Shift) => x.id != id
  }

  /** `cancelShift`: both problems are reported; a cancellable shift is
      removed from the store (the only hard delete of a shift). */
  function CancelShift(st: Store, shift: Shift, now: int): (r: Reply<Store>)
    ensures r.Ok? || r.BadRequest? || r.ServerError?
    ensures shift.deleted ==> r.BadRequest? && AlreadyDeleted in r.errors
    ensures shift.checkIn.Some? || shift.date < now ==> r.BadRequest? && AlreadyStarted in r.errors
    ensures r.BadRequest? <==> shift.deleted || shift.checkIn.Some? || shift.date < now
    ensures r.BadRequest? ==> |r.errors| > 0 && forall e :: e in r.errors ==> e in [AlreadyDeleted, AlreadyStarted]
    ensures r.BadRequest? ==>
      && (AlreadyDeleted in r.errors <==> shift.deleted)
      && (AlreadyStarted in r.errors <==> shift.checkIn.Some? || shift.date < now)
    ensures r.ServerError? ==> forall s :: s in st.shifts ==> s.id != shift.id
    ensures r.Ok? ==>
      && !shift.deleted && shift.checkIn.None? && shift.date >= now
      && r.value == st.(shifts := r.value.shifts)
      && |r.value.shifts| < |st.shifts|
      && forall s :: s in r.value.shifts <==> s in st.shifts && s.id != shift.id
    ensures r.Ok? ==>
      && IsSubsequence(r.value.shifts, st.shifts)
      && forall s :: multiset(r.value.shifts)[s] == if s.id != shift.id then multiset(st.shifts)[s] else 0
  {
    var errs := (if shift.deleted then [AlreadyDeleted] else [])
      + (if shift.date < now || shift.checkIn.Some? then [AlreadyStarted] else []);
    if |errs| > 0 then BadRequest(errs)
    else if !exists s <- st.shifts :: s.id == shift.id then ServerError
    else
      var s :| s in st.shifts && s.id == shift.id;
      FilterDropsSome(st.shifts, OtherThan(shift.id), s);
      FilterIsSubsequence(st.shifts, OtherThan(shift.id));
      forall x ensures multiset(Filter(st.shifts, OtherThan(shift.id)))[x] == if x.id != shift.id then multiset(st.shifts)[x] else 0 {
        FilterMultiplicity(st.shifts, OtherThan(shift.id), x);
      }
      Ok(st.(shifts := Filter(st.shifts, OtherThan(shift.id))))
  }

  /** Cancelling a booking before it starts undoes it: the store is exactly
      as it was before the booking, provided the new shift's id was not in
      use. */
  lemma CancelUndoesBook(st: Store, b: Booking, c: Caller, now: int, newId: ObjectId, later: int)
    requires ParseDate(b.date).Some?
    requires Book(st, b, c, now, newId).Ok?
    requires forall s :: s in st.shifts ==> s.id != newId
    requires later <= StartOf(b)
    ensures var st1 := Book(st, b, c, now, newId).value;
      CancelShift(st1, st1.shifts[|st.shifts|], later) == Ok(st)
  {
    var st1 := Book(st, b, c, now, newId).value;
    var ns := st1.shifts[|st.shifts|];
    assert IsBookedShift(ns, b, c, now, newId);
    CancelAppended(st, ns, later);
  }

  /** Cancelling a shift appended under an unused id removes exactly it. */
  lemma CancelAppended(st: Store, ns: Shift, later: int)
    requires forall s :: s in st.shifts ==> s.id != ns.id
    requires !ns.deleted && ns.checkIn.None? && later <= ns.date
    ensures CancelShift(st.(shifts := st.shifts + [ns]), ns, later) == Ok(st)
  {
    var shifts := st.shifts + [ns];
    FilterSnoc(st.shifts, ns, OtherThan(ns.id));
    FilterAll(st.shifts, OtherThan(ns.id));
    assert Filter(shifts, OtherThan(ns.id)) == st.shifts;
    assert shifts[|st.shifts|] == ns;
    assert exists s <- shifts :: s.id == ns.id;
  }

  /** The engine-size limit for a driver: 125cc for a CBT licence, none otherwise
      (also when the driver has no membership). */
  function CcLimit(memberships: seq<Membership>, user: ObjectId): int {
    match MembershipOf(memberships, user)
    case Some(m) => if m.licence == "cbt" then LearnerMaxCC else 0
    case None => 0
  }

  /** The search day is refused to a non-administrator: it does not parse,
      or it ended before `now`. */
  predicate SearchDayRefused(dateText: string, now: int) {
    ParseDate(dateText).None? || ParseDate(dateText).value + SecondsPerDay < now
  }

  /** `shiftSearch`: the bikes a driver may book on a day. An administrator
      searching with an unparsable day searches Go's zero time. The garage
      id is converted with `ObjectIdHex`, which panics on malformed text. */
  function ShiftSearch(st: Store, c: Caller, dateText: string, garageText: string, now: int): (r: Reply<seq<Bike>>)
    ensures r.Ok? || r.BadRequest? || r.ServerError?
    ensures !c.isAdmin && SearchDayRefused(dateText, now) ==> r.BadRequest?
    ensures r.ServerError? <==> (c.isAdmin || !SearchDayRefused(dateText, now)) && ObjectIdHex(garageText).None?
    ensures r.Ok? <==>
      && (c.isAdmin || !SearchDayRefused(dateText, now))
      && ObjectIdHex(garageText).Some?
      && GarageExists(st.garages, ObjectIdHex(garageText).value)
    ensures r.Ok? ==> r.value == AvailableBikes(st.bikes, st.shifts, ObjectIdHex(garageText).value,
      ParseDate(dateText).GetOr(GoZeroTime), CcLimit(st.memberships, EffectiveUser(c)))
    ensures r.Ok? ==> ObjectIdHex(garageText).Some? && GarageExists(st.garages, ObjectIdHex(garageText).value)
    ensures r.Ok? ==> forall b :: b in r.value ==> b.garage == ObjectIdHex(garageText).value && b.available && !b.archived
    ensures r.Ok? && MembershipOf(st.memberships, EffectiveUser(c)).Some?
      && MembershipOf(st.memberships, EffectiveUser(c)).value.licence == "cbt"
      ==> forall b :: b in r.value ==> b.engineSize <= LearnerMaxCC
    ensures r.Ok? && !(MembershipOf(st.memberships, EffectiveUser(c)).Some?
      && MembershipOf(st.memberships, EffectiveUser(c)).value.licence == "cbt")
      ==> forall b :: (b in st.bikes && IsCandidate(b, ObjectIdHex(garageText).value, 0) && b !in r.value
          ==> exists s <- st.shifts :: s.bike == b.id && s.status == Confirmed)
  {
    if SearchDayRefused(dateText, now) && !c.isAdmin then BadRequest([])
    else
      var date := ParseDate(dateText).GetOr(GoZeroTime);
      match ObjectIdHex(garageText)
      case None => ServerError
      case Some(g) =>
        if FindGarageById(st.garages, g).None? then BadRequest([])
        else Ok(AvailableBikes(st.bikes, st.shifts, g, date, CcLimit(st.memberships, EffectiveUser(c))))
  }

  /** A row of the month view: a shift joined with its bike. */
  datatype ShiftRow = ShiftRow(shift: Shift, bike: Bike)

  function RowDate(row: ShiftRow): int { row.shift.date }

  /** The bikes with the shift's bike id, as rows (`$lookup` then `$unwind`). */
  function RowsFor(s: Shift, bikes: seq<Bike>): (r: seq<ShiftRow>)
    ensures forall row :: row in r <==> row.shift == s && row.bike in bikes && row.bike.id == s.bike
  {
    var matching := Filter(bikes, (b: Bike) => b.id == s.bike);
    var r := seq(|matching|, i requires 0 <= i < |matching| => ShiftRow(s, matching[i]));
    assert forall i :: 0 <= i < |matching| ==> r[i] == ShiftRow(s, matching[i]);
    forall row: ShiftRow | row.shift == s && row.bike in matching ensures row in r {
      var i :| 0 <= i < |matching| && matching[i] == row.bike;
      assert r[i] == row;
    }
    r
  }

  /** Every shift joined with each bike carrying its bike id. */
  function JoinBikes(shifts: seq<Shift>, bikes: seq<Bike>): (r: seq<ShiftRow>)
    ensures forall row :: row in r <==> row.shift in shifts && row.bike in bikes && row.bike.id == row.shift.bike
  {
    FlatMap(shifts, (s: Shift) => RowsFor(s, bikes))
  }

  /** The shifts of `user` dated in `[start, end)`, each as often as it is
      stored. */
  function MonthShifts(shifts: seq<Shift>, user: ObjectId, start: int, end: int): (r: seq<Shift>)
    ensures forall s :: multiset(r)[s] == if s.user == user && start <= s.date < end then multiset(shifts)[s] else 0
  {
    var r := Filter(shifts, (s: Shift) => s.user == user && start <= s.date < end);
    forall s ensures multiset(r)[s] == if s.user == user && start <= s.date < end then multiset(shifts)[s] else 0 {
      FilterMultiplicity(shifts, (s: Shift) => s.user == user && start <= s.date < end, s);
    }
    r
  }

  /** `getShifts`: the effective user's shifts (deleted ones included) dated in
      the month `[1st of month, 1st of next month)`, each joined with its
      bike, by date ascending. Shifts whose bike no longer exists drop out. */
  function GetShifts(st: Store, c: Caller, year: Option<int>, month: Option<int>): (r: Reply<seq<ShiftRow>>)
    ensures r.Ok? <==> year.Some? && month.Some?
    ensures r.BadRequest? <==> !r.Ok?
    ensures r.Ok? ==> SortedBy(r.value, RowDate)
    ensures r.Ok? ==> forall row :: row in r.value ==>
      && row.shift in st.shifts && row.shift.user == EffectiveUser(c)
      && MonthStart(year.value, month.value) <= row.shift.date < MonthStart(year.value, month.value + 1)
      && row.bike in st.bikes && row.bike.id == row.shift.bike
    ensures r.Ok? ==> forall s, b ::
      (s in st.shifts && b in st.bikes && s.user == EffectiveUser(c) && b.id == s.bike
       && MonthStart(year.value, month.value) <= s.date < MonthStart(year.value, month.value + 1))
      ==> ShiftRow(s, b) in r.value
    ensures r.Ok? ==> multiset(r.value) == multiset(JoinBikes(
      MonthShifts(st.shifts, EffectiveUser(c), MonthStart(year.value, month.value), MonthStart(year.value, month.value + 1)), st.bikes))
  {
    if year.None? || month.None? then BadRequest([])
    else
      var start := MonthStart(year.value, month.value);
      var end := MonthStart(year.value, month.value + 1);
      var u := EffectiveUser(c);
      var mine := MonthShifts(st.shifts, u, start, end);
      assert forall s :: s in mine <==> s in st.shifts && s.user == u && start <= s.date < end by {
        forall s ensures s in mine <==> s in st.shifts && s.user == u && start <= s.date < end {
          assert s in mine <==> multiset(mine)[s] > 0;
        }
      }
      var rows := JoinBikes(mine, st.bikes);
      var sorted := SortBy(rows, RowDate);
      assert forall row :: row in sorted <==> row in rows by {
        forall row ensures row in sorted <==> row in rows { SortByMembers(rows, RowDate, row); }
      }
      Ok(sorted)
  }

  /** Descending by date. */
  function NegDate(s: Shift): int { -s.date }

  /** A shift the history of `user` lists. */
  predicate InHistory(s: Shift, user: ObjectId, paidOnly: bool) {
    s.user == user && s.status == Complete && !s.deleted && (paidOnly ==> s.paid)
  }

  /** `getShiftHistory`: the effective user's completed, non-deleted shifts
      (only the paid ones when asked), newest first, each as often as it is
      stored. */
  function ShiftHistory(st: Store, c: Caller, paidOnly: bool): (r: seq<Shift>)
    ensures forall i, j :: 0 <= i < j < |r| ==> r[i].date >= r[j].date
    ensures forall s :: s in r <==>
      && s in st.shifts
      && s.user == EffectiveUser(c)
      && s.status == Complete
      && !s.deleted
      && (paidOnly ==> s.paid)
    ensures forall s :: multiset(r)[s] == if InHistory(s, EffectiveUser(c), paidOnly) then multiset(st.shifts)[s] else 0
  {
    var u := EffectiveUser(c);
    var done := Filter(st.shifts, (s: Shift) => InHistory(s, u, paidOnly));
    var sorted := SortBy(done, NegDate);
    forall s ensures multiset(sorted)[s] == if InHistory(s, u, paidOnly) then multiset(st.shifts)[s] else 0 {
      FilterMultiplicity(st.shifts, (s: Shift) => InHistory(s, u, paidOnly), s);
    }
    assert forall s :: s in sorted <==> s in done by {
      forall s ensures s in sorted <==> s in done { SortByMembers(done, NegDate, s); }
    }
    assert forall i, j :: 0 <= i < j < |sorted| ==> NegDate(sorted[i]) <= NegDate(sorted[j]);
    sorted
  }
}

=== FILE: text.dfy ===
/** String operations the handlers rely on, from Go's `strings` package:
    lower-casing, substring search, splitting on a separator, and removing a
    character. Strings are sequences of characters, whose Go length is the
    size of their UTF-8 encoding; `ToLower` covers the ASCII letters only. */
module Text {
  import opened Wrappers

  predicate IsUpper(c: char) { 'A' <= c <= 'Z' }

  function LowerChar(c: char): char {
    if IsUpper(c) then (c as int + 32) as char else c
  }

  /** `strings.ToLower`, restricted to ASCII letters. */
  function ToLower(s: string): (r: string)
    ensures |r| == |s|
    ensures forall i :: 0 <= i < |s| ==> r[i] == LowerChar(s[i])
  {
    if s == [] then [] else [LowerChar(s[0])] + ToLower(s[1..])
  }

  /** The number of bytes the UTF-8 encoding of a character takes. */
  function Utf8Width(c: char): (n: int)
    ensures 1 <= n <= 4
    ensures n == 1 <==> c as int < 0x80
  {
    if c as int < 0x80 then 1
    else if c as int < 0x800 then 2
    else if c as int < 0x10000 then 3
    else 4
  }

  /** `len(s)` of a Go string: the length of its UTF-8 encoding in bytes. */
  function Utf8Length(s: string): (n: nat)
    ensures |s| <= n <= 4 * |s|
    ensures n == |s| <==> forall i :: 0 <= i < |s| ==> s[i] as int < 0x80
  {
    if s == [] then 0
    else
      var rest := Utf8Length(s[1..]);
      assert forall i :: 1 <= i < |s| ==> s[i] == s[1..][i - 1];
      Utf8Width(s[0]) + rest
  }

  /** A string equals its lower-case form exactly when it has no upper-case letter. */
  lemma ToLowerFixedIff(s: string)
    ensures ToLower(s) == s <==> forall i :: 0 <= i < |s| ==> !IsUpper(s[i])
  {
    if ToLower(s) == s {
      forall i | 0 <= i < |s| ensures !IsUpper(s[i]) {
        assert ToLower(s)[i] == s[i];
      }
    }
  }

  /** Lower-casing twice is lower-casing once. */
  lemma ToLowerIdempotent(s: string)
    ensures ToLower(ToLower(s)) == ToLower(s)
  {
  }

  /** `sep` occurs in `s` at position `i`. */
  predicate OccursAt(s: string, sep: string, i: int) {
    0 <= i && i + |sep| <= |s| && s[i..i + |sep|] == sep
  }

  /** `strings.Contains`. */
  predicate Contains(s: string, sub: string) {
    exists i | 0 <= i <= |s| :: OccursAt(s, sub, i)
  }

  /** `sub` does not occur in `s` when no position of `s` starts with the
      first two characters of `sub`. */
  lemma NoStart(s: string, sub: string)
    requires |sub| > 1
    requires forall i :: 0 <= i && i + |sub| <= |s| ==> s[i] != sub[0] || s[i + 1] != sub[1]
    ensures !Contains(s, sub)
  {
    forall i | 0 <= i <= |s| ensures !OccursAt(s, sub, i) {
      if i + |sub| <= |s| {
        assert s[i..i + |sub|][0] == s[i] && s[i..i + |sub|][1] == s[i + 1];
      }
    }
  }

  /** The first position at or after `from` where `sep` occurs. */
  function FindFrom(s: string, sep: string, from: nat): (r: Option<nat>)
    requires |sep| > 0
    ensures r.Some? ==> from <= r.value && OccursAt(s, sep, r.value)
    ensures r.Some? ==> forall j :: from <= j < r.value ==> !OccursAt(s, sep, j)
    ensures r.None? ==> forall j :: from <= j ==> !OccursAt(s, sep, j)
    decreases |s| - from
  {
    if from + |sep| > |s| then None
    else if s[from..from + |sep|] == sep then Some(from)
    else FindFrom(s, sep, from + 1)
  }

  /** `i` is the first position at or after `from` where `sep` occurs. */
  predicate FirstOccurrence(s: string, sep: string, from: int, i: int) {
    from <= i && OccursAt(s, sep, i) && forall j :: from <= j < i ==> !OccursAt(s, sep, j)
  }

  /** The search finds the first occurrence, from any starting point. */
  lemma FindFromFirst(s: string, sep: string)
    requires |sep| > 0
    ensures forall from: nat, i :: FirstOccurrence(s, sep, from, i) ==> FindFrom(s, sep, from) == Some(i)
  {
    forall from: nat, i | FirstOccurrence(s, sep, from, i) ensures FindFrom(s, sep, from) == Some(i) {
      var r := FindFrom(s, sep, from);
      assert r.Some?;
    }
  }

  /** Element 0 of `strings.Split(s, sep)`: the text before the first `sep`,
      or all of `s` when there is none. */
  function SplitFirst(s: string, sep: string): string
    requires |sep| > 0
  {
    match FindFrom(s, sep, 0)
    case None => s
    case Some(i) => s[..i]
  }

  /** Element 1 of `strings.Split(s, sep)`, when the split has at least two
      parts: the text between the first and the second `sep` (or the end). */
  function SplitSecond(s: string, sep: string): Option<string>
    requires |sep| > 0
  {
    match FindFrom(s, sep, 0)
    case None => None
    case Some(i) =>
      match FindFrom(s, sep, i + |sep|)
      case None => Some(s[i + |sep|..])
      case Some(j) => Some(s[i + |sep|..j])
  }

  /** `strings.Replace(s, [c], "", -1)`: every `c` removed. */
  function RemoveChar(s: string, c: char): (r: string)
    ensures |r| <= |s|
    ensures forall x :: x in r <==> x in s && x != c
  {
    if s == [] then []
    else if s[0] == c then RemoveChar(s[1..], c)
    else [s[0]] + RemoveChar(s[1..], c)
  }

  /** Removing a character distributes over concatenation. */
  lemma {:induction false} RemoveCharConcat(s: string, t: string, c: char)
    ensures RemoveChar(s + t, c) == RemoveChar(s, c) + RemoveChar(t, c)
  {
    if s != [] {
      assert (s + t)[0] == s[0];
      assert (s + t)[1..] == s[1..] + t;
      RemoveCharConcat(s[1..], t, c);
      if s[0] != c {
        assert RemoveChar(s + t, c) == [s[0]] + RemoveChar(s[1..] + t, c);
        assert RemoveChar(s, c) == [s[0]] + RemoveChar(s[1..], c);
      }
    } else {
      assert s + t == t;
    }
  }

  /** Removing a character that does not occur changes nothing. */
  lemma {:induction false} RemoveCharAbsent(s: string, c: char)
    requires c !in s
    ensures RemoveChar(s, c) == s
  {
    if s != [] {
      assert s[0] in s;
      assert forall x :: x in s[1..] ==> x in s;
      RemoveCharAbsent(s[1..], c);
      calc {
        RemoveChar(s, c);
        [s[0]] + RemoveChar(s[1..], c);
        [s[0]] + s[1..];
        s;
      }
    }
  }

  /** `strings.Join`. */
  function Join(parts: seq<string>, sep: string): string {
    if parts == [] then "" else if |parts| == 1 then parts[0] else parts[0] + sep + Join(parts[1..], sep)
  }
}

=== FILE: users.dfy ===
/** The user document's own rules (package `db`, `User`): password strength,
    the password-change guard, the first name used in mails, and lookup by id. */
module Users {
  import opened Wrappers
  import opened Text
  import opened Records

  /** `IsPasswordSecure`: rejected when it equals its lower-case form or is
      shorter than eight bytes. */
  predicate IsPasswordSecure(password: string) {
    !(password == ToLower(password) || Utf8Length(password) < 8)
  }

  /** A password is secure exactly when its encoding has at least eight
      bytes and it has at least one upper-case letter. */
  lemma PasswordSecureIff(password: string)
    ensures IsPasswordSecure(password) <==>
      Utf8Length(password) >= 8 && exists i :: 0 <= i < |password| && IsUpper(password[i])
  {
    ToLowerFixedIff(password);
  }

  /** The length is counted in bytes: seven characters, one of them taking
      two bytes, are long enough. */
  lemma PasswordLengthInBytes()
    ensures |"Passw\U{F6}r"| == 7 && IsPasswordSecure("Passw\U{F6}r")
  {
    PasswordSecureIff("Passw\U{F6}r");
    assert IsUpper("Passw\U{F6}r"[0]);
  }

  const WeakPassword := "Weak Password (must have at least 1 capital letter and over 8 characters)"

  /** The error `UpdateId` returns when no document has the id. */
  const NotFoundError := "not found"

  /** `User.UpdatePassword`: a weak password is refused before anything is
      written; otherwise the user's hash becomes `hashed` (the opaque output of
      `HashPassword`) and nothing else changes. */
  function UpdatePassword(users: seq<User>, id: ObjectId, password: string, hashed: string): (r: Result<seq<User>>)
    ensures !IsPasswordSecure(password) ==> r == Failure(WeakPassword)
    ensures IsPasswordSecure(password) && (forall u :: u in users ==> u.id != id) ==> r == Failure(NotFoundError)
    ensures IsPasswordSecure(password) && (exists u :: u in users && u.id == id) ==> r.Success?
    ensures r.Success? ==> IsPasswordSecure(password) && |r.value| == |users|
    ensures r.Success? ==> forall i :: 0 <= i < |users| ==>
      r.value[i].(passwordHash := users[i].passwordHash) == users[i] &&
      (users[i].id == id ==> r.value[i].passwordHash == Some(hashed)) &&
      (users[i].id != id ==> r.value[i] == users[i])
  {
    if !IsPasswordSecure(password) then Failure(WeakPassword)
    else if FindUser(users, id).None? then Failure(NotFoundError)
    else Success(UpdateUser(users, id, (u: User) => u.(passwordHash := Some(hashed))))
  }

  /** `User.GetName`: element 0 of splitting the name on single spaces. */
  function GetName(name: string): string {
    SplitFirst(name, " ")
  }

  /** The first name is the longest space-free prefix of the name: it holds no
      space, and it is either the whole name or followed by a space. */
  lemma {:induction false} GetNameIsFirstWord(name: string)
    ensures var r := GetName(name);
      ' ' !in r && |r| <= |name| && r == name[..|r|] &&
      (|r| < |name| ==> name[|r|] == ' ')
  {
    match FindFrom(name, " ", 0)
    case None =>
      forall j | 0 <= j < |name| ensures name[j] != ' ' {
        assert !OccursAt(name, " ", j);
        assert name[j..j + 1] == [name[j]];
      }
    case Some(i) =>
      forall j | 0 <= j < i ensures name[j] != ' ' {
        assert !OccursAt(name, " ", j);
        assert name[j..j + 1] == [name[j]];
      }
      assert name[i..i + 1] == " ";
  }

  /** A name made of a space-free first word, a space and anything after it
      yields that first word; a name without a space yields itself. */
  lemma GetNameOfFullName(first: string, rest: string)
    requires ' ' !in first
    ensures GetName(first + " " + rest) == first
    ensures GetName(first) == first
  {
    var name := first + " " + rest;
    GetNameIsFirstWord(name);
    GetNameIsFirstWord(first);
    var r := GetName(name);
    assert name[|first|] == ' ';
    assert forall j :: 0 <= j < |first| ==> name[j] == first[j] && first[j] in first;
    assert forall k :: 0 <= k < |r| ==> name[k] == r[k] && r[k] in r;
  }

  /** `FindUserByID`: an invalid id is an error, a missing user is no user and
      no error. */
  function FindUserById(users: seq<User>, id: ObjectId): (r: Result<Option<User>>)
    ensures r == Failure("Invalid ID") <==> !ValidId(id)
    ensures r == Success(None) <==> ValidId(id) && forall u :: u in users ==> u.id != id
    ensures r.Success? && r.value.Some? ==> r.value.value in users && r.value.value.id == id
  {
    if !ValidId(id) then Failure("Invalid ID") else Success(FindUser(users, id))
  }
}

=== FILE: wrappers.dfy ===
/** Optional values and handler replies shared by every module of the model. */
module Wrappers {

  /** A value that may be absent: Go's nil pointers, zero `time.Time` values and
      `omitempty` fields that were never set. */
  datatype Option<+T> = None | Some(value: T) {

    /** The value, or `default` when absent. */
    function GetOr(default: T): T {
      match this
      case Some(v) => v
      case None => default
    }
  }

  /** What an HTTP handler answers. A handler either succeeds with a value
      (usually the new store) or writes one of the failure statuses below and
      leaves the store as it was. */
  datatype Reply<+T> =
    | Ok(value: T)
      /** 400, with the messages the handler writes (empty when it writes only the status). */
    | BadRequest(errors: seq<string>)
      /** 403 */
    | Forbidden
      /** 404 */
    | NotFound
      /** 409 */
    | Conflict
      /** A Go `panic`: the request ends with a server error. */
    | ServerError
  {
    predicate IsOk() { Ok? }
  }

  /** A Go `(value, error)` pair: the value, or the error's message. */
  datatype Result<+T> = Success(value: T) | Failure(error: string)
}
